=== FILE: README.md ===
# Grandberg storefront: a Dafny model of its list, order, catalogue and signup logic

Grandberg is a React Native wholesale storefront. Customers keep a shopping
list (the cart), place orders and sign up with their company details.
Administrators maintain products and categories and work through the
incoming orders. This project models the deterministic part of that app as
pure Dafny functions over immutable datatypes:

- the list store, the local order history and the order-status domain;
- the home and admin product cards' price and VAT formulas, on exact `real`s;
- category slugs, the category delete guard and the category screen's list edits;
- the product validators and row builders of the admin product screens;
- the admin order screen: paging, the de-duplicating page merge, `hasMore`,
  status actions, counters and the order editor's quantity rules;
- the order and user services' data shaping over an abstract table state;
- signup validation, the auth store's login/signup/logout transitions and
  the e-mail verification countdown.

Every backend call (Supabase queries, auth calls, AsyncStorage, push
notifications) is a parameter: the model takes the call's reply as an input
datatype and returns the new state or result. The JavaScript built-ins the
logic leans on are modelled once in `Js`:

- `trim` and the `\s` class;
- `includes`;
- the number type, with NaN and the infinities;
- truthiness and `x || fallback`;
- `parseInt`, `parseFloat` and `String(n)`.

One module per source file; `Js`, `Backend` (thrown errors and service
results), `Seqs` (`filter`) and `Forms` (alerts, validation results) are
shared helpers.

## Model

| member | source | states |
|---|---|---|
| ListStore.AddItem | app/store/listStore.ts:25-29 | the product is appended at the end, the earlier items are untouched, length grows by 1 |
| ListStore.AddItemDuplicates | app/store/listStore.ts:27 | adding a product whose id is already listed leaves two entries with that id |
| ListStore.RemoveItem | app/store/listStore.ts:30-34 | no entry with the id remains, every kept entry came from the list, every entry with another id is kept |
| ListStore.RemoveItemConcat | app/store/listStore.ts:32 | removal distributes over concatenation, so the kept entries stay in their original order |
| ListStore.RemoveAbsent | app/store/listStore.ts:30-34 | removing an id that is not listed returns the list unchanged |
| ListStore.RemoveUndoesAdd | app/store/listStore.ts:25-34 | removing a just-added product whose id was absent restores the list |
| ListStore.UpdateQuantity | app/store/listStore.ts:35-43 | length kept; non-matching entries unchanged; matching entries differ only in quantity, which is q+1 on increment and max(1, q-1) on decrement |
| ListStore.DecrementFloor | app/store/listStore.ts:39 | decrementing a quantity of 1 leaves it at 1 |
| ListStore.UpdateKeepsPositive | app/store/listStore.ts:39 | if all quantities are at least 1 before a step, they are all at least 1 after it |
| ListStore.IncrementThenDecrement | app/store/listStore.ts:39 | stepping up then down returns the list it started from when quantities are at least 1 |
| ListStore.UpdateKeepsMembership | app/store/listStore.ts:37-41 | a quantity step never changes which ids are listed |
| ListStore.ClearItems | app/store/listStore.ts:44-46 | clearing yields the empty list |
| ListStore.HasItem | app/store/listStore.ts:47-49 | true iff some entry has the id |
| ListStore.HasItemAfterAdd | app/store/listStore.ts:25-29 | after adding a product its id is listed |
| ListStore.NotHasItemAfterRemove | app/store/listStore.ts:30-34 | after removing an id it is no longer listed |
| ListStore.RunKeepsPositive | app/store/listStore.ts:25-46 | over any sequence of adds (with positive quantity), removes, steps and clears, every quantity stays at least 1 |
| ListStore.Toggle | app/store/listStore.ts:25-49 | the category screen's toggle flips membership of the product's id (the screen composes `hasItem`, `removeItem` and `addItem`) |
| ListStore.ToggleKeepsUnique | app/store/listStore.ts:25-49 | because the toggle tests membership first, a list with unique ids keeps unique ids (the screen composes `hasItem`, `removeItem` and `addItem`) |
| ListStore.RemoveKeepsUnique | app/store/listStore.ts:32 | removing keeps ids unique |
| OrderStore.AddOrder | app/store/orderStore.ts:28-35 | the new order is at index 0 with the given id and every draft field copied; the earlier orders follow in order |
| OrderStore.UpdateOrderStatus | app/store/orderStore.ts:36-44 | length kept; every order with the id takes the status and nothing else; other orders unchanged |
| OrderStore.UpdateUnknownId | app/store/orderStore.ts:38-42 | an unknown id is a no-op |
| OrderStore.UpdateSetsStatus | app/store/orderStore.ts:38-40 | after the update the order with the id has the new status |
| OrderStore.UpdateIdempotent | app/store/orderStore.ts:36-44 | a second identical update changes nothing |
| OrderStore.UpdateRestores | app/store/orderStore.ts:36-44 | setting an order's status back restores the history when ids are unique |
| OrderStore.UpdateAfterAdd | app/store/orderStore.ts:28-44 | a status update after an add touches the new order only when the ids agree |
| OrderTypes.AllStatusesEnumerates | app/types/order.ts:14 | there are exactly three statuses: pending, processing, completed |
| OrderTypes.Label | app/types/order.ts:16-20 | Pending reads "Bekliyor", Processing "İşleniyor", Completed "Tamamlandı", each in both directions |
| OrderTypes.LabelsDistinct | app/types/order.ts:16-20 | distinct statuses have distinct labels |
| OrderTypes.DbName | app/types/supabase.ts:231 | Pending, Processing and Completed are "pending", "processing" and "completed" in the `order_status` enum, each in both directions |
| OrderTypes.ParseDbStatus | app/types/supabase.ts:90 | reading the `orders.status` column: the three enum values and nothing else |
| OrderTypes.DbNameRoundTrip | app/types/order.ts:14 | a status read back from its database name is itself |
| Pricing.GrossPrice | app/components/home/ProductCard.tsx:20 | gross price; with vat 0 it is the net price, and for price and vat at least 0 it is at least the price |
| Pricing.VatAmount | app/components/admin/ProductCard.tsx:59 | VAT amount; 0 when vat is 0, non-negative for non-negative inputs |
| Pricing.TotalPrice | app/components/admin/ProductCard.tsx:62 | the admin total is net plus the VAT amount |
| Pricing.TotalIsGross | app/components/admin/ProductCard.tsx:62 | the admin total equals the home card's gross price for every price and vat |
| Pricing.ZeroVatTotal | app/components/admin/ProductCard.tsx:59-62 | with vat 0 the VAT amount is 0 and the total is the price |
| Pricing.GrossMonotoneInVat | app/components/home/ProductCard.tsx:20 | for a non-negative price, more VAT never lowers the gross price |
| Pricing.GrossAdditive | app/components/home/ProductCard.tsx:20 | at a fixed rate, gross(a + b) = gross(a) + gross(b) |
| Pricing.ColaLightExample | app/types/product.ts:16-17 | 19.99 at 19 % gives VAT 3.7981 and total 23.7881 before display rounding |
| Pricing.ListButtonLabel | app/components/home/ProductCard.tsx:55-62 | "Listede" iff the product is in the list, otherwise "Listeye Ekle" |
| CategoryService.ToLower | app/services/categoryService.ts:27 | lower-casing keeps length and maps A-Z to a-z, leaving other characters alone |
| CategoryService.CollapseSpaces | app/services/categoryService.ts:28 | the result has no whitespace |
| CategoryService.StripNonSlug | app/services/categoryService.ts:29 | only characters in [a-z0-9-] remain, each of them is kept, and every kept character comes from the input |
| CategoryService.StripIsFilter | app/services/categoryService.ts:29 | the strip step is the order-preserving filter on [a-z0-9-] |
| CategoryService.StripDropsOther | app/services/categoryService.ts:29 | a character outside [a-z0-9-] is removed |
| CategoryService.Slug | app/services/categoryService.ts:26-29 | the slug holds only [a-z0-9-] and no whitespace |
| CategoryService.SlugIdempotent | app/services/categoryService.ts:26-29 | slug(slug(x)) = slug(x) |
| CategoryService.SlugAtRun | app/services/categoryService.ts:28-29 | a maximal whitespace run between two parts becomes exactly one '-' between their slugs |
| CategoryService.DroppedSymbolDoubleHyphen | app/services/categoryService.ts:28-29 | a symbol outside [a-z0-9-] between two spaces, as in "Gemüse & Obst", leaves a double hyphen, because whitespace becomes '-' before symbols are stripped |
| CategoryService.CategoryRowFor | app/services/categoryService.ts:26-36 | the written row keeps the name and the active flag, and its slug is the name's slug, so it is made of [a-z0-9-] only |
| CategoryService.CreateCategory | app/services/categoryService.ts:24-51 | the insert writes `CategoryRowFor(formData)` with no row filter and no `updated_at`; success carries the inserted row; an error gives its message or the create fallback |
| CategoryService.UpdateCategory | app/services/categoryService.ts:53-82 | the update on row `id` writes `CategoryRowFor(formData)` plus `updated_at` set to the given time; success carries the updated row; an error gives its message or the update fallback |
| CategoryService.CreateAndUpdateWriteSameRow | app/services/categoryService.ts:24-82 | creating and updating with the same form write the same name, slug and flag whatever the replies; only the update adds the time stamp |
| CategoryService.DeleteCategory | app/services/categoryService.ts:84-113 | a count error fails without deleting; a count above 0 fails with the in-use message without deleting; a null or 0 count sends the delete |
| CategoryService.InUseNeverDeletes | app/services/categoryService.ts:94-96 | whenever products use the category, no delete is sent |
| Backend.ErrorText | app/services/categoryService.ts:48 | an `Error`'s message, or the fallback for any other thrown value |
| CategoryManagement.StartEdit | app/components/admin/CategoryManagement.tsx:221-225 | the form takes the category's name and active flag; the list is unchanged |
| CategoryManagement.Cancel | app/components/admin/CategoryManagement.tsx:176-179 | the screen returns to the plain list with an empty form |
| CategoryManagement.HandleAdd | app/components/admin/CategoryManagement.tsx:40-60 | the service is called iff the trimmed name is non-empty and it gets the untrimmed form; success appends the new category and resets the form; failure keeps the list |
| CategoryManagement.AddThenAddAgain | app/components/admin/CategoryManagement.tsx:53-55 | after a successful add the form is empty, so saving again is refused |
| CategoryManagement.ReplaceById | app/components/admin/CategoryManagement.tsx:75-77 | only entries with the id are replaced, positions and length kept |
| CategoryManagement.HandleUpdate | app/components/admin/CategoryManagement.tsx:62-84 | refused without a category being edited or with a blank trimmed name; success replaces by id, clears the edit and resets the form |
| CategoryManagement.EditThenUpdate | app/components/admin/CategoryManagement.tsx:64-79 | editing a listed category and saving replaces exactly that entry when ids are unique |
| CategoryManagement.HandleDelete | app/components/admin/CategoryManagement.tsx:95-107 | success removes exactly the entries with that id; failure keeps the list |
| CategoryManagement.DeleteAfterAppend | app/components/admin/CategoryManagement.tsx:53 | deleting after an append is deleting from the earlier list, with the appended category kept at the end unless it is the one deleted (with line 103 of the same file) |
| AdminProducts.TrimOrNull | app/admin/index.tsx:74-78 | `s?.trim() \|\| null`: None for a missing or blank value, otherwise the value with all surrounding whitespace removed (`Js.TrimmedFromIsTrim`: this is exactly `trim`) |
| AdminProducts.TrimOrNullIdempotent | app/admin/index.tsx:74-78 | cleaning a cleaned value changes nothing |
| AdminProducts.ValidateUpdate | app/admin/index.tsx:50-80 | checks run name, price, VAT, category and report the first failure; a valid product yields the name and category with all surrounding whitespace removed, the cleaned description and image, and price and VAT unchanged |
| AdminProducts.PriceZeroAccepted | app/admin/index.tsx:56-59 | a price of 0 passes the price check |
| AdminProducts.Merge | app/admin/index.tsx:96 | `{ ...product, ...updateData }`: id kept, the written columns replaced |
| AdminProducts.RevalidateMerged | app/admin/index.tsx:72-96 | a merged product validates to the same columns again |
| AdminProducts.MergeById | app/admin/index.tsx:93-99 | only products with the id are merged; length and others kept |
| AdminProducts.HandleUpdate | app/admin/index.tsx:46-114 | a validation failure shows its message and sends nothing; an update error shows the fallback; success merges into the list and closes the editor |
| AdminProducts.UpdateTouchesOnlyTarget | app/admin/index.tsx:93-99 | updating a listed product leaves the other products alone when ids are unique |
| AdminProducts.HandleDelete | app/admin/index.tsx:116-137 | success removes exactly the products with the id; failure keeps the list and shows the fixed message |
| AdminProducts.DeleteAbsent | app/admin/index.tsx:128-130 | deleting an unlisted id leaves the list as it was |
| AdminProducts.DeleteConcat | app/admin/index.tsx:128-130 | deletion distributes over concatenation, so the kept products stay in their order |
| AdminProducts.DeleteSingle | app/admin/index.tsx:128-130 | a single product is dropped iff it has the id, which with DeleteConcat pins the whole result |
| NewProduct.EmptyToNull | app/admin/new.tsx:48-51 | the empty string becomes null; anything else is kept verbatim |
| NewProduct.RowFor | app/admin/new.tsx:46-53 | name and category verbatim; description and image are null exactly when empty, otherwise the text; price `parseFloat`, VAT `parseInt` |
| NewProduct.HandleAdd | app/admin/new.tsx:37-67 | nothing is inserted iff name, price text or category is empty; otherwise the row is inserted and success navigates back |
| NewProduct.DefaultFormRefused | app/admin/new.tsx:12-19 | the untouched form, with VAT "19" and category "Getränke", is refused (with lines 41-44 of the same file) |
| NewProduct.BlankNameInserted | app/admin/new.tsx:41 | there is no trimming: a name of one space is inserted |
| NewProduct.UnparsedPriceInserted | app/admin/new.tsx:49 | a price text without digits passes the check and is inserted as NaN |
| NewProduct.DefaultVatIs19 | app/admin/new.tsx:16 | the default VAT text is stored as the number 19 (with line 50 of the same file) |
| EditProductForm.PriceFromText | app/components/admin/EditProductForm.tsx:113 | unparsable or zero price text becomes 0; other text becomes its parsed value |
| EditProductForm.VatFromText | app/components/admin/EditProductForm.tsx:123 | the VAT selector's text reads as NaN exactly when it has no leading integer, otherwise as that integer |
| EditProductForm.HandleUpdate | app/components/admin/EditProductForm.tsx:39-60 | the product is submitted unchanged iff name and category are non-empty and the price is positive; a missing field or a falsy price gives the required-fields message, a negative price the price message |
| EditProductForm.UnparsedPriceRefused | app/components/admin/EditProductForm.tsx:49 | price text that does not parse leaves price 0, which the form refuses (with line 113 of the same file) |
| EditProductForm.StricterThanHandler | app/components/admin/EditProductForm.tsx:49 | whatever the form submits with a non-blank name and category and a valid VAT passes the handler, and a price-0 product never gets through the form |
| EditProductForm.BlankNameReachesHandler | app/components/admin/EditProductForm.tsx:43 | a name of spaces passes the form but not the handler |
| OrderManagement.PageParams | app/components/admin/OrderManagement.tsx:43-49 | each fetch asks for limit 20 at offset page × 20 with the screen's filters and no user |
| OrderManagement.PagesAdjoin | app/components/admin/OrderManagement.tsx:15 | page p covers rows 20p to 20p+19 and page p+1 starts right after (with lines 43-45 of the same file) |
| OrderManagement.MergePage | app/components/admin/OrderManagement.tsx:58-63 | the loaded orders stay first and in order; a fetched order is appended iff its id is not yet loaded |
| OrderManagement.MergeKeepsUnique | app/components/admin/OrderManagement.tsx:60-62 | unique ids in the loaded list and the page give unique ids after the merge |
| OrderManagement.MergeSamePageTwice | app/components/admin/OrderManagement.tsx:58-63 | merging the same page twice adds nothing the second time |
| OrderManagement.HasMore | app/components/admin/OrderManagement.tsx:67 | true iff (count, null read as 0) > (page + 1) × 20 |
| OrderManagement.FetchOrders | app/components/admin/OrderManagement.tsx:33-74 | a refresh replaces the list by the page, a plain fetch merges; the count and hasMore follow the result; a failure sets the error text |
| OrderManagement.FetchKeepsUnique | app/components/admin/OrderManagement.tsx:55-63 | a fetch keeps loaded ids unique when the page's ids are unique |
| OrderManagement.LoadMore | app/components/admin/OrderManagement.tsx:125-129 | the page grows by 1 only when hasMore holds and nothing is loading; otherwise nothing changes |
| OrderManagement.AsWrittenNeverHasMore | app/components/admin/OrderManagement.tsx:66-67 | with the service as written, after any successful fetch hasMore is false, the total is 0 and loadMore does nothing |
| OrderManagement.CountedHasMore | app/components/admin/OrderManagement.tsx:66-67 | with the count asked for, hasMore holds iff more than (page + 1) × 20 orders match |
| OrderManagement.LoadMoreRequestsNextPage | app/components/admin/OrderManagement.tsx:125-129 | paging on asks for the rows right after the loaded page (with lines 43-45 of the same file) |
| OrderManagement.UpdateStatusLocal | app/components/admin/OrderManagement.tsx:84-90 | only the status of orders with the id changes |
| OrderManagement.StatusUpdateKeepsIds | app/components/admin/OrderManagement.tsx:84-90 | a status change keeps every id and items, so unique ids stay unique |
| OrderManagement.HandleStatusUpdate | app/components/admin/OrderManagement.tsx:76-97 | success updates locally with the success alert; failure keeps the list with the failure alert |
| OrderManagement.Actions | app/components/admin/OrderManagement.tsx:270-285 | "İşleme Al" is offered iff the status is not processing, "Tamamla" iff it is not completed |
| OrderManagement.ActionsChangeStatus | app/components/admin/OrderManagement.tsx:270-285 | every offered action changes the status; pending offers both, so status is not monotone |
| OrderManagement.CountStatus | app/components/admin/OrderManagement.tsx:199-205 | a status counter is at most the number of loaded orders, and 0 iff no loaded order has that status |
| OrderManagement.CountIsFilter | app/components/admin/OrderManagement.tsx:199-205 | a status counter is the number of loaded orders with that status, the length of the status filter |
| OrderManagement.CountsPartition | app/components/admin/OrderManagement.tsx:199-205 | the three per-status counts add up to the number of loaded orders |
| OrderManagement.StatusColor | app/components/admin/OrderManagement.tsx:142-151 | the order screen's colours agree with the profile list's colours on every status |
| OrderManagement.CustomerName | app/components/admin/OrderManagement.tsx:229 | the user's full name when present and non-empty, else "Bilinmeyen Kullanıcı", also without a joined user |
| OrderManagement.CustomerEmail | app/components/admin/OrderManagement.tsx:232 | the user's e-mail when present and non-empty, else "E-posta yok", also without a joined user |
| OrderManagement.ItemName | app/components/admin/OrderManagement.tsx:239 | the joined product name when present and non-empty, else "Ürün"; never empty |
| OrderManagement.CardShowsAllItems | app/components/admin/OrderManagement.tsx:237-246 | the card previews a prefix of the items, and the preview plus the "+k" count cover all of them |
| EditOrderModal.Current | app/components/admin/EditOrderModal.tsx:31 | `quantities[id] \|\| 1`: a missing or zero entry reads as 1 (with lines 42 and 97 of the same file) |
| EditOrderModal.InitialQuantities | app/components/admin/EditOrderModal.tsx:19-23 | the keys are exactly the item ids, and each id maps to the quantity of its last item |
| EditOrderModal.InitialAtLeastOne | app/components/admin/EditOrderModal.tsx:19-23 | items with positive quantities open with a map of positive quantities |
| EditOrderModal.Plus | app/components/admin/EditOrderModal.tsx:28-33 | the id's quantity becomes (q \|\| 1) + 1; other entries unchanged |
| EditOrderModal.Minus | app/components/admin/EditOrderModal.tsx:28-33 | the id's quantity becomes max(1, (q \|\| 1) − 1), always at least 1; other entries unchanged |
| EditOrderModal.TextQuantity | app/components/admin/EditOrderModal.tsx:98-104 | `parseInt(text) \|\| 1`: non-numeric or zero text gives 1, any other parsed integer, negatives included, passes through |
| EditOrderModal.DisplayRoundTrip | app/components/admin/EditOrderModal.tsx:97-99 | reading back the displayed `String(quantity)` gives the same quantity |
| EditOrderModal.ApplyAsWritten | app/components/admin/EditOrderModal.tsx:28-33 | one edit as the modal is written: typed text is stored as `TextQuantity` (with lines 98-104 of the same file) |
| EditOrderModal.TextQuantityFloored | app/components/admin/EditOrderModal.tsx:98-104 | the corrected field: always at least 1, and equal to the written rule whenever that gives at least 1 |
| EditOrderModal.Apply | app/components/admin/EditOrderModal.tsx:28-33 | one edit with the corrected field: typed text is stored floored at 1, and only the edited id changes (with lines 98-104 of the same file) |
| EditOrderModal.Run | app/components/admin/EditOrderModal.tsx:28-33 | a run of edits never loses a key (with lines 98-104 of the same file) |
| EditOrderModal.RunKeepsAtLeastOne | app/components/admin/EditOrderModal.tsx:28-33 | with the corrected field, any run of edits keeps every quantity at least 1 (with lines 98-104 of the same file) |
| EditOrderModal.Save | app/components/admin/EditOrderModal.tsx:35-45 | nothing without an order; otherwise one {id, quantity \|\| 1} line per item, in item order |
| EditOrderModal.SaveUntouched | app/components/admin/EditOrderModal.tsx:19-43 | with unique item ids, saving without edits sends each item's quantity back, a zero going out as 1 |
| EditOrderModal.SavedQuantitiesAtLeastOne | app/components/admin/EditOrderModal.tsx:40-43 | with the corrected field every saved quantity is at least 1 |
| EditOrderModal.NegativeQuantitySaved | app/components/admin/EditOrderModal.tsx:99 | as written, typing "-5" and pressing + saves the quantity -4 |
| AdminOrderList.StatusText | app/components/profile/AdminOrderList.tsx:64-75 | completed, processing, pending map to Tamamlandı, İşleniyor, Bekliyor; any other text to Bilinmiyor |
| AdminOrderList.StatusTextAgrees | app/components/profile/AdminOrderList.tsx:64-72 | the status text agrees with the label map on all three statuses |
| AdminOrderList.StatusColor | app/components/profile/AdminOrderList.tsx:38-49 | completed is #16a34a, processing #f59e0b, pending and anything else #64748b |
| AdminOrderList.Preview | app/components/profile/AdminOrderList.tsx:102 | the first min(2, n) items, in order |
| AdminOrderList.MoreCount | app/components/profile/AdminOrderList.tsx:107-111 | a "+k" count appears iff n > 2, and then k is positive |
| AdminOrderList.PreviewAccountsForAll | app/components/profile/AdminOrderList.tsx:102-111 | shown items plus k equal n |
| AdminOrderList.MoreLine | app/components/profile/AdminOrderList.tsx:107-111 | the "+k diğer ürün" line appears exactly when there are more than two items, and reads "+" then n − 2 then " diğer ürün" |
| AdminOrderList.CustomerName | app/components/profile/AdminOrderList.tsx:92 | the user name, else the e-mail, else "Bilinmeyen Kullanıcı", empty strings skipped |
| OrderService.NewOrderRow | app/services/orderService.ts:33-43 | the order row has the given user, total, address and notes, and status pending |
| OrderService.ItemRows | app/services/orderService.ts:48-53 | one item row per cart line, in order, pointing at the new order, with product, quantity and price copied |
| OrderService.CreateOrder | app/services/orderService.ts:28-96 | an order-insert failure writes nothing and fails; an item-insert failure fails but keeps the order row; otherwise the order and its items are written and the result is success |
| OrderService.NotificationsNeverFailOrder | app/services/orderService.ts:62-88 | whatever the token lookup returns, the result and tables are the same |
| OrderService.ItemFailureKeepsOrderRow | app/services/orderService.ts:32 | a failed item insert is not rolled back: the order row stays, without items (with lines 55-59 of the same file) |
| OrderService.NewItemsPointAtOrder | app/services/orderService.ts:48-57 | after success the new item rows are exactly the cart lines, each pointing at the new order |
| OrderService.BuildQuery | app/services/orderService.ts:98-151 | offset defaults to 0 and limit to 50; the inclusive range has exactly `limit` rows; the user filter appears iff a non-empty user id is given, each other filter iff it was given; no count is requested |
| OrderService.DefaultQuery | app/services/orderService.ts:100-102 | with no parameters the query is rows 0 to 49, unfiltered (with line 151 of the same file) |
| OrderService.UserQueryMatchesOwnOrders | app/services/orderService.ts:134-140 | a row admitted by a user's query belongs to that user and has the asked status |
| OrderService.Normalise | app/services/orderService.ts:158-162 | missing items become []; the user, id, owner, status, total and creation time are kept |
| OrderService.ReportedCount | app/services/orderService.ts:153-167 | the count is reported iff the query asked for it, and then it is the number of matching rows |
| OrderService.RunList | app/services/orderService.ts:153-175 | an error gives its message or the list fallback; success normalises every row, in order, with the reported count |
| OrderService.ListOrders | app/services/orderService.ts:98-176 | as written: it succeeds iff the query does, and the count is always null |
| OrderService.CountedQuery | app/services/orderService.ts:110-151 | the same conditions and range, with the count requested |
| OrderService.ListOrdersCounted | app/services/orderService.ts:98-176 | corrected: the same page, with the number of matching rows as its count |
| OrderService.UpdateOrderStatus | app/services/orderService.ts:178-195 | success iff the update succeeded; an error gives its message or the status fallback |
| OrderService.ApplyStatusUpdate | app/services/orderService.ts:180-183 | the row with the id takes the status and the current time; others unchanged |
| OrderService.StatusUpdateOfNewOrder | app/services/orderService.ts:40 | a newly created order can be moved on, and the update touches only its row (with lines 180-183 of the same file) |
| UserService.Listed | app/services/userService.ts:22-25 | a user is kept iff its role is not 'admin'; a missing role keeps it |
| UserService.ListUsers | app/services/userService.ts:5-35 | success lists every non-admin user and only those; any error gives the fixed message |
| UserService.ListKeepsOrder | app/services/userService.ts:15-22 | filtering distributes over concatenation, so the created_at order is kept |
| UserService.NoAdminsListsAll | app/services/userService.ts:22-27 | without administrators the list is the query's rows as they came |
| AuthStore.Login | app/store/authStore.ts:142-193 | an auth error is returned as is; a missing user or session gives "Login failed"; otherwise the store is authenticated with the session and fetched profile, admin iff the role is 'admin' |
| AuthStore.RestoreSession | app/store/authStore.ts:63-81 | a stored session signs the store in, with the admin flag from its user's role; an error or no session changes nothing |
| AuthStore.RestoreAgreesWithLogin | app/store/authStore.ts:72-81 | restoring a session gives the state a login with the same session gives (with lines 153-165 of the same file) |
| AuthStore.NullIfEmpty | app/store/authStore.ts:258-259 | `x \|\| null`: a missing or empty value becomes null, anything else is kept |
| AuthStore.ProfileRowFor | app/store/authStore.ts:252-261 | the profile row has the user's id and e-mail, the form's fields, and null for an empty tax id or address |
| AuthStore.ClassifyAuthError | app/store/authStore.ts:214-229 | in this order: a message with "User already registered" or "user_already_exists" gives the already-registered error, then one with "Invalid email" the invalid-e-mail error, then one with "Password" the weak-password error; any other error passes through unchanged |
| AuthStore.UnclassifiedPassesThrough | app/store/authStore.ts:229 | an error mentioning none of the phrases is returned unchanged |
| AuthStore.InvalidEmailBeforePassword | app/store/authStore.ts:219-225 | a message with "Invalid email" is classified as an invalid e-mail even if it also mentions "Password" |
| AuthStore.Signup | app/store/authStore.ts:195-285 | no auth call unless all four required fields are non-empty; an auth error is classified; a reply without a user gives "User creation failed"; a user without a session stores the pending data and asks for verification without changing the state, and only then is data left pending; a user with a session gets a profile row; a profile error signs out and returns it; success authenticates as non-admin |
| AuthStore.SignupNeverAdmin | app/store/authStore.ts:272-277 | signup never makes the store an admin one |
| AuthStore.OnInitialize | app/store/authStore.ts:103-133 | pending data is applied iff its user id is the session's; it is cleared and the profile refreshed only when the insert succeeded |
| AuthStore.OnSignedIn | app/store/authStore.ts:318-346 | the same id match; matching pending data is cleared whether or not the insert succeeded |
| AuthStore.DeferredProfileMatchesImmediate | app/store/authStore.ts:236-249 | verifying later writes the same profile row a signup with an immediate session writes, and clears the pending data (with lines 322-336 of the same file) |
| AuthStore.OtherUserIgnored | app/store/authStore.ts:110 | another user's pending data is neither applied nor cleared (with line 322 of the same file) |
| AuthStore.Logout | app/store/authStore.ts:287-303 | whatever sign-out replies, the store is unauthenticated, not admin, without user and session |
| AuthStore.LoginThenLogout | app/store/authStore.ts:142-303 | logging in and then out returns the store to its initial value |
| SignupScreen.TrimForm | app/components/auth/SignupScreen.tsx:66-79 | every field except the two passwords loses its surrounding whitespace and nothing else; the passwords are kept as typed |
| SignupScreen.TrimFormIdempotent | app/components/auth/SignupScreen.tsx:66-79 | trimming a trimmed form changes nothing |
| SignupScreen.EmailPatternIsShape | app/components/auth/SignupScreen.tsx:93-94 | the regex accepts exactly the strings with no whitespace, one '@' with text before it, and a domain with a '.' that is neither its first nor its last character |
| SignupScreen.Problem | app/components/auth/SignupScreen.tsx:82-128 | no problem iff every check passes; otherwise the first failing check's message, in the order full name, e-mail, e-mail format, company, phone, sector, postal code, password length, confirmation |
| SignupScreen.PaddingIgnored | app/components/auth/SignupScreen.tsx:66-79 | forms that trim alike get the same verdict |
| SignupScreen.AddressParts | app/components/auth/SignupScreen.tsx:131-140 | the parts are, in order, "street houseNumber" when both are given, the postal code when given and the state when given; each is non-empty |
| SignupScreen.Join | app/components/auth/SignupScreen.tsx:142 | joining nothing gives "", one part gives that part, more parts start with the first |
| SignupScreen.JoinPart | app/components/auth/SignupScreen.tsx:142 | each part sits in the joined text at its offset, the earlier parts each followed by one separator |
| SignupScreen.JoinSeparator | app/components/auth/SignupScreen.tsx:142 | one separator follows every part but the last |
| SignupScreen.JoinLength | app/components/auth/SignupScreen.tsx:142 | the joined text ends right after the last part |
| SignupScreen.Address | app/components/auth/SignupScreen.tsx:131-142 | null iff no part is given, otherwise the non-empty joined parts |
| SignupScreen.FullAddress | app/components/auth/SignupScreen.tsx:131-142 | with every field given the address reads "street number, postal, state" |
| SignupScreen.PostalAndStateAddress | app/components/auth/SignupScreen.tsx:131-142 | without a full street line, a postal code and a state read "postal, state" |
| SignupScreen.StreetNeedsNumber | app/components/auth/SignupScreen.tsx:132-134 | a street without a house number is left out |
| SignupScreen.Payload | app/components/auth/SignupScreen.tsx:144-151 | an empty tax id is sent as null, the address as assembled |
| SignupScreen.ScreenMeetsStoreCheck | app/components/auth/SignupScreen.tsx:82-151 | a form the screen accepts passes the store's required-field check, and the store writes its tax id and address unchanged |
| SignupScreen.ErrorText | app/components/auth/SignupScreen.tsx:158-175 | already registered first, then invalid e-mail, then weak password, by code or message; otherwise the message or "Kayıt işlemi başarısız" |
| SignupScreen.RegisteredTextShown | app/components/auth/SignupScreen.tsx:160-163 | the store's already-registered error shows its own text |
| SignupScreen.InvalidEmailTextShown | app/components/auth/SignupScreen.tsx:164-167 | the store's invalid-e-mail error shows its own text |
| SignupScreen.HandleSignup | app/components/auth/SignupScreen.tsx:60-183 | a request is sent iff the trimmed form passes; it carries the trimmed e-mail, the untrimmed password and the payload; verification hands on the e-mail; an error shows its text; a throw shows the fixed text |
| SignupScreen.SignupNeedingVerification | app/components/auth/SignupScreen.tsx:144-156 | a valid form reaches the store's auth call, and a reply without a session takes the screen to verification with the trimmed e-mail |
| EmailVerification.Settle | app/components/auth/EmailVerificationScreen.tsx:24-31 | the countdown effect allows resending once the countdown is 0 and changes nothing else |
| EmailVerification.Tick | app/components/auth/EmailVerificationScreen.tsx:24-31 | a second decrements a positive countdown and allows resending when it reaches 0; at 0 nothing happens |
| EmailVerification.TickKeepsConsistent | app/components/auth/EmailVerificationScreen.tsx:24-31 | a tick keeps "can resend iff the countdown is 0" |
| EmailVerification.TicksCountDown | app/components/auth/EmailVerificationScreen.tsx:21-31 | after n seconds the countdown is max(0, c − n), and resending is allowed iff it is 0 |
| EmailVerification.ResendAfterOneMinute | app/components/auth/EmailVerificationScreen.tsx:21-31 | from the opening state resending is possible after exactly 60 seconds |
| EmailVerification.ResendAreaOf | app/components/auth/EmailVerificationScreen.tsx:157-172 | the resend button is shown iff resending is allowed, otherwise the seconds to wait |
| EmailVerification.RejectionText | app/components/auth/EmailVerificationScreen.tsx:55-74 | "expired" first, then "invalid", else the generic text; a missing message makes `includes` throw and shows the crash text |
| EmailVerification.HandleVerify | app/components/auth/EmailVerificationScreen.tsx:33-78 | a code blank after trim, or whose untrimmed length is not 6, is refused without a verify call; otherwise the untrimmed code is sent and the reply decides the error or success alert |
| EmailVerification.PaddedCodeSent | app/components/auth/EmailVerificationScreen.tsx:39-50 | five digits and a trailing space pass the length check and are sent as they are |
| EmailVerification.HandleResend | app/components/auth/EmailVerificationScreen.tsx:80-109 | success resets the countdown to 60, forbids resending and clears the code; failure or a throw only sets its error text |
| EmailVerification.ResendKeepsConsistent | app/components/auth/EmailVerificationScreen.tsx:80-109 | a resend keeps "can resend iff the countdown is 0" |
| EmailVerification.ResendRestartsCountdown | app/components/auth/EmailVerificationScreen.tsx:100-101 | after a successful resend the next one is 60 seconds away |

## Left out

- Supabase, AsyncStorage, Expo and `fetch`: every query, auth call and storage write is replaced by its reply, given as a parameter. Nothing about the database's own behaviour beyond those replies is modelled.
- Push-token registration and sending (app/lib/notifications.ts) is not part of this model, nor is the admin push-token save in login and start-up. `createOrder` calls `userService.getAdminPushTokens`, which userService.ts does not define, so in the source that lookup always throws and is swallowed. The model takes the lookup's reply as a parameter and proves that no reply changes the outcome.
- Concurrency: the fire-and-forget `Promise.all` of notifications, `updateOrderItems` with its `Promise.all` (orderService.ts:197-220), and React state staleness. For example, a refresh computes its offset from the page before the reset; `FetchOrders` records the request built from the page it is given.
- `getOrderDetails` (orderService.ts:222-264) is a single-row read with the same user normalisation as `listOrders`; it is not modelled separately.
- Display formatting: `toFixed(2)`, `toLocaleDateString`, time formatting and `id.slice(0, 8)`. Prices are exact `real`s and IEEE-754 rounding is not modelled.
- Dates and times: ISO timestamps are opaque strings passed in (`now`, `createdAt`, the category update's `updated_at`), and date filters compare them as text.
- CategoryService.ToLower: lower-cases only A-Z. Unicode case mapping (Turkish İ, the Kelvin sign) is not modelled, so names outside ASCII letters are only covered up to that mapping.
- OrderStore.AddOrder: the id is a parameter instead of `Math.random().toString(36).substr(2, 9)`, so uniqueness of generated ids is not claimed.
- EditOrderModal.InitialQuantities: item quantities are non-null integers here, so the `quantity !== undefined ? quantity : 1` default never applies.
- SignupScreen.Problem: the password length is counted in Unicode characters, while JavaScript's `length` counts UTF-16 code units. The two differ only for characters outside the Basic Multilingual Plane.
- EmailVerification.HandleVerify: the same UTF-16 caveat applies to the six-character code check.
- Loading flags and spinners (`setLoading`, `resendLoading`, `updating`) are not modelled, except the `loading` guard of `loadMore`.
- Fetching lists on mount (`fetchCategories`, the product list load, `fetchUserProfile`): their results enter the model as parameters.
- The signup screen's sector and state dropdowns only fill in the fields; the model takes the fields as typed.
- The user-management screen, the order list of the profile tab (its preview repeats the rule modelled in `AdminOrderList`), styles, layouts, navigation and the other purely presentational components.
- Checkout message composition and the cart's totals screen are not part of this model.

## Findings

| source | as written | input that shows it | evidently intended | confidence | as-written member | corrected member |
|---|---|---|---|---|---|---|
| app/components/admin/EditOrderModal.tsx:99 | `parseInt(text) \|\| 1` keeps negative numbers, and + then − work from them | paste or enter "-5" from a hardware keyboard (the number pad has no minus key) in an item's field, press +: the saved quantity is -4 | quantities floored at 1, like the − button (`Math.max(1, …)`) | not executed | EditOrderModal.NegativeQuantitySaved | EditOrderModal.SavedQuantitiesAtLeastOne |
| app/services/orderService.ts:110-153 | the list query never asks for a count, so `count` is null and `hasMore` is always false | any successful admin fetch with more than 20 matching orders: hasMore is false, the total shows 0, and loadMore does nothing | the query requests the exact count, so paging works (OrderManagement.tsx:66-67) | not executed | OrderManagement.AsWrittenNeverHasMore | OrderManagement.CountedHasMore |

=== FILE: admin_order_list.dfy ===
/** The profile screen's admin order list: status text and colour from the
    status string, the two-item preview with its "+k diğer ürün" line, and the
    customer shown for an order. */
module AdminOrderList {
  import opened Js
  import opened OrderTypes
  import opened OrderStore

  const UnknownStatus := "Bilinmiyor"
  const Green := "#16a34a"
  const Amber := "#f59e0b"
  const Grey := "#64748b"
  const UnknownUser := "Bilinmeyen Kullanıcı"

  /** `getStatusText`: the label of a known status, "Bilinmiyor" otherwise. */
  function StatusText(status: string): (r: string)
    ensures ParseDbStatus(status).Some? ==> r == Label(ParseDbStatus(status).value)
    ensures r == UnknownStatus <==> ParseDbStatus(status).None?
  {
    if status == "completed" then "Tamamlandı"
    else if status == "processing" then "İşleniyor"
    else if status == "pending" then "Bekliyor"
    else UnknownStatus
  }

  /** The list's status text agrees with the status labels on every status. */
  lemma StatusTextAgrees(s: OrderStatus)
    ensures StatusText(DbName(s)) == Label(s)
  {
    DbNameRoundTrip(s);
  }

  /** `getStatusColor`: pending and unknown share the grey. */
  function StatusColor(status: string): (r: string)
    ensures r == Green <==> status == "completed"
    ensures r == Amber <==> status == "processing"
    ensures r == Grey <==> status != "completed" && status != "processing"
  {
    if status == "completed" then Green
    else if status == "processing" then Amber
    else if status == "pending" then Grey
    else Grey
  }

  /** `items.slice(0, 2)`. */
  function Preview<T>(items: seq<T>): (r: seq<T>)
    ensures |r| == if |items| < 2 then |items| else 2
    ensures r == items[..|r|]
  {
    if |items| <= 2 then items else items[..2]
  }

  /** The number on the "+k diğer ürün" line, present iff there are more than
      two items. */
  function MoreCount(n: nat): (r: Option<nat>)
    ensures r.Some? <==> n > 2
    ensures r.Some? ==> r.value > 0
  {
    if n > 2 then Some(n - 2) else None
  }

  /** The preview and the "+k" line together account for every item. */
  lemma PreviewAccountsForAll<T>(items: seq<T>)
    ensures |Preview(items)| + MoreCount(|items|).GetOr(0) == |items|
  {
  }

  /** The "+k diğer ürün" line, when shown. */
  function MoreLine(n: nat): (r: Option<string>)
    ensures r.Some? <==> n > 2
    ensures r.Some? ==> r.value == "+" + IntToString(n - 2) + " diğer ürün"
  {
    match MoreCount(n)
    case None => None
    case Some(k) => Some("+" + IntToString(k) + " diğer ürün")
  }

  /** `userName || userEmail || 'Bilinmeyen Kullanıcı'`. */
  function CustomerName(o: Order): (r: string)
    ensures o.userName.Some? && o.userName.value != "" ==> r == o.userName.value
    ensures (o.userName.None? || o.userName.value == "") && o.userEmail.Some? && o.userEmail.value != "" ==>
      r == o.userEmail.value
    ensures (o.userName.None? || o.userName.value == "") && (o.userEmail.None? || o.userEmail.value == "") ==>
      r == UnknownUser
  {
    StringOr(o.userName, StringOr(o.userEmail, UnknownUser))
  }
}

=== FILE: admin_products.dfy ===
/** The admin product screen: the ordered checks and the cleaned update row of
    `handleUpdateProduct`, the local merge after a successful update, and the
    local filter after a delete. The backend's replies are parameters; the
    current time is the `now` parameter. */
module AdminProducts {
  import opened Js
  import opened Backend
  import opened Forms
  import opened Seqs

  /** A product row as the screen holds it. Numbers are JavaScript numbers,
      since the edit form can hand over NaN. */
  datatype Product = Product(
    id: string,
    name: string,
    description: Option<string>,
    price: JsNumber,
    vat: JsNumber,
    image: Option<string>,
    category: string,
    updatedAt: Option<string>)

  /** The columns `handleUpdateProduct` writes. */
  datatype UpdateData = UpdateData(
    name: string,
    description: Option<string>,
    price: JsNumber,
    vat: JsNumber,
    category: string,
    image: Option<string>,
    updatedAt: string)

  const NameMessage := "Ürün adı zorunludur"
  const PriceMessage := "Geçerli bir fiyat giriniz"
  const VatMessage := "Geçerli bir KDV oranı giriniz"
  const CategoryMessage := "Kategori seçimi zorunludur"
  const UpdateFallback := "Ürün güncellenirken bir hata oluştu."
  const DeleteMessage := "Ürün silinirken bir hata oluştu."
  const Updated := Alert("Başarılı", "Ürün başarıyla güncellendi!")
  const Deleted := Alert("Başarılı", "Ürün başarıyla silindi!")

  /** Neither NaN nor below zero; zero itself is accepted. */
  predicate ValidAmount(x: JsNumber) {
    !x.NaN? && !x.IsNegative()
  }

  /** `s?.trim() || null`. */
  function TrimOrNull(s: Option<string>): (r: Option<string>)
    ensures r.None? <==> s.None? || AllSpace(s.value)
    ensures r.Some? ==> r.value != "" && TrimmedFrom(s.value, r.value)
  {
    match s
    case None => None
    case Some(t) => if Trim(t) == "" then None else Some(Trim(t))
  }

  /** Cleaning a cleaned value changes nothing. */
  lemma TrimOrNullIdempotent(s: Option<string>)
    ensures TrimOrNull(TrimOrNull(s)) == TrimOrNull(s)
  {
    if s.Some? && Trim(s.value) != "" {
      TrimIdempotent(s.value);
    }
  }

  /** The validation chain and the update row: name, then price, then VAT,
      then category; the first failing check's message is reported. */
  function ValidateUpdate(p: Product, now: string): (r: Validation<UpdateData>)
    ensures r.Valid? <==>
      !AllSpace(p.name) && ValidAmount(p.price) && ValidAmount(p.vat) && !AllSpace(p.category)
    ensures AllSpace(p.name) ==> r == Invalid(NameMessage)
    ensures !AllSpace(p.name) && !ValidAmount(p.price) ==> r == Invalid(PriceMessage)
    ensures !AllSpace(p.name) && ValidAmount(p.price) && !ValidAmount(p.vat) ==> r == Invalid(VatMessage)
    ensures !AllSpace(p.name) && ValidAmount(p.price) && ValidAmount(p.vat) && AllSpace(p.category) ==>
      r == Invalid(CategoryMessage)
    ensures r.Valid? ==>
      TrimmedFrom(p.name, r.value.name) && r.value.name != ""
      && TrimmedFrom(p.category, r.value.category) && r.value.category != ""
      && r.value.price == p.price && r.value.vat == p.vat
      && r.value.description == TrimOrNull(p.description)
      && r.value.image == TrimOrNull(p.image)
      && r.value.updatedAt == now
  {
    if Trim(p.name) == "" then Invalid(NameMessage)
    else if p.price.NaN? || p.price.IsNegative() then Invalid(PriceMessage)
    else if p.vat.NaN? || p.vat.IsNegative() then Invalid(VatMessage)
    else if Trim(p.category) == "" then Invalid(CategoryMessage)
    else
      Valid(UpdateData(Trim(p.name), TrimOrNull(p.description), p.price, p.vat,
        Trim(p.category), TrimOrNull(p.image), now))
  }

  /** A price of 0 passes the handler's price check. */
  lemma PriceZeroAccepted(p: Product, now: string)
    requires p.price == Finite(0.0)
    requires !AllSpace(p.name) && ValidAmount(p.vat) && !AllSpace(p.category)
    ensures ValidateUpdate(p, now).Valid?
  {
  }

  /** `{ ...product, ...updateData }`. */
  function Merge(product: Product, d: UpdateData): (r: Product)
    ensures r.id == product.id
    ensures r.name == d.name && r.description == d.description && r.price == d.price
      && r.vat == d.vat && r.category == d.category && r.image == d.image
      && r.updatedAt == Some(d.updatedAt)
  {
    product.(name := d.name, description := d.description, price := d.price, vat := d.vat,
      category := d.category, image := d.image, updatedAt := Some(d.updatedAt))
  }

  /** A merged product is already clean: submitting it again produces the same
      row, only with the new time. */
  lemma RevalidateMerged(p: Product, now: string, later: string)
    requires ValidateUpdate(p, now).Valid?
    ensures var d := ValidateUpdate(p, now).value;
      ValidateUpdate(Merge(p, d), later) == Valid(d.(updatedAt := later))
  {
    TrimIdempotent(p.name);
    TrimIdempotent(p.category);
    TrimOrNullIdempotent(p.description);
    TrimOrNullIdempotent(p.image);
  }

  /** The local state update: every product with the id takes the new columns. */
  function MergeById(products: seq<Product>, id: string, d: UpdateData): (r: seq<Product>)
    ensures |r| == |products|
    ensures forall i :: 0 <= i < |products| && products[i].id != id ==> r[i] == products[i]
    ensures forall i :: 0 <= i < |products| && products[i].id == id ==> r[i] == Merge(products[i], d)
  {
    seq(|products|, i requires 0 <= i < |products| =>
      if products[i].id == id then Merge(products[i], d) else products[i])
  }

  datatype UpdateStep = UpdateStep(
    sent: Option<(string, UpdateData)>,
    products: seq<Product>,
    alert: Alert,
    closesEditor: bool)

  /** `handleUpdateProduct`, given the update query's reply. */
  function HandleUpdate(products: seq<Product>, p: Product, now: string, reply: Reply<()>): (r: UpdateStep)
    ensures r.sent.Some? <==> ValidateUpdate(p, now).Valid?
    ensures r.sent.Some? ==> r.sent.value == (p.id, ValidateUpdate(p, now).value)
    ensures ValidateUpdate(p, now).Invalid? ==>
      r.products == products && !r.closesEditor && r.alert == Alert("Hata", ValidateUpdate(p, now).message)
    ensures r.sent.Some? && reply.Err? ==>
      r.products == products && !r.closesEditor && r.alert == Alert("Hata", ErrorText(reply.error, UpdateFallback))
    ensures r.closesEditor <==> r.sent.Some? && reply.Ok?
    ensures r.closesEditor ==> r.products == MergeById(products, p.id, r.sent.value.1) && r.alert == Updated
  {
    match ValidateUpdate(p, now)
    case Invalid(m) => UpdateStep(None, products, Alert("Hata", m), false)
    case Valid(d) =>
      match reply
      case Err(e) => UpdateStep(Some((p.id, d)), products, Alert("Hata", ErrorText(e, UpdateFallback)), false)
      case Ok(_) => UpdateStep(Some((p.id, d)), MergeById(products, p.id, d), Updated, true)
  }

  /** An update of a listed product leaves the list's other products alone and
      leaves the edited one clean. */
  lemma UpdateTouchesOnlyTarget(products: seq<Product>, k: nat, p: Product, now: string)
    requires k < |products| && products[k].id == p.id
    requires ValidateUpdate(p, now).Valid?
    ensures var r := HandleUpdate(products, p, now, Ok(())).products;
      |r| == |products|
      && r[k].name != "" && !IsSpace(r[k].name[0]) && !IsSpace(r[k].name[|r[k].name| - 1])
      && (forall i :: 0 <= i < |products| && products[i].id != p.id ==> r[i] == products[i])
  {
    var d := ValidateUpdate(p, now).value;
    assert d.name == Trim(p.name);
    var r := HandleUpdate(products, p, now, Ok(())).products;
    assert r == MergeById(products, p.id, d);
    assert r[k] == Merge(products[k], d);
    assert r[k].name == Trim(p.name);
  }

  datatype DeleteStep = DeleteStep(products: seq<Product>, alert: Alert)

  /** `handleDeleteProduct`, given the delete query's reply. */
  function HandleDelete(products: seq<Product>, productId: string, reply: Reply<()>): (r: DeleteStep)
    ensures reply.Err? ==> r.products == products && r.alert == Alert("Hata", DeleteMessage)
    ensures reply.Ok? ==> r.alert == Deleted
    ensures reply.Ok? ==>
      (forall i :: 0 <= i < |r.products| ==> r.products[i].id != productId)
      && (forall q :: q in products && q.id != productId ==> q in r.products)
      && (forall q :: q in r.products ==> q in products)
  {
    match reply
    case Err(_) => DeleteStep(products, Alert("Hata", DeleteMessage))
    case Ok(_) => DeleteStep(Filter(products, (q: Product) => q.id != productId), Deleted)
  }

  /** Deleting an id that is not listed leaves the list as it was. */
  lemma DeleteAbsent(products: seq<Product>, productId: string)
    requires forall i :: 0 <= i < |products| ==> products[i].id != productId
    ensures HandleDelete(products, productId, Ok(())).products == products
  {
    FilterKeepsAll(products, (q: Product) => q.id != productId);
  }

  /** Deletion distributes over concatenation: each part loses its products
      with the id and the kept ones stay in their order. */
  lemma DeleteConcat(a: seq<Product>, b: seq<Product>, productId: string)
    ensures HandleDelete(a + b, productId, Ok(())).products
      == HandleDelete(a, productId, Ok(())).products + HandleDelete(b, productId, Ok(())).products
  {
    FilterConcat(a, b, (q: Product) => q.id != productId);
  }

  /** A single product is dropped iff it carries the id, so with `DeleteConcat`
      the result is pinned entry by entry. */
  lemma DeleteSingle(q: Product, productId: string)
    ensures HandleDelete([q], productId, Ok(())).products == if q.id == productId then [] else [q]
  {
    var keep := (x: Product) => x.id != productId;
    assert [q][1..] == [];
    assert Filter([q], keep) == (if keep(q) then [q] else []) + Filter([q][1..], keep);
  }
}

=== FILE: auth_store.dfy ===
/** The authentication store: its four fields, and how login, signup and
    logout change them. Every call into the auth library or the database is
    a parameter; so is the profile `fetchUserProfile` returns (None when it
    finds none or fails). Pending profile data saved at signup is applied
    when the same user later signs in. */
module AuthStore {
  import opened Js

  /** An error as the store passes it on: an object with an optional message
      and an optional code. */
  datatype ErrorObject = ErrorObject(message: Option<string>, code: Option<string>)

  /** `new Error(message)`. */
  function NewError(message: string): ErrorObject {
    ErrorObject(Some(message), None)
  }

  /** The outcome of a call into the auth library or the database. */
  datatype Outcome<+T> = Done(value: T) | Failed(error: ErrorObject)

  /** An auth user, with `app_metadata.role` when it is set. */
  datatype AuthUser = AuthUser(id: string, role: Option<string>)

  datatype Session = Session(user: AuthUser, accessToken: string)

  datatype Profile = Profile(
    id: string,
    email: string,
    fullName: string,
    companyName: string,
    phone: string,
    taxId: Option<string>,
    address: Option<string>,
    sector: Option<string>)

  datatype AuthState = AuthState(isAuthenticated: bool, isAdmin: bool, user: Option<Profile>, session: Option<Session>)

  /** The store's initial value, and its value after logout. */
  const SignedOut := AuthState(false, false, None, None)

  /** What sign-in and sign-up hand back: a user and a session, either missing. */
  datatype AuthData = AuthData(user: Option<AuthUser>, session: Option<Session>)

  // ---------------------------------------------------------------------
  // login

  datatype LoginStep = LoginStep(state: AuthState, error: Option<ErrorObject>)

  const LoginFailed := NewError("Login failed")

  /** `login`, given the sign-in reply and the profile then fetched. */
  function Login(s: AuthState, reply: Outcome<AuthData>, profile: Option<Profile>): (r: LoginStep)
    ensures reply.Failed? ==> r == LoginStep(s, Some(reply.error))
    ensures reply.Done? && (reply.value.user.None? || reply.value.session.None?) ==>
      r == LoginStep(s, Some(LoginFailed))
    ensures r.error.None? <==> reply.Done? && reply.value.user.Some? && reply.value.session.Some?
    ensures r.error.None? ==>
      r.state.isAuthenticated && r.state.user == profile && r.state.session == reply.value.session
      && (r.state.isAdmin <==> reply.value.user.value.role == Some("admin"))
  {
    match reply
    case Failed(e) => LoginStep(s, Some(e))
    case Done(data) =>
      if data.user.None? || data.session.None? then LoginStep(s, Some(LoginFailed))
      else LoginStep(AuthState(true, data.user.value.role == Some("admin"), profile, data.session), None)
  }

  /** The session part of `initialize`: a stored session signs the store in
      with the admin flag read from the session's user; an error or no
      session leaves the store as it was. */
  function RestoreSession(s: AuthState, reply: Outcome<Option<Session>>, profile: Option<Profile>): (r: AuthState)
    ensures reply.Failed? || reply.value.None? ==> r == s
    ensures reply.Done? && reply.value.Some? ==>
      r.isAuthenticated && r.user == profile && r.session == reply.value
      && (r.isAdmin <==> reply.value.value.user.role == Some("admin"))
  {
    match reply
    case Failed(_) => s
    case Done(None) => s
    case Done(Some(session)) => AuthState(true, session.user.role == Some("admin"), profile, Some(session))
  }

  /** Restoring a session gives the store the value a login with that
      session's user would have given it. */
  lemma RestoreAgreesWithLogin(s: AuthState, session: Session, profile: Option<Profile>)
    ensures RestoreSession(s, Done(Some(session)), profile)
      == Login(s, Done(AuthData(Some(session.user), Some(session))), profile).state
  {
  }

  // ---------------------------------------------------------------------
  // signup

  /** The profile fields the signup screen sends. */
  datatype UserData = UserData(
    fullName: string,
    companyName: string,
    phone: string,
    sector: string,
    taxId: Option<string>,
    address: Option<string>)

  /** What signup keeps until the e-mail is verified. */
  datatype PendingData = PendingData(userId: string, email: string, data: UserData)

  /** The row written to `users`. */
  datatype ProfileRow = ProfileRow(
    id: string,
    email: string,
    fullName: string,
    companyName: string,
    phone: string,
    taxId: Option<string>,
    address: Option<string>,
    sector: string)

  /** `x || null` for an optional string. */
  function NullIfEmpty(s: Option<string>): (r: Option<string>)
    ensures r.None? <==> s.None? || s.value == ""
    ensures r.Some? ==> r == s
  {
    if s.Some? && s.value != "" then s else None
  }

  /** The profile row for user `id`. */
  function ProfileRowFor(id: string, email: string, d: UserData): (r: ProfileRow)
    ensures r.id == id && r.email == email
    ensures r.fullName == d.fullName && r.companyName == d.companyName && r.phone == d.phone && r.sector == d.sector
    ensures r.taxId == NullIfEmpty(d.taxId) && r.address == NullIfEmpty(d.address)
  {
    ProfileRow(id, email, d.fullName, d.companyName, d.phone, NullIfEmpty(d.taxId), NullIfEmpty(d.address), d.sector)
  }

  const RequiredError := NewError("Full name, company name, phone and sector are required")
  const CreationFailed := NewError("User creation failed")
  const AlreadyRegistered := ErrorObject(Some("Bu e-posta adresi zaten kayıtlı"), Some("user_already_exists"))
  const InvalidEmail := ErrorObject(Some("Geçersiz e-posta adresi"), Some("invalid_email"))
  const WeakPassword := ErrorObject(Some("Şifre çok zayıf. Lütfen daha güçlü bir şifre seçin."), Some("weak_password"))

  /** The auth error says the address is taken. */
  predicate Registered(e: ErrorObject) {
    MentionsOpt(e.message, "User already registered") || MentionsOpt(e.message, "user_already_exists")
  }

  /** The signup error the store returns for an auth error, by message, in
      this order: already registered, invalid e-mail, password; otherwise the
      auth error itself. */
  function ClassifyAuthError(e: ErrorObject): (r: ErrorObject)
    ensures Registered(e) ==> r == AlreadyRegistered
    ensures !Registered(e) && MentionsOpt(e.message, "Invalid email") ==> r == InvalidEmail
    ensures !Registered(e) && !MentionsOpt(e.message, "Invalid email") && MentionsOpt(e.message, "Password") ==>
      r == WeakPassword
    ensures r == InvalidEmail ==> MentionsOpt(e.message, "Invalid email") || e == InvalidEmail
    ensures r == WeakPassword ==> MentionsOpt(e.message, "Password") || e == WeakPassword
    ensures r.code.Some? ==> r in {AlreadyRegistered, InvalidEmail, WeakPassword} || r == e
    ensures r != e ==> e.message.Some?
  {
    if Registered(e) then AlreadyRegistered
    else if MentionsOpt(e.message, "Invalid email") then InvalidEmail
    else if MentionsOpt(e.message, "Password") then WeakPassword
    else e
  }

  /** A message that mentions none of the three phrases passes through as is. */
  lemma UnclassifiedPassesThrough(e: ErrorObject)
    requires !Registered(e)
    requires !MentionsOpt(e.message, "Invalid email") && !MentionsOpt(e.message, "Password")
    ensures ClassifyAuthError(e) == e
  {
  }

  /** "Invalid email" wins over "Password" when a message has both. */
  lemma InvalidEmailBeforePassword(prefix: string, suffix: string)
    requires !Contains(prefix + "Invalid email" + suffix, "User already registered")
    requires !Contains(prefix + "Invalid email" + suffix, "user_already_exists")
    ensures ClassifyAuthError(ErrorObject(Some(prefix + "Invalid email" + suffix), None)) == InvalidEmail
  {
    ContainsInfix(prefix, "Invalid email", suffix);
  }

  /** The four required fields are all truthy. */
  predicate HasRequired(d: UserData) {
    d.fullName != "" && d.companyName != "" && d.phone != "" && d.sector != ""
  }

  /** What `signup` did. `authCalled`: the auth sign-up was made; `pending`:
      the data it asked local storage to keep; `inserted`: the profile row it
      wrote; `signedOut`: it signed the new user out again. */
  datatype SignupStep = SignupStep(
    state: AuthState,
    error: Option<ErrorObject>,
    needsVerification: bool,
    authCalled: bool,
    pending: Option<PendingData>,
    inserted: Option<ProfileRow>,
    signedOut: bool)

  /** `signup`, given the auth reply, the profile insert's reply and the
      profile then fetched. */
  function Signup(
    s: AuthState, email: string, d: UserData,
    auth: Outcome<AuthData>, insert: Outcome<()>, profile: Option<Profile>): (r: SignupStep)
    ensures r.authCalled <==> HasRequired(d)
    ensures !HasRequired(d) ==> r.error == Some(RequiredError)
    ensures r.state != s ==> r.error.None? && !r.needsVerification
    ensures r.needsVerification ==>
      r.error.None? && r.state == s && r.inserted.None?
      && auth.Done? && auth.value.user.Some? && auth.value.session.None?
      && r.pending == Some(PendingData(auth.value.user.value.id, email, d))
    ensures HasRequired(d) && auth.Failed? ==> r.error == Some(ClassifyAuthError(auth.error)) && r.state == s
    ensures HasRequired(d) && auth.Done? && auth.value.user.None? ==>
      r.error == Some(CreationFailed) && r.state == s && r.pending.None? && r.inserted.None?
    ensures HasRequired(d) && auth.Done? && auth.value.user.Some? && auth.value.session.None? ==>
      r.needsVerification
    ensures HasRequired(d) && auth.Done? && auth.value.user.Some? && auth.value.session.Some? ==>
      r.inserted.Some? && r.pending.None?
    ensures r.pending.Some? ==> r.needsVerification
    ensures r.inserted.Some? ==>
      auth.Done? && auth.value.user.Some? && auth.value.session.Some?
      && r.inserted.value == ProfileRowFor(auth.value.user.value.id, email, d)
    ensures r.signedOut <==> r.inserted.Some? && insert.Failed?
    ensures r.signedOut ==> r.error == Some(insert.error) && r.state == s
    ensures r.inserted.Some? && insert.Done? ==>
      r.error.None? && r.state == AuthState(true, false, profile, auth.value.session)
  {
    if !HasRequired(d) then SignupStep(s, Some(RequiredError), false, false, None, None, false)
    else
      match auth
      case Failed(e) => SignupStep(s, Some(ClassifyAuthError(e)), false, true, None, None, false)
      case Done(data) =>
        if data.user.None? then SignupStep(s, Some(CreationFailed), false, true, None, None, false)
        else if data.session.None? then
          SignupStep(s, None, true, true, Some(PendingData(data.user.value.id, email, d)), None, false)
        else
          var row := ProfileRowFor(data.user.value.id, email, d);
          match insert
          case Failed(e) => SignupStep(s, Some(e), false, true, None, Some(row), true)
          case Done(_) => SignupStep(AuthState(true, false, profile, data.session), None, false, true, None, Some(row), false)
  }

  /** A signup never makes the store an admin one. */
  lemma SignupNeverAdmin(
    s: AuthState, email: string, d: UserData, auth: Outcome<AuthData>, insert: Outcome<()>, profile: Option<Profile>)
    requires !s.isAdmin
    ensures !Signup(s, email, d, auth, insert, profile).state.isAdmin
  {
  }

  // ---------------------------------------------------------------------
  // pending profile data

  /** What handling the pending data did: the profile row inserted, the
      pending data left in storage, and whether the profile was fetched again. */
  datatype PendingStep = PendingStep(inserted: Option<ProfileRow>, pendingAfter: Option<PendingData>, refreshed: bool)

  /** The pending data belongs to the session's user. */
  predicate Matches(pending: Option<PendingData>, user: AuthUser) {
    pending.Some? && pending.value.userId == user.id
  }

  /** On start-up with a session: the profile is created only for a matching
      user, and the pending data is cleared only once the insert succeeded. */
  function OnInitialize(pending: Option<PendingData>, user: AuthUser, insert: Outcome<()>): (r: PendingStep)
    ensures r.inserted.Some? <==> Matches(pending, user)
    ensures r.inserted.Some? ==> r.inserted.value == ProfileRowFor(user.id, pending.value.email, pending.value.data)
    ensures r.pendingAfter.None? <==> pending.None? || (Matches(pending, user) && insert.Done?)
    ensures r.pendingAfter.Some? ==> r.pendingAfter == pending
    ensures r.refreshed <==> Matches(pending, user) && insert.Done?
  {
    if !Matches(pending, user) then PendingStep(None, pending, false)
    else
      var row := ProfileRowFor(user.id, pending.value.email, pending.value.data);
      match insert
      case Done(_) => PendingStep(Some(row), None, true)
      case Failed(_) => PendingStep(Some(row), pending, false)
  }

  /** On a sign-in event: as at start-up, but matching pending data is
      cleared whether or not the insert succeeded. */
  function OnSignedIn(pending: Option<PendingData>, user: AuthUser, insert: Outcome<()>): (r: PendingStep)
    ensures r.inserted.Some? <==> Matches(pending, user)
    ensures r.inserted.Some? ==> r.inserted.value == ProfileRowFor(user.id, pending.value.email, pending.value.data)
    ensures r.pendingAfter.None? <==> pending.None? || Matches(pending, user)
    ensures r.pendingAfter.Some? ==> r.pendingAfter == pending
    ensures r.refreshed <==> Matches(pending, user) && insert.Done?
  {
    if !Matches(pending, user) then PendingStep(None, pending, false)
    else
      var row := ProfileRowFor(user.id, pending.value.email, pending.value.data);
      match insert
      case Done(_) => PendingStep(Some(row), None, true)
      case Failed(_) => PendingStep(Some(row), None, false)
  }

  /** Verifying later writes the same profile row that a signup with an
      immediate session would have written. */
  lemma DeferredProfileMatchesImmediate(
    s: AuthState, email: string, d: UserData, user: AuthUser, insert: Outcome<()>, profile: Option<Profile>)
    requires HasRequired(d)
    ensures var deferred := Signup(s, email, d, Done(AuthData(Some(user), None)), insert, profile);
      var later := OnSignedIn(deferred.pending, user, insert);
      var immediate := Signup(s, email, d, Done(AuthData(Some(user), Some(Session(user, "")))), insert, profile);
      deferred.needsVerification && later.inserted == immediate.inserted && later.pendingAfter.None?
  {
  }

  /** Pending data of another user is never applied. */
  lemma OtherUserIgnored(p: PendingData, user: AuthUser, insert: Outcome<()>)
    requires p.userId != user.id
    ensures OnInitialize(Some(p), user, insert) == PendingStep(None, Some(p), false)
    ensures OnSignedIn(Some(p), user, insert) == PendingStep(None, Some(p), false)
  {
  }

  // ---------------------------------------------------------------------
  // logout

  /** `logout`: whatever the sign-out reply, the store ends signed out. */
  function Logout(s: AuthState, reply: Outcome<()>): (r: AuthState)
    ensures !r.isAuthenticated && !r.isAdmin && r.user.None? && r.session.None?
  {
    match reply
    case Done(_) => SignedOut
    case Failed(_) => SignedOut
  }

  /** Logging in and out again returns the store to its initial value. */
  lemma LoginThenLogout(reply: Outcome<AuthData>, profile: Option<Profile>, out: Outcome<()>)
    ensures Logout(Login(SignedOut, reply, profile).state, out) == SignedOut
  {
  }
}

=== FILE: backend.dfy ===
/** The outcome of one call into the hosted backend (a table query, an auth
    request), passed into the model as a value, and the `{ success, data,
    error }` shape the services hand back to the screens. */
module Backend {

  /** What a failed call throws: an `Error` carrying a message, or some other
      thrown value. */
  datatype Thrown = ErrorWithMessage(message: string) | OtherValue

  /** `error instanceof Error ? error.message : fallback`. */
  function ErrorText(e: Thrown, fallback: string): (r: string)
    ensures e.ErrorWithMessage? ==> r == e.message
    ensures e.OtherValue? ==> r == fallback
  {
    match e
    case ErrorWithMessage(m) => m
    case OtherValue => fallback
  }

  /** A backend reply: data, or the error the client library reports. */
  datatype Reply<+T> = Ok(value: T) | Err(error: Thrown)

  /** A service result as the screens see it. */
  datatype ServiceResult<+T> = Success(data: T) | Failure(error: string)
}

=== FILE: category_management.dfy ===
/** The admin category screen: the list of categories, the add/edit form and
    the three handlers that call the category service. The service's result
    is passed in; each handler returns the request it sent (if any), the next
    screen state and the alert it raised. */
module CategoryManagement {
  import opened Js
  import opened Backend
  import opened Forms
  import opened Seqs
  import opened CategoryService

  datatype Screen = Screen(
    categories: seq<Category>,
    editing: Option<Category>,
    form: CategoryFormData,
    isAdding: bool)

  /** The form's initial and reset value. */
  const EmptyForm := CategoryFormData("", true)

  const NameRequired := Alert("Hata", "Kategori adı zorunludur")
  const Created := Alert("Başarılı", "Kategori başarıyla oluşturuldu")
  const Updated := Alert("Başarılı", "Kategori başarıyla güncellendi")
  const Deleted := Alert("Başarılı", "Kategori başarıyla silindi")

  /** The screen after the list has loaded: nothing being added or edited. */
  function Loaded(categories: seq<Category>): Screen {
    Screen(categories, None, EmptyForm, false)
  }

  /** The edit button: the form takes the category's name and active flag. */
  function StartEdit(s: Screen, c: Category): (r: Screen)
    ensures r.editing == Some(c) && r.form == CategoryFormData(c.name, c.isActive)
    ensures r.categories == s.categories && r.isAdding == s.isAdding
  {
    s.(editing := Some(c), form := CategoryFormData(c.name, c.isActive))
  }

  /** The cancel button. */
  function Cancel(s: Screen): (r: Screen)
    ensures r == Loaded(s.categories)
  {
    s.(isAdding := false, editing := None, form := EmptyForm)
  }

  datatype AddStep = AddStep(sent: Option<CategoryFormData>, screen: Screen, alert: Alert)

  /** `handleAddCategory`, where `result` is what `createCategory` returns when
      it is called. A blank name (after trimming) stops before the call; the
      form is sent untrimmed. */
  function HandleAdd(s: Screen, result: ServiceResult<Category>): (r: AddStep)
    ensures r.sent.None? <==> Trim(s.form.name) == ""
    ensures r.sent.Some? ==> r.sent.value == s.form
    ensures r.sent.None? ==> r.screen == s && r.alert == NameRequired
    ensures r.sent.Some? && result.Success? ==>
      r.screen == Loaded(s.categories + [result.data]).(editing := s.editing) && r.alert == Created
    ensures r.sent.Some? && result.Failure? ==> r.screen == s && r.alert == Alert("Hata", result.error)
  {
    if Trim(s.form.name) == "" then AddStep(None, s, NameRequired)
    else
      match result
      case Success(c) =>
        AddStep(Some(s.form), s.(categories := s.categories + [c], isAdding := false, form := EmptyForm), Created)
      case Failure(e) => AddStep(Some(s.form), s, Alert("Hata", e))
  }

  /** After a successful add the form is empty, so pressing save again is
      refused before any request is made. */
  lemma AddThenAddAgain(s: Screen, first: ServiceResult<Category>, second: ServiceResult<Category>)
    requires Trim(s.form.name) != "" && first.Success?
    ensures var next := HandleAdd(s, first).screen;
      HandleAdd(next, second).sent.None? && HandleAdd(next, second).screen == next
  {
    TrimUnpadded("");
  }

  /** `prev.map(cat => cat.id === id ? updated : cat)`. */
  function ReplaceById(categories: seq<Category>, id: string, updated: Category): (r: seq<Category>)
    ensures |r| == |categories|
    ensures forall i :: 0 <= i < |categories| ==>
      r[i] == (if categories[i].id == id then updated else categories[i])
  {
    seq(|categories|, i requires 0 <= i < |categories| =>
      if categories[i].id == id then updated else categories[i])
  }

  datatype UpdateStep = UpdateStep(sent: Option<(string, CategoryFormData)>, screen: Screen, alert: Alert)

  /** `handleUpdateCategory`: needs a category being edited and a non-blank
      name; sends that category's id with the untrimmed form. */
  function HandleUpdate(s: Screen, result: ServiceResult<Category>): (r: UpdateStep)
    ensures r.sent.None? <==> s.editing.None? || Trim(s.form.name) == ""
    ensures r.sent.Some? ==> r.sent.value == (s.editing.value.id, s.form)
    ensures r.sent.None? ==> r.screen == s && r.alert == NameRequired
    ensures r.sent.Some? && result.Success? ==>
      r.screen == Loaded(ReplaceById(s.categories, s.editing.value.id, result.data)).(isAdding := s.isAdding)
      && r.alert == Updated
    ensures r.sent.Some? && result.Failure? ==> r.screen == s && r.alert == Alert("Hata", result.error)
  {
    if s.editing.None? || Trim(s.form.name) == "" then UpdateStep(None, s, NameRequired)
    else
      var id := s.editing.value.id;
      match result
      case Success(c) =>
        UpdateStep(Some((id, s.form)),
          s.(categories := ReplaceById(s.categories, id, c), editing := None, form := EmptyForm), Updated)
      case Failure(e) => UpdateStep(Some((id, s.form)), s, Alert("Hata", e))
  }

  /** Editing a listed category and saving it replaces exactly that entry when
      ids are unique; every other entry stays where it was. */
  lemma EditThenUpdate(s: Screen, k: nat, updated: Category)
    requires k < |s.categories|
    requires forall i, j :: 0 <= i < j < |s.categories| ==> s.categories[i].id != s.categories[j].id
    requires Trim(s.categories[k].name) != ""
    ensures var r := HandleUpdate(StartEdit(s, s.categories[k]), Success(updated));
      r.sent == Some((s.categories[k].id, CategoryFormData(s.categories[k].name, s.categories[k].isActive)))
      && |r.screen.categories| == |s.categories|
      && r.screen.categories[k] == updated
      && (forall i :: 0 <= i < |s.categories| && i != k ==> r.screen.categories[i] == s.categories[i])
  {
  }

  datatype DeleteStep = DeleteStep(screen: Screen, alert: Alert)

  /** The confirmed delete of `category`, given `deleteCategory`'s result. */
  function HandleDelete(s: Screen, category: Category, result: ServiceResult<()>): (r: DeleteStep)
    ensures result.Failure? ==> r.screen == s && r.alert == Alert("Hata", result.error)
    ensures result.Success? ==>
      r.alert == Deleted && r.screen.editing == s.editing && r.screen.form == s.form && r.screen.isAdding == s.isAdding
    ensures result.Success? ==>
      (forall i :: 0 <= i < |r.screen.categories| ==> r.screen.categories[i].id != category.id)
      && (forall c :: c in s.categories && c.id != category.id ==> c in r.screen.categories)
      && (forall c :: c in r.screen.categories ==> c in s.categories)
  {
    match result
    case Success(_) =>
      DeleteStep(s.(categories := Filter(s.categories, (c: Category) => c.id != category.id)), Deleted)
    case Failure(e) => DeleteStep(s, Alert("Hata", e))
  }

  /** Deleting keeps the order of the remaining categories: a delete after an
      add acts on the earlier list and the added entry separately. */
  lemma DeleteAfterAppend(cats: seq<Category>, added: Category, category: Category)
    ensures var s := Loaded(cats + [added]);
      HandleDelete(s, category, Success(())).screen.categories
      == HandleDelete(Loaded(cats), category, Success(())).screen.categories
         + (if added.id != category.id then [added] else [])
  {
    var keep := (c: Category) => c.id != category.id;
    FilterConcat(cats, [added], keep);
    assert Filter([added], keep) == (if added.id != category.id then [added] else []) by {
      assert [added][1..] == [];
    }
  }
}

=== FILE: category_service.dfy ===
/** The category service: the URL slug derived from a category name on create
    and on update, and the guard that refuses to delete a category products
    still use. Letter case is folded for A-Z only. */
module CategoryService {
  import opened Js
  import opened Backend
  import opened Seqs

  datatype CategoryFormData = CategoryFormData(name: string, isActive: bool)

  datatype Category = Category(
    id: string,
    name: string,
    slug: string,
    isActive: bool,
    createdAt: string,
    updatedAt: string)

  /** The row the service writes on create or update. */
  datatype CategoryRow = CategoryRow(name: string, slug: string, isActive: bool)

  // ---------------------------------------------------------------------
  // Slug

  function LowerChar(c: char): char {
    if 'A' <= c <= 'Z' then (c - 'A' + 'a') as char else c
  }

  /** `toLowerCase`, for the letters A-Z. */
  function ToLower(s: string): (r: string)
    ensures |r| == |s|
    ensures forall i :: 0 <= i < |s| ==> r[i] == LowerChar(s[i])
  {
    seq(|s|, i requires 0 <= i < |s| => LowerChar(s[i]))
  }

  /** `replace(/\s+/g, '-')`: each maximal whitespace run becomes one '-'. */
  function CollapseSpaces(s: string): (r: string)
    ensures NoSpace(r)
    decreases |s|
  {
    if |s| == 0 then ""
    else if IsSpace(s[0]) then "-" + CollapseSpaces(s[LeadingSpace(s)..])
    else [s[0]] + CollapseSpaces(s[1..])
  }

  predicate IsSlugChar(c: char) {
    ('a' <= c <= 'z') || ('0' <= c <= '9') || c == '-'
  }

  predicate AllSlugChars(s: string) {
    forall i :: 0 <= i < |s| ==> IsSlugChar(s[i])
  }

  /** `replace(/[^a-z0-9-]/g, '')`: every character outside [a-z0-9-] is dropped. */
  function StripNonSlug(s: string): (r: string)
    ensures AllSlugChars(r)
    ensures |r| <= |s|
    ensures forall i :: 0 <= i < |s| && IsSlugChar(s[i]) ==> s[i] in r
    ensures forall i :: 0 <= i < |r| ==> r[i] in s
  {
    if |s| == 0 then ""
    else if IsSlugChar(s[0]) then [s[0]] + StripNonSlug(s[1..])
    else StripNonSlug(s[1..])
  }

  /** The slug of a category name. */
  function Slug(name: string): (r: string)
    ensures AllSlugChars(r)
    ensures NoSpace(r)
  {
    StripNonSlug(CollapseSpaces(ToLower(name)))
  }

  lemma {:induction false} CollapseNoSpace(s: string)
    requires NoSpace(s)
    ensures CollapseSpaces(s) == s
    decreases |s|
  {
    if |s| > 0 {
      CollapseNoSpace(s[1..]);
      assert s == [s[0]] + s[1..];
    }
  }

  lemma {:induction false} StripSlugChars(s: string)
    requires AllSlugChars(s)
    ensures StripNonSlug(s) == s
  {
    if |s| > 0 {
      StripSlugChars(s[1..]);
      assert s == [s[0]] + s[1..];
    }
  }

  /** A slug is its own slug. */
  lemma SlugIdempotent(name: string)
    ensures Slug(Slug(name)) == Slug(name)
  {
    var s := Slug(name);
    assert ToLower(s) == s;
    assert NoSpace(s);
    CollapseNoSpace(s);
    StripSlugChars(s);
  }

  lemma {:induction false} LeadingSpaceOfRun(w: string, b: string)
    requires AllSpace(w)
    requires b == "" || !IsSpace(b[0])
    ensures LeadingSpace(w + b) == |w|
  {
    if |w| > 0 {
      assert (w + b)[1..] == w[1..] + b;
      LeadingSpaceOfRun(w[1..], b);
    } else {
      assert w + b == b;
    }
  }

  lemma {:induction false} LeadingSpaceInside(a: string, rest: string)
    requires LeadingSpace(a) < |a|
    ensures LeadingSpace(a + rest) == LeadingSpace(a)
  {
    if IsSpace(a[0]) {
      assert (a + rest)[1..] == a[1..] + rest;
      LeadingSpaceInside(a[1..], rest);
    }
  }

  /** A whitespace run between two parts becomes exactly one '-'. */
  lemma {:induction false} CollapseAtRun(a: string, w: string, b: string)
    requires |w| > 0 && AllSpace(w)
    requires a == "" || !IsSpace(a[|a| - 1])
    requires b == "" || !IsSpace(b[0])
    ensures CollapseSpaces(a + w + b) == CollapseSpaces(a) + "-" + CollapseSpaces(b)
    decreases |a|
  {
    if |a| == 0 {
      CollapseAtRunEmpty(a, w, b);
    } else if IsSpace(a[0]) {
      var a' := a[LeadingSpace(a)..];
      CollapseSpaceHead(a, w + b);
      CollapseAtRun(a', w, b);
      CollapseSpaceStep(a, a', w, b);
    } else {
      LastOfTail(a);
      CollapseAtRun(a[1..], w, b);
      CollapseCharStep(a, w, b);
    }
  }

  lemma CollapseAtRunEmpty(a: string, w: string, b: string)
    requires |a| == 0 && |w| > 0 && AllSpace(w)
    requires b == "" || !IsSpace(b[0])
    ensures CollapseSpaces(a + w + b) == CollapseSpaces(a) + "-" + CollapseSpaces(b)
  {
    CollapseRunFirst(w, b);
    EmptyPrefix(a, w + b);
    Regroup(a, w, b);
    DashAfterEmpty(CollapseSpaces(a), CollapseSpaces(b));
  }

  lemma EmptyPrefix(a: string, rest: string)
    requires |a| == 0
    ensures a + rest == rest && CollapseSpaces(a) == ""
  {
  }

  lemma DashAfterEmpty(e: string, x: string)
    requires e == ""
    ensures e + "-" + x == "-" + x
  {
  }

  lemma LastOfTail(a: string)
    requires |a| > 0
    ensures a[1..] == "" || a[1..][|a[1..]| - 1] == a[|a| - 1]
  {
  }

  lemma CollapseSpaceStep(a: string, a': string, w: string, b: string)
    requires CollapseSpaces(a + (w + b)) == "-" + CollapseSpaces(a' + (w + b))
    requires CollapseSpaces(a) == "-" + CollapseSpaces(a')
    requires CollapseSpaces(a' + w + b) == CollapseSpaces(a') + "-" + CollapseSpaces(b)
    ensures CollapseSpaces(a + w + b) == CollapseSpaces(a) + "-" + CollapseSpaces(b)
  {
    Regroup(a, w, b);
    Regroup(a', w, b);
    Reassociate("-", CollapseSpaces(a'), CollapseSpaces(b));
  }

  lemma Regroup(x: string, y: string, z: string)
    ensures x + y + z == x + (y + z)
  {
  }

  lemma Reassociate(p: string, x: string, y: string)
    ensures p + (x + "-" + y) == (p + x) + "-" + y
  {
  }

  lemma CollapseCharStep(a: string, w: string, b: string)
    requires |a| > 0 && !IsSpace(a[0])
    requires CollapseSpaces(a[1..] + w + b) == CollapseSpaces(a[1..]) + "-" + CollapseSpaces(b)
    ensures CollapseSpaces(a + w + b) == CollapseSpaces(a) + "-" + CollapseSpaces(b)
  {
    HeadTail(a, w, b);
    CollapseNonSpaceHead(a + w + b);
    CollapseNonSpaceHead(a);
    Reassociate([a[0]], CollapseSpaces(a[1..]), CollapseSpaces(b));
  }

  lemma HeadTail(a: string, w: string, b: string)
    requires |a| > 0
    ensures |a + w + b| > 0 && (a + w + b)[0] == a[0] && (a + w + b)[1..] == a[1..] + w + b
  {
  }

  lemma CollapseNonSpaceHead(s: string)
    requires |s| > 0 && !IsSpace(s[0])
    ensures CollapseSpaces(s) == [s[0]] + CollapseSpaces(s[1..])
  {
  }

  /** The run at the front of `w + b` becomes the leading '-'. */
  lemma CollapseRunFirst(w: string, b: string)
    requires |w| > 0 && AllSpace(w)
    requires b == "" || !IsSpace(b[0])
    ensures CollapseSpaces(w + b) == "-" + CollapseSpaces(b)
  {
    LeadingSpaceOfRun(w, b);
    assert (w + b)[|w|..] == b;
    assert IsSpace((w + b)[0]);
  }

  /** A run at the front of `a` that ends inside `a` collapses the same way
      whatever follows `a`. */
  lemma CollapseSpaceHead(a: string, rest: string)
    requires |a| > 0 && IsSpace(a[0]) && !IsSpace(a[|a| - 1])
    ensures LeadingSpace(a) < |a|
    ensures CollapseSpaces(a + rest) == "-" + CollapseSpaces(a[LeadingSpace(a)..] + rest)
    ensures CollapseSpaces(a) == "-" + CollapseSpaces(a[LeadingSpace(a)..])
    ensures |a[LeadingSpace(a)..]| > 0 && !IsSpace(a[LeadingSpace(a)..][|a[LeadingSpace(a)..]| - 1])
  {
    LeadingSpaceStops(a);
    LeadingSpaceInside(a, rest);
    SliceAfterRun(a, rest, LeadingSpace(a));
    CollapseAtSpace(a + rest);
    CollapseAtSpace(a);
  }

  /** A string that starts with whitespace collapses to '-' and the rest after the run. */
  lemma CollapseAtSpace(s: string)
    requires |s| > 0 && IsSpace(s[0])
    ensures CollapseSpaces(s) == "-" + CollapseSpaces(s[LeadingSpace(s)..])
  {
  }

  lemma SliceAfterRun(a: string, rest: string, k: nat)
    requires k < |a|
    ensures (a + rest)[k..] == a[k..] + rest && (a + rest)[0] == a[0]
    ensures a[k..][|a[k..]| - 1] == a[|a| - 1]
  {
  }

  /** Stripping is exactly the order-preserving filter on [a-z0-9-]. */
  lemma {:induction false} StripIsFilter(s: string)
    ensures StripNonSlug(s) == Filter(s, IsSlugChar)
    decreases |s|
  {
    if |s| > 0 {
      StripIsFilter(s[1..]);
    }
  }

  /** A character outside [a-z0-9-] is dropped. */
  lemma StripDropsOther(c: char)
    requires !IsSlugChar(c)
    ensures StripNonSlug([c]) == ""
  {
  }

  lemma {:induction false} StripConcat(a: string, b: string)
    ensures StripNonSlug(a + b) == StripNonSlug(a) + StripNonSlug(b)
  {
    if |a| == 0 {
      assert a + b == b;
    } else {
      assert (a + b)[1..] == a[1..] + b;
      StripConcat(a[1..], b);
    }
  }

  /** The slug of a name split by a whitespace run is the two parts' slugs
      joined by one '-'. */
  lemma SlugAtRun(a: string, w: string, b: string)
    requires |w| > 0 && AllSpace(w)
    requires a == "" || !IsSpace(a[|a| - 1])
    requires b == "" || !IsSpace(b[0])
    ensures Slug(a + w + b) == Slug(a) + "-" + Slug(b)
  {
    var la, lw, lb := ToLower(a), ToLower(w), ToLower(b);
    LowerConcat(a, w, b);
    assert AllSpace(lw);
    CollapseAtRun(la, lw, lb);
    StripJoin(CollapseSpaces(la), CollapseSpaces(lb));
  }

  lemma LowerConcat(a: string, w: string, b: string)
    ensures ToLower(a + w + b) == ToLower(a) + ToLower(w) + ToLower(b)
  {
  }

  lemma StripJoin(x: string, y: string)
    ensures StripNonSlug(x + "-" + y) == StripNonSlug(x) + "-" + StripNonSlug(y)
  {
    StripConcat(x + "-", y);
    StripConcat(x, "-");
    assert StripNonSlug("-") == "-";
  }

  /** A symbol the slug drops, standing between two spaces, leaves a double
      hyphen: the spaces became hyphens before the symbol was stripped. The
      seed category "Gemüse & Obst" is such a name. */
  lemma DroppedSymbolDoubleHyphen(a: string, c: char, b: string)
    requires a == "" || !IsSpace(a[|a| - 1])
    requires b == "" || !IsSpace(b[0])
    requires !IsSpace(c) && !IsSlugChar(LowerChar(c))
    ensures Slug(a + " " + [c] + " " + b) == Slug(a) + "--" + Slug(b)
  {
    var tail := [c] + " " + b;
    Regroup5(a, " ", [c], " ", b);
    SlugAtRun(a, " ", tail);
    SlugOfDroppedThenRun(c, b);
    DoubleDash(Slug(a), Slug(b));
  }

  lemma Regroup5(a: string, x: string, c: string, y: string, b: string)
    ensures a + x + c + y + b == a + x + (c + y + b)
  {
  }

  lemma DoubleDash(x: string, y: string)
    ensures x + "-" + ("-" + y) == x + "--" + y
  {
  }

  /** A dropped symbol followed by a space contributes just the '-'. */
  lemma SlugOfDroppedThenRun(c: char, b: string)
    requires b == "" || !IsSpace(b[0])
    requires !IsSpace(c) && !IsSlugChar(LowerChar(c))
    ensures Slug([c] + " " + b) == "-" + Slug(b)
  {
    SlugAtRun([c], " ", b);
    SlugOfDropped(c);
    DashAfterEmpty(Slug([c]), Slug(b));
  }

  /** A lone symbol outside [a-z0-9-] after lower-casing has the empty slug. */
  lemma SlugOfDropped(c: char)
    requires !IsSpace(c) && !IsSlugChar(LowerChar(c))
    ensures Slug([c]) == ""
  {
    assert ToLower([c]) == [LowerChar(c)];
    assert !IsSpace(LowerChar(c));
    CollapseNoSpace([LowerChar(c)]);
  }

  // ---------------------------------------------------------------------
  // Create, update, delete

  /** The row written by `createCategory` and `updateCategory` alike: the name
      as typed, its slug, and the active flag. */
  function CategoryRowFor(formData: CategoryFormData): (r: CategoryRow)
    ensures r.name == formData.name && r.isActive == formData.isActive
    ensures AllSlugChars(r.slug) && r.slug == Slug(formData.name)
  {
    CategoryRow(formData.name, Slug(formData.name), formData.isActive)
  }

  const CreateFallback := "Kategori oluşturulurken bir hata oluştu"
  const UpdateFallback := "Kategori güncellenirken bir hata oluştu"
  const DeleteFallback := "Kategori silinirken bir hata oluştu"
  const InUseMessage := "Bu kategori ürünler tarafından kullanılıyor ve silinemiyor"

  /** What a create or update call sent: the row it filtered on (`None` for
      an insert), the columns it wrote, the `updated_at` stamp it added (only
      the update does), and the result it returned. */
  datatype CategoryCall = CategoryCall(
    target: Option<string>,
    written: CategoryRow,
    updatedAt: Option<string>,
    result: ServiceResult<Category>)

  /** `createCategory`, given the insert's reply. */
  function CreateCategory(formData: CategoryFormData, reply: Reply<Category>): (r: CategoryCall)
    ensures r.target.None? && r.updatedAt.None? && r.written == CategoryRowFor(formData)
    ensures reply.Ok? <==> r.result.Success?
    ensures reply.Ok? ==> r.result.data == reply.value
    ensures reply.Err? ==> r.result.error == ErrorText(reply.error, CreateFallback)
  {
    var row := CategoryRowFor(formData);
    match reply
    case Ok(c) => CategoryCall(None, row, None, Success(c))
    case Err(e) => CategoryCall(None, row, None, Failure(ErrorText(e, CreateFallback)))
  }

  /** `updateCategory` on row `id` at time `now`, given the update's reply. */
  function UpdateCategory(id: string, formData: CategoryFormData, now: string, reply: Reply<Category>): (r: CategoryCall)
    ensures r.target == Some(id) && r.updatedAt == Some(now) && r.written == CategoryRowFor(formData)
    ensures reply.Ok? <==> r.result.Success?
    ensures reply.Ok? ==> r.result.data == reply.value
    ensures reply.Err? ==> r.result.error == ErrorText(reply.error, UpdateFallback)
  {
    var row := CategoryRowFor(formData);
    match reply
    case Ok(c) => CategoryCall(Some(id), row, Some(now), Success(c))
    case Err(e) => CategoryCall(Some(id), row, Some(now), Failure(ErrorText(e, UpdateFallback)))
  }

  /** Creating and updating with the same form write the same name, slug and
      flag, whatever the replies; the update only adds its time stamp. */
  lemma CreateAndUpdateWriteSameRow(
    formData: CategoryFormData, id: string, now: string, created: Reply<Category>, updated: Reply<Category>)
    ensures var c := CreateCategory(formData, created);
      var u := UpdateCategory(id, formData, now, updated);
      c.written == u.written && c.written.slug == Slug(formData.name)
      && c.updatedAt.None? && u.updatedAt == Some(now)
  {
  }

  /** `count && count > 0`: a product count of null or 0 lets the delete go ahead. */
  predicate InUse(count: Option<int>) {
    count.Some? && count.value > 0
  }

  /** What `deleteCategory` did: whether it sent the delete, and its result. */
  datatype DeleteOutcome = DeleteOutcome(deleteSent: bool, result: ServiceResult<()>)

  /** `deleteCategory`, given the product-count reply and the delete's reply. */
  function DeleteCategory(countReply: Reply<Option<int>>, deleteReply: Reply<()>): (r: DeleteOutcome)
    ensures r.deleteSent <==> countReply.Ok? && !InUse(countReply.value)
    ensures r.result.Success? <==> r.deleteSent && deleteReply.Ok?
    ensures countReply.Ok? && InUse(countReply.value) ==> r.result == Failure(InUseMessage)
    ensures countReply.Err? ==> r.result == Failure(ErrorText(countReply.error, DeleteFallback))
  {
    match countReply
    case Err(e) => DeleteOutcome(false, Failure(ErrorText(e, DeleteFallback)))
    case Ok(count) =>
      if InUse(count) then DeleteOutcome(false, Failure(InUseMessage))
      else
        match deleteReply
        case Ok(_) => DeleteOutcome(true, Success(()))
        case Err(e) => DeleteOutcome(true, Failure(ErrorText(e, DeleteFallback)))
  }

  /** Whenever products use the category, nothing is deleted. */
  lemma InUseNeverDeletes(n: int, deleteReply: Reply<()>)
    requires n > 0
    ensures !DeleteCategory(Ok(Some(n)), deleteReply).deleteSent
  {
  }
}

=== FILE: edit_order_modal.dfy ===
/** The admin's order editor: a map from item id to the quantity being
    edited, the − and + buttons, the quantity text field, and the payload
    handed to `onSave`. `ApplyAsWritten` models the text field as written;
    `Apply` uses the corrected field, `TextQuantityFloored`, which floors the
    typed number at 1. */
module EditOrderModal {
  import opened Js
  import opened OrderTypes

  type Quantities = map<string, int>

  /** `quantities[id] || 1`: a missing entry or a zero reads as 1. */
  function Current(m: Quantities, id: string): (q: int)
    ensures q != 0
    ensures id in m && m[id] != 0 ==> q == m[id]
    ensures id !in m || m[id] == 0 ==> q == 1
  {
    if id in m && m[id] != 0 then m[id] else 1
  }

  /** No later item shares the id of item `i`. */
  predicate LastOfId(items: seq<OrderItemRow>, i: nat) {
    forall j :: i < j < |items| ==> items[j].id != items[i].id
  }

  /** The map the editor starts from: each item's id to its quantity; a later
      item with the same id overwrites an earlier one. */
  function InitialQuantities(items: seq<OrderItemRow>): (m: Quantities)
    ensures m.Keys == set i | 0 <= i < |items| :: items[i].id
    ensures forall i :: 0 <= i < |items| && LastOfId(items, i) ==> m[items[i].id] == items[i].quantity
  {
    if |items| == 0 then map[]
    else
      var last := items[|items| - 1];
      var init := items[..|items| - 1];
      var prev := InitialQuantities(init);
      InitialStepKeys(items, prev);
      InitialStepValues(items, prev);
      prev[last.id := last.quantity]
  }

  lemma InitialStepKeys(items: seq<OrderItemRow>, prev: Quantities)
    requires |items| > 0
    requires var init := items[..|items| - 1]; prev.Keys == set i | 0 <= i < |init| :: init[i].id
    ensures var last := items[|items| - 1];
      prev[last.id := last.quantity].Keys == set i | 0 <= i < |items| :: items[i].id
  {
    var init := items[..|items| - 1];
    assert forall i :: 0 <= i < |init| ==> init[i] == items[i];
  }

  lemma InitialStepValues(items: seq<OrderItemRow>, prev: Quantities)
    requires |items| > 0
    requires var init := items[..|items| - 1];
      forall i :: 0 <= i < |init| && LastOfId(init, i) ==>
        init[i].id in prev && prev[init[i].id] == init[i].quantity
    ensures var m := prev[items[|items| - 1].id := items[|items| - 1].quantity];
      forall i :: 0 <= i < |items| && LastOfId(items, i) ==>
        items[i].id in m && m[items[i].id] == items[i].quantity
  {
    var init := items[..|items| - 1];
    var last := items[|items| - 1];
    var m := prev[last.id := last.quantity];
    forall i | 0 <= i < |items| && LastOfId(items, i)
      ensures items[i].id in m && m[items[i].id] == items[i].quantity
    {
      if i < |init| {
        LastOfIdInit(items, i);
      }
    }
  }

  lemma LastOfIdInit(items: seq<OrderItemRow>, i: nat)
    requires i < |items| - 1 && LastOfId(items, i)
    ensures var init := items[..|items| - 1];
      init[i] == items[i] && LastOfId(init, i) && items[i].id != items[|items| - 1].id
  {
    var init := items[..|items| - 1];
    assert forall j :: i < j < |init| ==> init[j] == items[j];
  }

  /** The + button: one more than the current quantity. */
  function Plus(m: Quantities, id: string): (r: Quantities)
    ensures r.Keys == m.Keys + {id}
    ensures r[id] == Current(m, id) + 1
    ensures forall k :: k in m && k != id ==> r[k] == m[k]
  {
    m[id := Current(m, id) + 1]
  }

  /** The − button: one less than the current quantity, but never below 1. */
  function Minus(m: Quantities, id: string): (r: Quantities)
    ensures r.Keys == m.Keys + {id}
    ensures r[id] >= 1
    ensures Current(m, id) > 1 ==> r[id] == Current(m, id) - 1
    ensures Current(m, id) <= 1 ==> r[id] == 1
    ensures forall k :: k in m && k != id ==> r[k] == m[k]
  {
    m[id := if Current(m, id) - 1 > 1 then Current(m, id) - 1 else 1]
  }

  /** The text field as written: `parseInt(text) || 1`. */
  function TextQuantity(text: string): (q: int)
    ensures q != 0
    ensures ParseInteger(text).Some? && ParseInteger(text).value != 0 ==> q == ParseInteger(text).value
    ensures ParseInteger(text).None? || ParseInteger(text).value == 0 ==> q == 1
  {
    match ParseInteger(text)
    case None => 1
    case Some(n) => if n == 0 then 1 else n
  }

  /** The field shows `String(quantities[id] || 1)`; reading that text back
      gives the same quantity. */
  lemma DisplayRoundTrip(m: Quantities, id: string)
    ensures TextQuantity(IntToString(Current(m, id))) == Current(m, id)
  {
    ParseIntegerOfString(Current(m, id));
  }

  /** The text field as intended: the typed number, floored at 1. */
  function TextQuantityFloored(text: string): (q: int)
    ensures q >= 1
    ensures TextQuantity(text) >= 1 ==> q == TextQuantity(text)
  {
    var n := TextQuantity(text);
    if n < 1 then 1 else n
  }

  /** One edit in the modal. */
  datatype Edit = PlusOne(id: string) | MinusOne(id: string) | Typed(id: string, text: string)

  /** An edit with the text field as written. */
  function ApplyAsWritten(m: Quantities, e: Edit): (r: Quantities)
    ensures r.Keys == m.Keys + {e.id}
    ensures e.Typed? ==> r[e.id] == TextQuantity(e.text)
  {
    match e
    case PlusOne(id) => Plus(m, id)
    case MinusOne(id) => Minus(m, id)
    case Typed(id, text) => m[id := TextQuantity(text)]
  }

  /** An edit with the floored text field. */
  function Apply(m: Quantities, e: Edit): (r: Quantities)
    ensures r.Keys == m.Keys + {e.id}
    ensures forall k :: k in m && k != e.id ==> r[k] == m[k]
    ensures e.Typed? ==> r[e.id] == TextQuantityFloored(e.text)
  {
    match e
    case PlusOne(id) => Plus(m, id)
    case MinusOne(id) => Minus(m, id)
    case Typed(id, text) => m[id := TextQuantityFloored(text)]
  }

  /** A sequence of edits, in order. */
  function Run(m: Quantities, edits: seq<Edit>): (r: Quantities)
    ensures m.Keys <= r.Keys
    decreases |edits|
  {
    if |edits| == 0 then m else Run(Apply(m, edits[0]), edits[1..])
  }

  /** Every quantity in the map is at least 1. */
  predicate AtLeastOne(m: Quantities) {
    forall k :: k in m ==> m[k] >= 1
  }

  /** Items with positive quantities open with a map of positive quantities. */
  lemma InitialAtLeastOne(items: seq<OrderItemRow>)
    requires forall i :: 0 <= i < |items| ==> items[i].quantity >= 1
    ensures AtLeastOne(InitialQuantities(items))
  {
    var m := InitialQuantities(items);
    forall k | k in m ensures m[k] >= 1 {
      var i :| 0 <= i < |items| && items[i].id == k;
      var last := LastWithId(items, i);
    }
  }

  /** The last position holding the same id as position `i`. */
  lemma LastWithId(items: seq<OrderItemRow>, i: nat) returns (l: nat)
    requires i < |items|
    ensures i <= l < |items| && items[l].id == items[i].id
    ensures LastOfId(items, l)
    decreases |items| - i
  {
    if exists j :: i < j < |items| && items[j].id == items[i].id {
      var j :| i < j < |items| && items[j].id == items[i].id;
      l := LastWithId(items, j);
    } else {
      l := i;
    }
  }

  /** With the floored text field every edit keeps all quantities at least 1. */
  lemma {:induction false} RunKeepsAtLeastOne(m: Quantities, edits: seq<Edit>)
    requires AtLeastOne(m)
    ensures AtLeastOne(Run(m, edits))
    decreases |edits|
  {
    if |edits| > 0 {
      var next := Apply(m, edits[0]);
      assert AtLeastOne(next) by {
        forall k | k in next ensures next[k] >= 1 {
          if k != edits[0].id {
            assert next[k] == m[k];
          } else if edits[0].PlusOne? {
            assert Current(m, k) >= 1;
          }
        }
      }
      RunKeepsAtLeastOne(next, edits[1..]);
    }
  }

  /** One line of the save payload. */
  datatype ItemQuantity = ItemQuantity(id: string, quantity: int)

  /** `handleSave`: nothing without an order; otherwise one line per item, in
      item order, with `quantities[id] || 1`. */
  function Save(order: Option<OrderWithItems>, m: Quantities): (r: Option<(string, seq<ItemQuantity>)>)
    ensures r.None? <==> order.None?
    ensures r.Some? ==> r.value.0 == order.value.id && |r.value.1| == |order.value.items|
    ensures r.Some? ==> forall k :: 0 <= k < |r.value.1| ==>
      r.value.1[k] == ItemQuantity(order.value.items[k].id, Current(m, order.value.items[k].id))
  {
    match order
    case None => None
    case Some(o) =>
      Some((o.id, seq(|o.items|, k requires 0 <= k < |o.items| => ItemQuantity(o.items[k].id, Current(m, o.items[k].id)))))
  }

  /** Opening an order and saving it untouched sends each item's own quantity
      back, a zero quantity going out as 1. */
  lemma SaveUntouched(o: OrderWithItems)
    requires forall i, j :: 0 <= i < j < |o.items| ==> o.items[i].id != o.items[j].id
    ensures var r := Save(Some(o), InitialQuantities(o.items)).value.1;
      forall k :: 0 <= k < |o.items| ==>
        r[k].quantity == (if o.items[k].quantity != 0 then o.items[k].quantity else 1)
  {
  }

  /** With the floored field, whatever the admin does, every saved quantity is
      at least 1. */
  lemma SavedQuantitiesAtLeastOne(o: OrderWithItems, m: Quantities, edits: seq<Edit>)
    requires AtLeastOne(m)
    ensures var r := Save(Some(o), Run(m, edits)).value.1;
      forall k :: 0 <= k < |r| ==> r[k].quantity >= 1
  {
    RunKeepsAtLeastOne(m, edits);
  }

  /** As written, typing "-5" into an item's field and pressing + saves -4. */
  lemma NegativeQuantitySaved(o: OrderWithItems, m: Quantities, text: string)
    requires |o.items| > 0 && text == "-5"
    ensures var id := o.items[0].id;
      var edited := ApplyAsWritten(ApplyAsWritten(m, Typed(id, text)), PlusOne(id));
      Save(Some(o), edited).value.1[0].quantity == -4
  {
    ParseIntegerOfString(-5);
    assert IntToString(-5) == text;
  }
}

=== FILE: edit_product_form.dfy ===
/** The product edit form: how the price and VAT inputs turn text into
    numbers, and the checks `handleUpdate` makes before handing the edited
    product to the admin screen. */
module EditProductForm {
  import opened Js
  import opened Forms
  import opened AdminProducts

  const RequiredMessage := "Lütfen zorunlu alanları doldurun."
  const PriceMessage := "Lütfen geçerli bir fiyat girin."

  /** The form's outcome: the product handed to `onUpdate`, or the message shown. */
  datatype SubmitOutcome = Submitted(product: Product) | Refused(message: string)

  /** `x > 0`, false for NaN. */
  predicate IsPositive(x: JsNumber) {
    (x.Infinite? && !x.negative) || (x.Finite? && x.value > 0.0)
  }

  /** The price input: `parseFloat(text) || 0`. */
  function PriceFromText(text: string): (r: JsNumber)
    ensures !r.NaN?
    ensures ParseFloat(text).Truthy() ==> r == ParseFloat(text)
    ensures !ParseFloat(text).Truthy() ==> r == Finite(0.0)
  {
    NumberOr(ParseFloat(text), Finite(0.0))
  }

  /** The VAT selector: `parseInt(vat)`. */
  function VatFromText(text: string): (r: JsNumber)
    ensures r.NaN? <==> ParseInteger(text).None?
    ensures ParseInteger(text).Some? ==> r == Finite(ParseInteger(text).value as real)
  {
    ParseInt(text)
  }

  /** `handleUpdate`: name, price and category must be truthy, then the price
      must be a number above zero; the product goes out unchanged. */
  function HandleUpdate(edited: Product): (r: SubmitOutcome)
    ensures r.Submitted? <==> edited.name != "" && edited.category != "" && IsPositive(edited.price)
    ensures r.Submitted? ==> r.product == edited
    ensures (edited.name == "" || edited.category == "" || !edited.price.Truthy()) ==>
      r == Refused(RequiredMessage)
    ensures edited.name != "" && edited.category != "" && edited.price.IsNegative() ==>
      r == Refused(PriceMessage)
  {
    if edited.name == "" || !edited.price.Truthy() || edited.category == "" then Refused(RequiredMessage)
    else if edited.price.NaN? || edited.price.IsNonPositive() then Refused(PriceMessage)
    else Submitted(edited)
  }

  /** Price text that does not parse leaves a price of 0, which the form refuses. */
  lemma UnparsedPriceRefused(edited: Product, text: string)
    requires ParseFloat(text) == NaN
    ensures HandleUpdate(edited.(price := PriceFromText(text))) == Refused(RequiredMessage)
  {
  }

  /** The form is stricter than the screen's handler: whatever it submits with
      a non-blank name and category and a valid VAT passes the handler, but a
      product at price 0, which the handler accepts, never gets through. */
  lemma StricterThanHandler(edited: Product, now: string)
    ensures (HandleUpdate(edited).Submitted? && !AllSpace(edited.name) && !AllSpace(edited.category)
      && ValidAmount(edited.vat)) ==> ValidateUpdate(edited, now).Valid?
    ensures edited.price == Finite(0.0) ==> HandleUpdate(edited).Refused?
  {
  }

  /** A name of spaces gets past the form but not past the handler. */
  lemma BlankNameReachesHandler(edited: Product, now: string)
    requires edited.name == " " && edited.category != "" && IsPositive(edited.price)
    ensures HandleUpdate(edited).Submitted?
    ensures ValidateUpdate(edited, now) == Invalid(NameMessage)
  {
    assert IsSpace(edited.name[0]);
  }
}

=== FILE: email_verification.dfy ===
/** The e-mail verification screen: a one-minute countdown before a new code
    may be requested, the checks on the typed code, and the texts shown for
    the auth service's replies to verifying and resending. The one-second
    timer is modelled as a `Tick` event. */
module EmailVerification {
  import opened Js

  const ResendDelay := 60

  datatype Screen = Screen(code: string, countdown: nat, canResend: bool, error: Option<string>)

  const Initial := Screen("", ResendDelay, false, None)

  /** The effect that runs whenever `countdown` changes: at zero it allows
      resending; otherwise it starts the next one-second timer. */
  function Settle(s: Screen): (r: Screen)
    ensures r.countdown == s.countdown && r.code == s.code && r.error == s.error
    ensures r.canResend <==> s.canResend || s.countdown == 0
  {
    if s.countdown == 0 then s.(canResend := true) else s
  }

  /** One second passes. A timer is pending only while the countdown is
      positive; at zero nothing happens. */
  function Tick(s: Screen): (r: Screen)
    ensures s.countdown > 0 ==> r.countdown == s.countdown - 1
    ensures s.countdown == 0 ==> r == s
    ensures r.code == s.code && r.error == s.error
    ensures r.countdown == 0 && s.countdown > 0 ==> r.canResend
  {
    if s.countdown > 0 then Settle(s.(countdown := s.countdown - 1)) else s
  }

  function Ticks(s: Screen, n: nat): Screen
    decreases n
  {
    if n == 0 then s else Ticks(Tick(s), n - 1)
  }

  /** The countdown and the resend button agree: resending is allowed
      exactly when the countdown has run out. */
  predicate Consistent(s: Screen) {
    s.canResend <==> s.countdown == 0
  }

  lemma TickKeepsConsistent(s: Screen)
    requires Consistent(s)
    ensures Consistent(Tick(s))
  {
  }

  /** After `n` seconds the countdown shows `max(0, c - n)`, and resending is
      allowed exactly when it reached zero. */
  lemma {:induction false} TicksCountDown(s: Screen, n: nat)
    requires Consistent(s)
    ensures Ticks(s, n).countdown == if n >= s.countdown then 0 else s.countdown - n
    ensures Consistent(Ticks(s, n))
    ensures Ticks(s, n).code == s.code
    decreases n
  {
    if n > 0 {
      TickKeepsConsistent(s);
      TicksCountDown(Tick(s), n - 1);
    }
  }

  /** On opening, resending becomes possible after exactly sixty seconds. */
  lemma ResendAfterOneMinute(n: nat)
    ensures Ticks(Initial, n).canResend <==> n >= ResendDelay
  {
    TicksCountDown(Initial, n);
  }

  /** What the resend area shows: the button, or the seconds still to wait. */
  datatype ResendArea = ResendButton | Waiting(text: string)

  function ResendAreaOf(s: Screen): (r: ResendArea)
    ensures r.ResendButton? <==> s.canResend
    ensures r.Waiting? ==>
      r.text == "Yeni kod gönderebilmek için " + IntToString(s.countdown) + " saniye bekleyin"
  {
    if s.canResend then ResendButton
    else Waiting("Yeni kod gönderebilmek için " + IntToString(s.countdown) + " saniye bekleyin")
  }

  // ---------------------------------------------------------------------
  // verifying the code

  const CodeRequired := "Lütfen doğrulama kodunu giriniz"
  const CodeLength := "Doğrulama kodu 6 haneli olmalıdır"
  const CodeExpired := "Doğrulama kodu süresi dolmuş. Lütfen yeni kod talep edin."
  const CodeInvalid := "Geçersiz doğrulama kodu. Lütfen tekrar deneyin."
  const VerifyFailed := "Doğrulama işlemi başarısız. Lütfen tekrar deneyin."
  const VerifyCrashed := "Doğrulama işlemi sırasında bir hata oluştu"

  /** The reply to `verifyOtp`: data with or without a user, an error whose
      message may be missing, or a throw. */
  datatype VerifyReply = Verified(hasUser: bool) | Rejected(message: Option<string>) | Threw

  /** The token sent, and the screen and success alert that follow. */
  datatype VerifyStep = VerifyStep(sent: Option<string>, screen: Screen, confirmed: bool)

  /** The text for a rejected code: by message, `expired` before `invalid`.
      A missing message makes `includes` throw, which the screen reports as
      a failure of the whole operation. */
  function RejectionText(message: Option<string>): (r: string)
    ensures message.None? ==> r == VerifyCrashed
    ensures message.Some? && Contains(message.value, "expired") ==> r == CodeExpired
    ensures message.Some? && !Contains(message.value, "expired") && Contains(message.value, "invalid") ==>
      r == CodeInvalid
    ensures r == VerifyFailed <==>
      message.Some? && !Contains(message.value, "expired") && !Contains(message.value, "invalid")
  {
    match message
    case None => VerifyCrashed
    case Some(m) =>
      if Contains(m, "expired") then CodeExpired
      else if Contains(m, "invalid") then CodeInvalid
      else VerifyFailed
  }

  /** `handleVerifyCode`. The code is checked for blankness after trimming
      but for its length untrimmed, and sent untrimmed. */
  function HandleVerify(s: Screen, reply: VerifyReply): (r: VerifyStep)
    ensures Trim(s.code) == "" ==> r == VerifyStep(None, s.(error := Some(CodeRequired)), false)
    ensures Trim(s.code) != "" && |s.code| != 6 ==> r == VerifyStep(None, s.(error := Some(CodeLength)), false)
    ensures r.sent.Some? <==> Trim(s.code) != "" && |s.code| == 6
    ensures r.sent.Some? ==> r.sent.value == s.code
    ensures r.screen.code == s.code && r.screen.countdown == s.countdown && r.screen.canResend == s.canResend
    ensures r.confirmed <==> r.sent.Some? && reply == Verified(true)
    ensures r.sent.Some? && reply.Verified? ==> r.screen.error.None?
    ensures r.sent.Some? && reply.Rejected? ==> r.screen.error == Some(RejectionText(reply.message))
    ensures r.sent.Some? && reply.Threw? ==> r.screen.error == Some(VerifyCrashed)
  {
    if Trim(s.code) == "" then VerifyStep(None, s.(error := Some(CodeRequired)), false)
    else if |s.code| != 6 then VerifyStep(None, s.(error := Some(CodeLength)), false)
    else
      match reply
      case Verified(hasUser) => VerifyStep(Some(s.code), s.(error := None), hasUser)
      case Rejected(message) => VerifyStep(Some(s.code), s.(error := Some(RejectionText(message))), false)
      case Threw => VerifyStep(Some(s.code), s.(error := Some(VerifyCrashed)), false)
  }

  /** Five digits and a trailing space make six characters: the code is
      sent, space included. */
  lemma PaddedCodeSent(s: Screen, digits: string, reply: VerifyReply)
    requires |digits| == 5 && IsDecimalDigit(digits[0]) && s.code == digits + " "
    ensures HandleVerify(s, reply).sent == Some(digits + " ")
  {
    assert !IsSpace(s.code[0]);
  }

  // ---------------------------------------------------------------------
  // resending

  const ResendFailed := "Kod gönderimi başarısız. Lütfen tekrar deneyin."
  const ResendCrashed := "Kod gönderimi sırasında bir hata oluştu"

  datatype ResendReply = Resent | ResendRejected | ResendThrew

  /** The screen after a resend request, and whether the "code sent" alert
      is shown. */
  datatype ResendStep = ResendStep(screen: Screen, announced: bool)

  /** `handleResendCode`: on success the countdown restarts and the code box
      is cleared; otherwise only the error text changes. */
  function HandleResend(s: Screen, reply: ResendReply): (r: ResendStep)
    ensures r.announced <==> reply.Resent?
    ensures reply.Resent? ==> r.screen == Screen("", ResendDelay, false, None)
    ensures reply.ResendRejected? ==> r.screen == s.(error := Some(ResendFailed))
    ensures reply.ResendThrew? ==> r.screen == s.(error := Some(ResendCrashed))
  {
    match reply
    case Resent => ResendStep(Settle(Screen("", ResendDelay, false, None)), true)
    case ResendRejected => ResendStep(s.(error := Some(ResendFailed)), false)
    case ResendThrew => ResendStep(s.(error := Some(ResendCrashed)), false)
  }

  /** Resending keeps the countdown and the button in agreement. */
  lemma ResendKeepsConsistent(s: Screen, reply: ResendReply)
    requires Consistent(s)
    ensures Consistent(HandleResend(s, reply).screen)
  {
  }

  /** After a successful resend the next resend is another minute away. */
  lemma ResendRestartsCountdown(s: Screen, n: nat)
    ensures Ticks(HandleResend(s, Resent).screen, n).canResend <==> n >= ResendDelay
  {
    TicksCountDown(HandleResend(s, Resent).screen, n);
  }
}

=== FILE: forms.dfy ===
/** What the screens show the user, and the outcome of a chain of form checks. */
module Forms {

  /** `Alert.alert(title, message)`. */
  datatype Alert = Alert(title: string, message: string)

  /** The outcome of ordered form checks: the value to submit, or the first
      failing check's message. */
  datatype Validation<+T> = Valid(value: T) | Invalid(message: string)
}

=== FILE: js.dfy ===
/** The few JavaScript built-ins the storefront's logic leans on, stated once:
    `null`/`undefined` as an option, the whitespace of `String.prototype.trim`
    and of the regex class `\s`, `trim`, `includes`, the JavaScript number
    with its NaN and infinities, truthiness, `parseInt`, `parseFloat` and
    `String(n)` for integers. Arithmetic is exact: IEEE-754 rounding is not
    modelled. */
module Js {

  /** `null` or `undefined` (None) versus a present value. */
  datatype Option<+T> = None | Some(value: T) {
    function GetOr(default: T): T {
      match this
      case Some(v) => v
      case None => default
    }
  }

  /** `s || fallback` for a string that may be missing: the empty string is
      falsy too. */
  function StringOr(s: Option<string>, fallback: string): (r: string)
    ensures s.Some? && s.value != "" ==> r == s.value
    ensures s.None? || s.value == "" ==> r == fallback
  {
    if s.Some? && s.value != "" then s.value else fallback
  }

  /** The WhiteSpace and LineTerminator code points of ECMAScript: what `trim`
      removes and what the regex class `\s` matches. */
  predicate IsSpace(c: char) {
    || c == ' ' || c == '\t' || c == '\n' || c == '\r' || c == '\U{000B}' || c == '\U{000C}'
    || c == '\U{00A0}' || c == '\U{1680}' || ('\U{2000}' <= c <= '\U{200A}')
    || c == '\U{2028}' || c == '\U{2029}' || c == '\U{202F}' || c == '\U{205F}'
    || c == '\U{3000}' || c == '\U{FEFF}'
  }

  predicate AllSpace(s: string) {
    forall i :: 0 <= i < |s| ==> IsSpace(s[i])
  }

  predicate NoSpace(s: string) {
    forall i :: 0 <= i < |s| ==> !IsSpace(s[i])
  }

  /** Length of the whitespace run at the start of `s`. */
  function LeadingSpace(s: string): (k: nat)
    ensures k <= |s|
    ensures AllSpace(s[..k])
    ensures k == |s| || !IsSpace(s[k])
  {
    if |s| == 0 || !IsSpace(s[0]) then 0
    else
      var k := 1 + LeadingSpace(s[1..]);
      assert s[..k] == [s[0]] + s[1..][..k - 1];
      k
  }

  /** A string that ends in a non-space has its leading run end inside it. */
  lemma {:induction false} LeadingSpaceStops(s: string)
    requires |s| > 0 && !IsSpace(s[|s| - 1])
    ensures LeadingSpace(s) < |s|
  {
    if IsSpace(s[0]) {
      LeadingSpaceStops(s[1..]);
    }
  }

  /** Length of the whitespace run at the end of `s`. */
  function TrailingSpace(s: string): (k: nat)
    ensures k <= |s|
    ensures AllSpace(s[|s| - k..])
    ensures k == |s| || !IsSpace(s[|s| - k - 1])
  {
    if |s| == 0 || !IsSpace(s[|s| - 1]) then 0
    else
      var k := 1 + TrailingSpace(s[..|s| - 1]);
      assert s[|s| - k..] == s[..|s| - 1][|s| - k..] + [s[|s| - 1]];
      k
  }

  /** `r` is `s` with some whitespace taken off either end. */
  ghost predicate PaddedBy(s: string, r: string) {
    exists i, j :: 0 <= i <= j <= |s| && r == s[i..j] && AllSpace(s[..i]) && AllSpace(s[j..])
  }

  /** `r` is `s` with all its surrounding whitespace taken off. */
  ghost predicate TrimmedFrom(s: string, r: string) {
    PaddedBy(s, r) && (r == "" || (!IsSpace(r[0]) && !IsSpace(r[|r| - 1])))
  }

  /** `String.prototype.trim`. */
  function Trim(s: string): (r: string)
    ensures TrimmedFrom(s, r)
    ensures r == "" <==> AllSpace(s)
  {
    if LeadingSpace(s) == |s| then
      TrimBlank(s);
      ""
    else
      TrimCut(s);
      CutBetween(s, LeadingSpace(s), |s| - TrailingSpace(s));
      s[LeadingSpace(s)..|s| - TrailingSpace(s)]
  }

  lemma TrimBlank(s: string)
    requires LeadingSpace(s) == |s|
    ensures AllSpace(s) && TrimmedFrom(s, "")
  {
    assert s[..|s|] == s;
    assert s[|s|..|s|] == "" && AllSpace(s[|s|..]);
  }

  /** Where the two whitespace runs of a not-all-space string stop. */
  lemma TrimCut(s: string)
    requires LeadingSpace(s) < |s|
    ensures LeadingSpace(s) < |s| - TrailingSpace(s)
    ensures !IsSpace(s[LeadingSpace(s)]) && !IsSpace(s[|s| - TrailingSpace(s) - 1])
  {
    TrimInside(s);
  }

  /** Cutting a whitespace run off each end, stopping at non-spaces. */
  lemma CutBetween(s: string, i: nat, j: nat)
    requires i < j <= |s| && AllSpace(s[..i]) && AllSpace(s[j..])
    requires !IsSpace(s[i]) && !IsSpace(s[j - 1])
    ensures TrimmedFrom(s, s[i..j]) && s[i..j] != "" && !AllSpace(s)
  {
    PaddedByCut(s, i, j);
    CutEnds(s, i, j);
    NotAllSpaceAt(s, i);
  }

  lemma NotAllSpaceAt(s: string, i: nat)
    requires i < |s| && !IsSpace(s[i])
    ensures !AllSpace(s)
  {
  }

  lemma PaddedByCut(s: string, i: nat, j: nat)
    requires i <= j <= |s| && AllSpace(s[..i]) && AllSpace(s[j..])
    ensures PaddedBy(s, s[i..j])
  {
  }

  lemma CutEnds(s: string, i: nat, j: nat)
    requires i < j <= |s|
    ensures |s[i..j]| == j - i && s[i..j][0] == s[i] && s[i..j][j - i - 1] == s[j - 1]
  {
  }

  /** When `s` is not all whitespace, its leading and trailing runs do not meet. */
  lemma TrimInside(s: string)
    requires LeadingSpace(s) < |s|
    ensures LeadingSpace(s) < |s| - TrailingSpace(s)
  {
  }

  /** A string with no whitespace at either end is its own trim. */
  lemma TrimUnpadded(s: string)
    requires s == "" || (!IsSpace(s[0]) && !IsSpace(s[|s| - 1]))
    ensures Trim(s) == s
  {
  }

  /** Only `trim` takes all surrounding whitespace off: any such cut is it. */
  lemma TrimmedFromIsTrim(s: string, r: string)
    requires TrimmedFrom(s, r)
    ensures r == Trim(s)
  {
    var i, j :| 0 <= i <= j <= |s| && r == s[i..j] && AllSpace(s[..i]) && AllSpace(s[j..]);
    if r == "" {
      SpaceAround(s, i, j);
    } else {
      CutIsTrim(s, i, j);
    }
  }

  lemma CutIsTrim(s: string, i: nat, j: nat)
    requires i < j <= |s| && AllSpace(s[..i]) && AllSpace(s[j..])
    requires !IsSpace(s[i..j][0]) && !IsSpace(s[i..j][j - i - 1])
    ensures s[i..j] == Trim(s)
  {
    CutEnds(s, i, j);
    LeadingSpaceAt(s, i);
    TrailingSpaceAt(s, j);
    TrimInside(s);
  }

  /** Two whitespace runs meeting in the middle cover all of `s`. */
  lemma SpaceAround(s: string, i: nat, j: nat)
    requires i == j <= |s| && AllSpace(s[..i]) && AllSpace(s[j..])
    ensures AllSpace(s)
  {
    forall k | 0 <= k < |s| ensures IsSpace(s[k]) {
      if k < i {
        assert s[k] == s[..i][k];
      } else {
        assert s[k] == s[j..][k - j];
      }
    }
  }

  /** A whitespace run ending at a non-space is the leading run. */
  lemma {:induction false} LeadingSpaceAt(s: string, i: nat)
    requires i < |s| && AllSpace(s[..i]) && !IsSpace(s[i])
    ensures LeadingSpace(s) == i
  {
    if i > 0 {
      assert IsSpace(s[..i][0]);
      assert s[1..][..i - 1] == s[1..i];
      assert forall k :: 0 <= k < i - 1 ==> s[1..i][k] == s[..i][k + 1];
      LeadingSpaceAt(s[1..], i - 1);
    }
  }

  /** A whitespace run starting after a non-space is the trailing run. */
  lemma {:induction false} TrailingSpaceAt(s: string, j: nat)
    requires 0 < j <= |s| && AllSpace(s[j..]) && !IsSpace(s[j - 1])
    ensures TrailingSpace(s) == |s| - j
  {
    if j < |s| {
      var init := s[..|s| - 1];
      assert IsSpace(s[j..][|s| - 1 - j]);
      assert init[j..] == s[j..|s| - 1];
      assert forall k :: 0 <= k < |s| - 1 - j ==> init[j..][k] == s[j..][k];
      TrailingSpaceAt(init, j);
    }
  }

  /** `trim` is idempotent. */
  lemma TrimIdempotent(s: string)
    ensures Trim(Trim(s)) == Trim(s)
  {
    TrimUnpadded(Trim(s));
  }

  /** `String.prototype.includes`: `sub` occurs in `s` as a contiguous part. */
  predicate Contains(s: string, sub: string)
    decreases |s|
  {
    sub <= s || (|s| > 0 && Contains(s[1..], sub))
  }

  /** A string includes each of its contiguous parts. */
  lemma {:induction false} ContainsInfix(a: string, sub: string, b: string)
    ensures Contains(a + sub + b, sub)
    decreases |a|
  {
    if |a| == 0 {
      assert a + sub + b == sub + b;
    } else {
      assert (a + sub + b)[1..] == a[1..] + sub + b;
      ContainsInfix(a[1..], sub, b);
    }
  }

  /** A string that includes `sub` holds each of its characters. */
  lemma {:induction false} ContainsChar(s: string, sub: string, k: nat)
    requires Contains(s, sub) && k < |sub|
    ensures sub[k] in s
    decreases |s|
  {
    if sub <= s {
      assert s[k] == sub[k];
    } else {
      ContainsChar(s[1..], sub, k);
      assert s == [s[0]] + s[1..];
    }
  }

  /** So a string lacking one of the characters of `sub` does not include it. */
  lemma NotContainsByChar(s: string, sub: string, k: nat)
    requires k < |sub| && sub[k] !in s
    ensures !Contains(s, sub)
  {
    if Contains(s, sub) {
      ContainsChar(s, sub, k);
    }
  }

  /** `message?.includes(sub)` on an optional message: false when absent. */
  predicate MentionsOpt(message: Option<string>, sub: string) {
    message.Some? && Contains(message.value, sub)
  }

  /** A JavaScript number. Arithmetic on finite values is exact. */
  datatype JsNumber = NaN | Infinite(negative: bool) | Finite(value: real) {
    /** JavaScript truthiness: NaN and zero are falsy. */
    predicate Truthy() {
      !NaN? && !(Finite? && value == 0.0)
    }
    /** `x < 0`, false for NaN. */
    predicate IsNegative() {
      (Infinite? && negative) || (Finite? && value < 0.0)
    }
    /** `x <= 0`, false for NaN. */
    predicate IsNonPositive() {
      (Infinite? && negative) || (Finite? && value <= 0.0)
    }
  }

  /** `x || fallback` for a number. */
  function NumberOr(x: JsNumber, fallback: JsNumber): (r: JsNumber)
    ensures x.Truthy() ==> r == x
    ensures !x.Truthy() ==> r == fallback
  {
    if x.Truthy() then x else fallback
  }

  // ---------------------------------------------------------------------
  // Digits, `String(n)` for integers

  /** Value of a digit character in radix 36 notation, or 36 for a non-digit. */
  function DigitValue(c: char): (d: nat)
    ensures d <= 36
    ensures '0' <= c <= '9' ==> d == (c - '0') as nat
  {
    if '0' <= c <= '9' then (c - '0') as nat
    else if 'a' <= c <= 'z' then (c - 'a') as nat + 10
    else if 'A' <= c <= 'Z' then (c - 'A') as nat + 10
    else 36
  }

  predicate IsDigitIn(c: char, radix: nat) {
    DigitValue(c) < radix
  }

  predicate IsDecimalDigit(c: char) {
    '0' <= c <= '9'
  }

  lemma DecimalDigitIsRadix10(c: char)
    ensures IsDigitIn(c, 10) <==> IsDecimalDigit(c)
  {
  }

  /** Length of the run of radix-`radix` digits at the start of `s`. */
  function DigitRun(s: string, radix: nat): (k: nat)
    ensures k <= |s|
    ensures forall i :: 0 <= i < k ==> IsDigitIn(s[i], radix)
    ensures k == |s| || !IsDigitIn(s[k], radix)
  {
    if |s| == 0 || !IsDigitIn(s[0], radix) then 0 else 1 + DigitRun(s[1..], radix)
  }

  /** Value of a digit string read most significant digit first. */
  function DigitsValue(s: string, radix: nat): nat
  {
    if |s| == 0 then 0
    else
      var high := DigitsValue(s[..|s| - 1], radix);
      var d := DigitValue(s[|s| - 1]);
      MulNat(high, radix);
      high * radix + (if d < radix then d else 0)
  }

  lemma MulNat(a: nat, b: nat)
    ensures a * b >= 0
  {
  }

  function DigitChar(d: nat): (c: char)
    requires d < 10
    ensures IsDecimalDigit(c) && DigitValue(c) == d
  {
    ['0', '1', '2', '3', '4', '5', '6', '7', '8', '9'][d]
  }

  /** Decimal digits of a natural number, without leading zeros. */
  function NatDigits(n: nat): (s: string)
    ensures |s| >= 1
    ensures forall i :: 0 <= i < |s| ==> IsDecimalDigit(s[i])
    ensures |s| > 1 ==> s[0] != '0'
    decreases n
  {
    if n < 10 then [DigitChar(n)] else NatDigits(n / 10) + [DigitChar(n % 10)]
  }

  /** `String(n)` for an integer `n`. */
  function IntToString(n: int): (s: string)
    ensures |s| >= 1
    ensures s[0] == '-' <==> n < 0
  {
    if n < 0 then "-" + NatDigits(-n) else NatDigits(n)
  }

  lemma {:induction false} NatDigitsValue(n: nat)
    ensures DigitsValue(NatDigits(n), 10) == n
    ensures DigitRun(NatDigits(n), 10) == |NatDigits(n)|
    decreases n
  {
    var s := NatDigits(n);
    AllDigitsRun(s);
    if n >= 10 {
      NatDigitsValue(n / 10);
      assert s[..|s| - 1] == NatDigits(n / 10);
    }
  }

  lemma AllDigitsRun(s: string)
    requires forall i :: 0 <= i < |s| ==> IsDecimalDigit(s[i])
    ensures DigitRun(s, 10) == |s|
  {
  }

  // ---------------------------------------------------------------------
  // parseInt and parseFloat

  /** The sign of `t`'s leading '+' or '-', and the text after it. */
  function SplitSign(t: string): (bool, string)
  {
    if |t| > 0 && (t[0] == '-' || t[0] == '+') then (t[0] == '-', t[1..]) else (false, t)
  }

  function Signed(negative: bool, n: int): int {
    if negative then -n else n
  }

  /** The digits `parseInt` reads after the sign: a "0x" or "0X" prefix selects
      radix 16, and the longest run of digits is read; None when there is none. */
  function ReadInteger(u: string): (r: Option<nat>)
    ensures r.None? <==>
      var hex := |u| >= 2 && u[0] == '0' && (u[1] == 'x' || u[1] == 'X');
      if hex then |u| == 2 || !IsDigitIn(u[2], 16) else |u| == 0 || !IsDigitIn(u[0], 10)
  {
    var hex := |u| >= 2 && u[0] == '0' && (u[1] == 'x' || u[1] == 'X');
    var radix := if hex then 16 else 10;
    var w := if hex then u[2..] else u;
    var k := DigitRun(w, radix);
    if k == 0 then None else Some(DigitsValue(w[..k], radix))
  }

  /** `parseInt(s)` with no radix argument, on its integer result; None is NaN.
      Leading whitespace is skipped and one sign is accepted. */
  function ParseInteger(s: string): (r: Option<int>)
    ensures r.None? <==> ReadInteger(SplitSign(s[LeadingSpace(s)..]).1).None?
  {
    var (negative, u) := SplitSign(s[LeadingSpace(s)..]);
    match ReadInteger(u)
    case None => None
    case Some(v) => Some(Signed(negative, v))
  }

  /** `parseInt(s)` as a JavaScript number. */
  function ParseInt(s: string): (r: JsNumber)
    ensures r.NaN? || r.Finite?
    ensures r.NaN? <==> ParseInteger(s).None?
    ensures ParseInteger(s).Some? ==> r == Finite(ParseInteger(s).value as real)
  {
    match ParseInteger(s)
    case None => NaN
    case Some(n) => Finite(n as real)
  }

  /** Reading back `String(n)` with `parseInt` gives `n`. */
  lemma {:induction false} ParseIntegerOfString(n: int)
    ensures ParseInteger(IntToString(n)) == Some(n)
  {
    var m: nat := if n < 0 then -n else n;
    SignThenDigits(n);
    ReadIntegerOfDigits(m);
  }

  lemma ReadIntegerOfDigits(m: nat)
    ensures ReadInteger(NatDigits(m)) == Some(m)
  {
    ReadDigits(m);
  }

  /** `String(n)` has no leading whitespace, then the sign, then the digits of |n|. */
  lemma SignThenDigits(n: int)
    ensures var s := IntToString(n);
      LeadingSpace(s) == 0 && s[LeadingSpace(s)..] == s
      && SplitSign(s) == (n < 0, NatDigits(if n < 0 then -n else n))
  {
    var s := IntToString(n);
    var m: nat := if n < 0 then -n else n;
    assert IsDecimalDigit(NatDigits(m)[0]);
    assert !IsSpace(s[0]);
  }

  /** The digits of `m` are one whole digit run with value `m`, not a "0x" prefix. */
  lemma ReadDigits(m: nat)
    ensures var d := NatDigits(m);
      DigitRun(d, 10) == |d| && d[..|d|] == d && DigitsValue(d, 10) == m
      && !(|d| >= 2 && d[0] == '0') && IsDecimalDigit(d[0]) && d[|d|..] == ""
  {
    NatDigitsValue(m);
  }

  function Pow10(n: nat): (r: real)
    ensures r >= 1.0
  {
    if n == 0 then 1.0 else 10.0 * Pow10(n - 1)
  }

  /** The exponent part of a decimal literal at the start of `t`: its value
      and length, or length 0 when `t` does not start with one. */
  function ExponentPart(t: string): (r: (int, nat))
    ensures r.1 <= |t|
  {
    if |t| >= 2 && (t[0] == 'e' || t[0] == 'E') then
      var (negative, u) := SplitSign(t[1..]);
      var k := DigitRun(u, 10);
      if k == 0 then (0, 0)
      else (Signed(negative, DigitsValue(u[..k], 10)), 1 + (|t| - 1 - |u|) + k)
    else (0, 0)
  }

  function Scale(x: real, e: int): real {
    if e >= 0 then x * Pow10(e) else x / Pow10(-e)
  }

  /** The decimal literal `parseFloat` reads after the sign: the longest prefix
      made of digits, an optional fraction and an optional exponent. None when
      there is no digit before or right after the point. */
  function ReadDecimal(u: string): (r: Option<real>)
  {
    var i := DigitRun(u, 10);
    var rest := u[i..];
    var hasPoint := |rest| > 0 && rest[0] == '.';
    var f := if hasPoint then DigitRun(rest[1..], 10) else 0;
    if i + f == 0 then None
    else
      var mantissa := DigitsValue(u[..i], 10) as real
        + (if hasPoint then DigitsValue(rest[1..][..f], 10) as real / Pow10(f) else 0.0);
      var afterMantissa := if hasPoint then rest[1 + f..] else rest;
      var (e, _) := ExponentPart(afterMantissa);
      Some(Scale(mantissa, e))
  }

  /** `parseFloat(s)`: leading whitespace skipped, one sign, then "Infinity"
      or a decimal literal. No digits at all gives NaN. */
  function ParseFloat(s: string): (r: JsNumber)
    ensures r.NaN? <==>
      var (_, u) := SplitSign(s[LeadingSpace(s)..]);
      !(|u| >= 8 && u[..8] == "Infinity") && ReadDecimal(u).None?
  {
    var (negative, u) := SplitSign(s[LeadingSpace(s)..]);
    if |u| >= 8 && u[..8] == "Infinity" then Infinite(negative)
    else
      match ReadDecimal(u)
      case None => NaN
      case Some(magnitude) => Finite(if negative then -magnitude else magnitude)
  }

  /** Text with no digit before or right after an optional point reads as NaN. */
  lemma ParseFloatNoDigits(s: string)
    requires var (_, u) := SplitSign(s[LeadingSpace(s)..]);
      !(|u| >= 8 && u[..8] == "Infinity")
      && (|u| == 0 || !IsDecimalDigit(u[0]))
      && (|u| < 2 || u[0] != '.' || !IsDecimalDigit(u[1]))
    ensures ParseFloat(s) == NaN
  {
    var (_, u) := SplitSign(s[LeadingSpace(s)..]);
    ReadDecimalNoDigits(u);
  }

  lemma ReadDecimalNoDigits(u: string)
    requires |u| == 0 || !IsDecimalDigit(u[0])
    requires |u| < 2 || u[0] != '.' || !IsDecimalDigit(u[1])
    ensures ReadDecimal(u).None?
  {
    assert DigitRun(u, 10) == 0;
    assert u[0..] == u;
  }

  /** Reading back `String(n)` with `parseFloat` gives `n`. */
  lemma {:induction false} ParseFloatOfString(n: int)
    ensures ParseFloat(IntToString(n)) == Finite(n as real)
  {
    var m: nat := if n < 0 then -n else n;
    SignThenDigits(n);
    ReadDecimalOfDigits(m);
    ReadDigits(m);
    NotInfinity(NatDigits(m));
  }

  lemma ReadDecimalOfDigits(m: nat)
    ensures ReadDecimal(NatDigits(m)) == Some(m as real)
  {
    ReadDigits(m);
    assert ExponentPart("") == (0, 0);
    assert Scale(m as real, 0) == m as real;
  }

  /** Text starting with a digit is not "Infinity". */
  lemma NotInfinity(u: string)
    requires |u| > 0 && IsDecimalDigit(u[0])
    ensures !(|u| >= 8 && u[..8] == "Infinity")
  {
    assert |u| >= 8 ==> u[..8][0] == u[0];
  }
}

=== FILE: list_store.dfy ===
/** The shopping-list (cart) store: a sequence of products, each carrying the
    quantity the customer picked, with add, remove, quantity step, clear and
    a membership test. Every operation returns the new list. */
module ListStore {

  /** A product in the list; `quantity` is the number the customer orders. */
  datatype Product = Product(
    id: string,
    name: string,
    description: string,
    price: real,
    vat: real,
    image: string,
    category: string,
    quantity: int)

  /** Every entry has quantity at least 1. */
  predicate QuantitiesPositive(items: seq<Product>) {
    forall i :: 0 <= i < |items| ==> items[i].quantity >= 1
  }

  /** No two entries share an id. */
  predicate UniqueIds(items: seq<Product>) {
    forall i, j :: 0 <= i < j < |items| ==> items[i].id != items[j].id
  }

  /** `addItem`: the product goes at the end; there is no duplicate check. */
  function AddItem(items: seq<Product>, product: Product): (r: seq<Product>)
    ensures |r| == |items| + 1
    ensures r[|items|] == product
    ensures r[..|items|] == items
  {
    items + [product]
  }

  /** `removeItem`: every entry with the id goes, the others keep their order. */
  function RemoveItem(items: seq<Product>, productId: string): (r: seq<Product>)
    ensures |r| <= |items|
    ensures forall i :: 0 <= i < |r| ==> r[i].id != productId && r[i] in items
    ensures forall p :: p in items && p.id != productId ==> p in r
  {
    if |items| == 0 then []
    else
      var rest := RemoveItem(items[1..], productId);
      if items[0].id == productId then rest else [items[0]] + rest
  }

  /** The quantity after one press of the plus or minus control. */
  function Step(quantity: int, increment: bool): int {
    if increment then quantity + 1 else if quantity - 1 > 1 then quantity - 1 else 1
  }

  /** `updateQuantity`: each entry with the id gets its quantity stepped. */
  function UpdateQuantity(items: seq<Product>, productId: string, increment: bool): (r: seq<Product>)
    ensures |r| == |items|
    ensures forall i :: 0 <= i < |items| && items[i].id != productId ==> r[i] == items[i]
    ensures forall i :: 0 <= i < |items| && items[i].id == productId ==>
      r[i] == items[i].(quantity := r[i].quantity)
    ensures forall i :: 0 <= i < |items| && items[i].id == productId ==>
      if increment then r[i].quantity == items[i].quantity + 1
      else (r[i].quantity >= 1 && r[i].quantity >= items[i].quantity - 1
            && (r[i].quantity == 1 || r[i].quantity == items[i].quantity - 1))
  {
    seq(|items|, i requires 0 <= i < |items| =>
      if items[i].id == productId then items[i].(quantity := Step(items[i].quantity, increment))
      else items[i])
  }

  /** `clearItems`. */
  function ClearItems(): (r: seq<Product>)
    ensures |r| == 0
  {
    []
  }

  /** `hasItem`: a scan for an entry with the id. */
  function HasItem(items: seq<Product>, productId: string): (b: bool)
    ensures b <==> exists i :: 0 <= i < |items| && items[i].id == productId
  {
    if |items| == 0 then false
    else
      if items[0].id == productId then true
      else
        var b := HasItem(items[1..], productId);
        assert b ==> exists i :: 0 <= i < |items| && items[i].id == productId by {
          if b {
            var i :| 0 <= i < |items[1..]| && items[1..][i].id == productId;
            assert items[i + 1].id == productId;
          }
        }
        b
  }

  // ---------------------------------------------------------------------
  // Properties

  /** Adding a product whose id is present leaves two entries with that id. */
  lemma AddItemDuplicates(items: seq<Product>, product: Product, i: nat)
    requires i < |items| && items[i].id == product.id
    ensures var r := AddItem(items, product);
      r[i].id == product.id && r[|items|].id == product.id && i != |items|
    ensures !UniqueIds(AddItem(items, product))
  {
    var r := AddItem(items, product);
    assert r[i] == items[i];
  }

  lemma HasItemAfterAdd(items: seq<Product>, product: Product)
    ensures HasItem(AddItem(items, product), product.id)
  {
    var r := AddItem(items, product);
    assert r[|items|].id == product.id;
  }

  lemma NotHasItemAfterRemove(items: seq<Product>, productId: string)
    ensures !HasItem(RemoveItem(items, productId), productId)
  {
  }

  /** Removal distributes over concatenation: the kept entries stay in order. */
  lemma {:induction false} RemoveItemConcat(a: seq<Product>, b: seq<Product>, productId: string)
    ensures RemoveItem(a + b, productId) == RemoveItem(a, productId) + RemoveItem(b, productId)
  {
    if |a| == 0 {
      assert a + b == b;
    } else {
      assert (a + b)[1..] == a[1..] + b;
      RemoveItemConcat(a[1..], b, productId);
    }
  }

  /** Removing an absent id changes nothing. */
  lemma {:induction false} RemoveAbsent(items: seq<Product>, productId: string)
    requires !HasItem(items, productId)
    ensures RemoveItem(items, productId) == items
  {
    if |items| > 0 {
      RemoveAbsent(items[1..], productId);
      assert items == [items[0]] + items[1..];
    }
  }

  /** Removing a product just added by id undoes the add when the id was absent. */
  lemma RemoveUndoesAdd(items: seq<Product>, product: Product)
    requires !HasItem(items, product.id)
    ensures RemoveItem(AddItem(items, product), product.id) == items
  {
    RemoveItemConcat(items, [product], product.id);
    RemoveAbsent(items, product.id);
    assert RemoveItem([product], product.id) == [];
  }

  /** Decrementing a quantity of 1 leaves it at 1. */
  lemma DecrementFloor(items: seq<Product>, productId: string, i: nat)
    requires i < |items| && items[i].id == productId && items[i].quantity == 1
    ensures UpdateQuantity(items, productId, false)[i].quantity == 1
  {
  }

  /** Neither step takes a quantity below 1 once all are at least 1. */
  lemma UpdateKeepsPositive(items: seq<Product>, productId: string, increment: bool)
    requires QuantitiesPositive(items)
    ensures QuantitiesPositive(UpdateQuantity(items, productId, increment))
  {
  }

  /** Stepping up then down returns the list it started from. */
  lemma IncrementThenDecrement(items: seq<Product>, productId: string)
    requires QuantitiesPositive(items)
    ensures UpdateQuantity(UpdateQuantity(items, productId, true), productId, false) == items
  {
    var r := UpdateQuantity(UpdateQuantity(items, productId, true), productId, false);
    assert forall i :: 0 <= i < |items| ==> r[i] == items[i];
  }

  /** A quantity change keeps membership. */
  lemma UpdateKeepsMembership(items: seq<Product>, productId: string, increment: bool, other: string)
    ensures HasItem(UpdateQuantity(items, productId, increment), other) == HasItem(items, other)
  {
    var r := UpdateQuantity(items, productId, increment);
    assert forall i :: 0 <= i < |items| ==> r[i].id == items[i].id;
  }

  /** One user action on the list. */
  datatype Action = Add(product: Product) | Remove(productId: string)
    | Update(productId: string, increment: bool) | Clear

  function Apply(items: seq<Product>, action: Action): seq<Product> {
    match action
    case Add(p) => AddItem(items, p)
    case Remove(id) => RemoveItem(items, id)
    case Update(id, inc) => UpdateQuantity(items, id, inc)
    case Clear => ClearItems()
  }

  function Run(items: seq<Product>, actions: seq<Action>): seq<Product>
    decreases |actions|
  {
    if |actions| == 0 then items else Run(Apply(items, actions[0]), actions[1..])
  }

  /** Products added with quantity at least 1. */
  predicate AddsPositive(actions: seq<Action>) {
    forall k :: 0 <= k < |actions| && actions[k].Add? ==> actions[k].product.quantity >= 1
  }

  /** Over any sequence of actions that adds only positive quantities, no entry
      ever has a quantity below 1. */
  lemma {:induction false} RunKeepsPositive(items: seq<Product>, actions: seq<Action>)
    requires QuantitiesPositive(items)
    requires AddsPositive(actions)
    ensures QuantitiesPositive(Run(items, actions))
    decreases |actions|
  {
    if |actions| > 0 {
      var next := Apply(items, actions[0]);
      match actions[0] {
        case Add(p) =>
        case Remove(id) =>
        case Update(id, inc) => UpdateKeepsPositive(items, id, inc);
        case Clear =>
      }
      assert AddsPositive(actions[1..]) by {
        forall k | 0 <= k < |actions[1..]| && actions[1..][k].Add?
          ensures actions[1..][k].product.quantity >= 1
        {
          assert actions[1..][k] == actions[k + 1];
        }
      }
      RunKeepsPositive(next, actions[1..]);
    }
  }

  /** The product screens' toggle: a listed product is removed, an unlisted one
      is added with the quantity chosen on the card. */
  function Toggle(items: seq<Product>, product: Product): (r: seq<Product>)
    ensures HasItem(r, product.id) <==> !HasItem(items, product.id)
  {
    if HasItem(items, product.id) then RemoveItem(items, product.id)
    else
      HasItemAfterAdd(items, product);
      AddItem(items, product)
  }

  /** Because the toggle checks membership first, it never creates a duplicate. */
  lemma ToggleKeepsUnique(items: seq<Product>, product: Product)
    requires UniqueIds(items)
    ensures UniqueIds(Toggle(items, product))
  {
    if HasItem(items, product.id) {
      RemoveKeepsUnique(items, product.id);
    }
  }

  lemma {:induction false} RemoveKeepsUnique(items: seq<Product>, productId: string)
    requires UniqueIds(items)
    ensures UniqueIds(RemoveItem(items, productId))
  {
    if |items| > 0 {
      var rest := RemoveItem(items[1..], productId);
      RemoveKeepsUnique(items[1..], productId);
      if items[0].id != productId {
        forall j | 0 <= j < |rest| ensures rest[j].id != items[0].id {
          assert rest[j] in items[1..];
        }
      }
    }
  }
}

=== FILE: new_product.dfy ===
/** The new-product screen: the form's defaults, the required-field check and
    the row `handleAddProduct` inserts. Every field is raw text; nothing is
    trimmed and the price is not checked to parse. */
module NewProduct {
  import opened Js
  import opened Backend

  datatype NewProductForm = NewProductForm(
    name: string,
    description: string,
    price: string,
    vat: string,
    image: string,
    category: string)

  /** The form as the screen opens: VAT "19" and category "Getränke". */
  const DefaultForm := NewProductForm("", "", "", "19", "", "Getränke")

  /** The inserted row. */
  datatype InsertRow = InsertRow(
    name: string,
    description: Option<string>,
    price: JsNumber,
    vat: JsNumber,
    image: Option<string>,
    category: string)

  const RequiredMessage := "Lütfen zorunlu alanları doldurun."
  const AddedMessage := "Ürün başarıyla eklendi!"
  const FailedMessage := "Ürün eklenirken bir hata oluştu."

  /** `s || null` for a string. */
  function EmptyToNull(s: string): (r: Option<string>)
    ensures r.None? <==> s == ""
    ensures r.Some? ==> r.value == s
  {
    if s == "" then None else Some(s)
  }

  /** The row for a form that passed the required-field check. */
  function RowFor(form: NewProductForm): (r: InsertRow)
    ensures r.name == form.name && r.category == form.category
    ensures r.description.GetOr("") == form.description && r.image.GetOr("") == form.image
    ensures r.description.None? <==> form.description == ""
    ensures r.image.None? <==> form.image == ""
    ensures r.price == ParseFloat(form.price) && r.vat == ParseInt(form.vat)
  {
    InsertRow(form.name, EmptyToNull(form.description), ParseFloat(form.price), ParseInt(form.vat),
      EmptyToNull(form.image), form.category)
  }

  /** What `handleAddProduct` did: the row it inserted (if it got that far),
      the message it showed, and whether it went back to the previous screen. */
  datatype AddOutcome = AddOutcome(inserted: Option<InsertRow>, message: string, navigatesBack: bool)

  /** `handleAddProduct`, given the insert's reply. */
  function HandleAdd(form: NewProductForm, reply: Reply<()>): (r: AddOutcome)
    ensures r.inserted.None? <==> form.name == "" || form.price == "" || form.category == ""
    ensures r.inserted.Some? ==> r.inserted.value == RowFor(form)
    ensures r.inserted.None? ==> r.message == RequiredMessage
    ensures r.navigatesBack <==> r.inserted.Some? && reply.Ok?
    ensures r.inserted.Some? ==> r.message == (if reply.Ok? then AddedMessage else FailedMessage)
  {
    if form.name == "" || form.price == "" || form.category == "" then
      AddOutcome(None, RequiredMessage, false)
    else
      match reply
      case Ok(_) => AddOutcome(Some(RowFor(form)), AddedMessage, true)
      case Err(_) => AddOutcome(Some(RowFor(form)), FailedMessage, false)
  }

  /** The untouched form is refused: its name and price are empty. */
  lemma DefaultFormRefused(reply: Reply<()>)
    ensures HandleAdd(DefaultForm, reply) == AddOutcome(None, RequiredMessage, false)
  {
  }

  /** Only the empty string is refused: a name of one space is inserted as is. */
  lemma BlankNameInserted(form: NewProductForm)
    requires form.name == " " && form.price != "" && form.category != ""
    ensures HandleAdd(form, Ok(())).inserted == Some(RowFor(form))
    ensures RowFor(form).name == " "
  {
  }

  /** A price text with no digits passes the check and is inserted as NaN. */
  lemma UnparsedPriceInserted(form: NewProductForm)
    requires form.price == "abc" && form.name != "" && form.category != ""
    ensures HandleAdd(form, Ok(())).inserted.value.price == NaN
  {
    var s := form.price;
    assert LeadingSpace(s) == 0;
    assert s[0..] == s;
    ParseFloatNoDigits(s);
  }

  /** Once filled in, the default VAT text becomes the number 19. */
  lemma DefaultVatIs19(form: NewProductForm)
    requires form.vat == DefaultForm.vat
    ensures RowFor(form).vat == Finite(19.0)
  {
    ParseIntegerOfString(19);
    assert IntToString(19) == "19";
  }
}

=== FILE: order_management.dfy ===
/** The admin order screen: paging through `listOrders` twenty orders at a
    time, merging each new page into the loaded list, the "load more" guard,
    status changes made from the list, and what each order card shows. The
    service's result is a parameter. */
module OrderManagement {
  import opened Js
  import opened Backend
  import opened Forms
  import opened Seqs
  import opened OrderTypes
  import opened OrderService
  import AdminOrderList

  const ItemsPerPage := 20
  const FetchError := "Siparişler yüklenirken bir hata oluştu."
  const StatusUpdated := Alert("Başarılı", "Sipariş durumu güncellendi!")
  const StatusFailed := Alert("Hata", "Sipariş durumu güncellenirken bir hata oluştu.")
  const UnknownUser := "Bilinmeyen Kullanıcı"
  const NoEmail := "E-posta yok"
  const UnnamedProduct := "Ürün"

  datatype Filters = Filters(status: Option<OrderStatus>, startDate: Option<string>, endDate: Option<string>)

  datatype Screen = Screen(
    orders: seq<OrderWithItems>,
    page: nat,
    hasMore: bool,
    totalOrders: int,
    loading: bool,
    error: Option<string>,
    filters: Filters)

  /** The screen as it mounts, before the first fetch returns. */
  const Initial := Screen([], 0, true, 0, true, None, Filters(None, None, None))

  // ---------------------------------------------------------------------
  // Paging

  /** The parameters a fetch passes for `page`: all users, the screen's filters. */
  function PageParams(page: nat, filters: Filters): (r: ListParams)
    ensures r.limit == Some(ItemsPerPage) && r.offset == Some(page * ItemsPerPage)
    ensures r.userId.None?
    ensures r.status == filters.status && r.startDate == filters.startDate && r.endDate == filters.endDate
  {
    ListParams(Some(ItemsPerPage), Some(page * ItemsPerPage), filters.startDate, filters.endDate, filters.status, None)
  }

  /** Page `page` asks for rows 20 * page to 20 * page + 19, and the next page
      starts right after it: pages neither overlap nor leave gaps. */
  lemma PagesAdjoin(page: nat, filters: Filters)
    ensures BuildQuery(PageParams(page, filters)).from == page * ItemsPerPage
    ensures BuildQuery(PageParams(page, filters)).to == page * ItemsPerPage + ItemsPerPage - 1
    ensures BuildQuery(PageParams(page + 1, filters)).from == BuildQuery(PageParams(page, filters)).to + 1
  {
  }

  /** The list after a non-refresh fetch: the loaded orders, then the fetched
      orders whose id is not loaded yet, in the order they came. */
  function MergePage(prev: seq<OrderWithItems>, fetched: seq<OrderWithItems>): (r: seq<OrderWithItems>)
    ensures |prev| <= |r| <= |prev| + |fetched|
    ensures r[..|prev|] == prev
    ensures forall k :: |prev| <= k < |r| ==> r[k] in fetched && !HasOrderId(prev, r[k].id)
    ensures forall o :: o in fetched && !HasOrderId(prev, o.id) ==> o in r
  {
    prev + Filter(fetched, (o: OrderWithItems) => !HasOrderId(prev, o.id))
  }

  /** Merging keeps ids unique when the loaded list and the page have unique ids. */
  lemma MergeKeepsUnique(prev: seq<OrderWithItems>, fetched: seq<OrderWithItems>)
    requires UniqueOrderIds(prev) && UniqueOrderIds(fetched)
    ensures UniqueOrderIds(MergePage(prev, fetched))
  {
    var keep := (o: OrderWithItems) => !HasOrderId(prev, o.id);
    var key := (o: OrderWithItems) => o.id;
    assert UniqueBy(fetched, key);
    FilterUniqueBy(fetched, keep, key);
    var added := Filter(fetched, keep);
    var r := MergePage(prev, fetched);
    assert r == prev + added;
    forall i, j | 0 <= i < j < |r| ensures r[i].id != r[j].id {
      if j < |prev| {
        assert r[i] == prev[i] && r[j] == prev[j];
      } else if i < |prev| {
        assert r[i] == prev[i];
        assert !HasOrderId(prev, r[j].id);
      } else {
        assert r[i] == added[i - |prev|] && r[j] == added[j - |prev|];
        assert key(added[i - |prev|]) != key(added[j - |prev|]);
      }
    }
  }

  /** Fetching the same page again adds nothing. */
  lemma MergeSamePageTwice(prev: seq<OrderWithItems>, fetched: seq<OrderWithItems>)
    ensures MergePage(MergePage(prev, fetched), fetched) == MergePage(prev, fetched)
  {
    var m := MergePage(prev, fetched);
    var keep := (o: OrderWithItems) => !HasOrderId(m, o.id);
    forall i | 0 <= i < |fetched| ensures !keep(fetched[i]) {
      var o := fetched[i];
      if HasOrderId(prev, o.id) {
        var k :| 0 <= k < |prev| && prev[k].id == o.id;
        assert m[k] == prev[k];
      } else {
        assert o in m;
        var k :| 0 <= k < |m| && m[k] == o;
      }
    }
    FilterDropsAll(fetched, keep);
  }

  /** `(count || 0) > (page + 1) * 20`. */
  function HasMore(count: Option<int>, page: nat): (r: bool)
    ensures r <==> count.Some? && count.value > (page + 1) * ItemsPerPage
  {
    count.GetOr(0) > (page + 1) * ItemsPerPage
  }

  datatype FetchStep = FetchStep(request: ListParams, screen: Screen)

  /** `fetchOrders(refresh)`. A refresh resets the page to 0 and empties the
      list first, but the request and the `hasMore` rule still use the page
      the screen had when the fetch began. */
  function FetchOrders(s: Screen, refresh: bool, result: ServiceResult<ListPage>): (r: FetchStep)
    ensures r.request == PageParams(s.page, s.filters)
    ensures r.screen.page == (if refresh then 0 else s.page)
    ensures !r.screen.loading && r.screen.filters == s.filters
    ensures result.Failure? ==>
      r.screen.error == Some(FetchError) && r.screen.orders == (if refresh then [] else s.orders)
      && r.screen.hasMore == s.hasMore && r.screen.totalOrders == s.totalOrders
    ensures result.Success? ==>
      r.screen.error == s.error
      && r.screen.orders == (if refresh then result.data.data else MergePage(s.orders, result.data.data))
      && r.screen.totalOrders == result.data.count.GetOr(0)
      && r.screen.hasMore == HasMore(result.data.count, s.page)
  {
    var request := PageParams(s.page, s.filters);
    var start := if refresh then s.(page := 0, orders := []) else s;
    match result
    case Failure(_) => FetchStep(request, start.(loading := false, error := Some(FetchError)))
    case Success(data) =>
      var orders := if refresh then data.data else MergePage(start.orders, data.data);
      FetchStep(request, start.(orders := orders, totalOrders := data.count.GetOr(0),
        hasMore := HasMore(data.count, s.page), loading := false))
  }

  /** A fetch keeps the loaded orders' ids unique when the page's are. */
  lemma FetchKeepsUnique(s: Screen, refresh: bool, result: ServiceResult<ListPage>)
    requires UniqueOrderIds(s.orders)
    requires result.Success? ==> UniqueOrderIds(result.data.data)
    ensures UniqueOrderIds(FetchOrders(s, refresh, result).screen.orders)
  {
    if result.Success? && !refresh {
      MergeKeepsUnique(s.orders, result.data.data);
    }
  }

  /** `loadMore`: the next page, only when there is more and nothing is loading. */
  function LoadMore(s: Screen): (r: Screen)
    ensures r.page == (if s.hasMore && !s.loading then s.page + 1 else s.page)
    ensures r.(page := s.page) == s
  {
    if s.hasMore && !s.loading then s.(page := s.page + 1) else s
  }

  /** With `listOrders` as written the count is always null, so after any
      successful fetch `hasMore` is false and "load more" never moves past the
      first page fetched. */
  lemma AsWrittenNeverHasMore(s: Screen, refresh: bool, rows: Reply<seq<RawOrder>>, matching: nat)
    requires rows.Ok?
    ensures var next := FetchOrders(s, refresh, ListOrders(PageParams(s.page, s.filters), rows, matching)).screen;
      !next.hasMore && next.totalOrders == 0 && LoadMore(next) == next
  {
  }

  /** With the count asked for, `hasMore` holds exactly when more orders match
      than the pages up to this one hold, and "load more" then asks for the
      rows right after this page. */
  lemma CountedHasMore(s: Screen, refresh: bool, rows: Reply<seq<RawOrder>>, matching: nat)
    requires rows.Ok?
    ensures var next := FetchOrders(s, refresh, ListOrdersCounted(PageParams(s.page, s.filters), rows, matching)).screen;
      (next.hasMore <==> matching > (s.page + 1) * ItemsPerPage)
      && next.totalOrders == matching
  {
  }

  /** Paging on from a non-refresh fetch asks for the rows right after the
      page just fetched. */
  lemma LoadMoreRequestsNextPage(s: Screen, result: ServiceResult<ListPage>, next: ServiceResult<ListPage>)
    requires var t := FetchOrders(s, false, result).screen; t.hasMore && !t.loading
    ensures var t := FetchOrders(s, false, result);
      BuildQuery(FetchOrders(LoadMore(t.screen), false, next).request).from == BuildQuery(t.request).to + 1
  {
    PagesAdjoin(s.page, s.filters);
  }

  // ---------------------------------------------------------------------
  // Status changes

  /** The local update after the service accepted a status change. */
  function UpdateStatusLocal(orders: seq<OrderWithItems>, orderId: string, status: OrderStatus): (r: seq<OrderWithItems>)
    ensures |r| == |orders|
    ensures forall i :: 0 <= i < |orders| ==>
      r[i] == (if orders[i].id == orderId then orders[i].(status := status) else orders[i])
  {
    seq(|orders|, i requires 0 <= i < |orders| =>
      if orders[i].id == orderId then orders[i].(status := status) else orders[i])
  }

  /** A status change keeps every order's id and items, so ids stay unique. */
  lemma StatusUpdateKeepsIds(orders: seq<OrderWithItems>, orderId: string, status: OrderStatus)
    requires UniqueOrderIds(orders)
    ensures var r := UpdateStatusLocal(orders, orderId, status);
      UniqueOrderIds(r) && forall i :: 0 <= i < |orders| ==> r[i].id == orders[i].id && r[i].items == orders[i].items
  {
  }

  datatype StatusStep = StatusStep(orders: seq<OrderWithItems>, alert: Alert)

  /** `updateOrderStatus` on the screen, given the service's result. */
  function HandleStatusUpdate(s: Screen, orderId: string, status: OrderStatus, result: ServiceResult<()>): (r: StatusStep)
    ensures result.Failure? ==> r.orders == s.orders && r.alert == StatusFailed
    ensures result.Success? ==> r.orders == UpdateStatusLocal(s.orders, orderId, status) && r.alert == StatusUpdated
  {
    match result
    case Success(_) => StatusStep(UpdateStatusLocal(s.orders, orderId, status), StatusUpdated)
    case Failure(_) => StatusStep(s.orders, StatusFailed)
  }

  /** A status button on an order card. */
  datatype StatusAction = Process | Complete

  /** The status a button moves the order to. */
  function Target(a: StatusAction): OrderStatus {
    match a
    case Process => Processing
    case Complete => Completed
  }

  /** The buttons a card offers: "İşleme Al" unless processing, "Tamamla"
      unless completed. */
  function Actions(status: OrderStatus): (r: seq<StatusAction>)
    ensures Process in r <==> status != Processing
    ensures Complete in r <==> status != Completed
  {
    (if status != Processing then [Process] else []) + (if status != Completed then [Complete] else [])
  }

  /** Every offered button changes the status; a pending order offers both, and
      a completed order can be taken back to processing. */
  lemma ActionsChangeStatus(status: OrderStatus)
    ensures forall a :: a in Actions(status) ==> Target(a) != status
    ensures Actions(Pending) == [Process, Complete]
    ensures Actions(Completed) == [Process]
  {
  }

  // ---------------------------------------------------------------------
  // Counters and cards

  /** `orders.filter(o => o.status === status).length`. */
  function CountStatus(orders: seq<OrderWithItems>, status: OrderStatus): (n: nat)
    ensures n <= |orders|
    ensures n == 0 <==> forall i :: 0 <= i < |orders| ==> orders[i].status != status
  {
    if |orders| == 0 then 0
    else (if orders[0].status == status then 1 else 0) + CountStatus(orders[1..], status)
  }

  /** A counter is the number of loaded orders with that status: the length of
      the order-preserving filter on the status. */
  lemma {:induction false} CountIsFilter(orders: seq<OrderWithItems>, status: OrderStatus)
    ensures CountStatus(orders, status) == |Filter(orders, (o: OrderWithItems) => o.status == status)|
  {
    if |orders| > 0 {
      var keep := (o: OrderWithItems) => o.status == status;
      CountIsFilter(orders[1..], status);
      assert orders == [orders[0]] + orders[1..];
      FilterConcat([orders[0]], orders[1..], keep);
      assert [orders[0]][1..] == [];
      assert Filter([orders[0]], keep) == (if keep(orders[0]) then [orders[0]] else []) + Filter([orders[0]][1..], keep);
    }
  }

  /** The three counts partition the loaded orders, so the pending and
      processing counters never add up to more than the list. */
  lemma {:induction false} CountsPartition(orders: seq<OrderWithItems>)
    ensures CountStatus(orders, Pending) + CountStatus(orders, Processing) + CountStatus(orders, Completed) == |orders|
  {
    if |orders| > 0 {
      CountsPartition(orders[1..]);
    }
  }

  /** `getStatusColor` of the order screen. */
  function StatusColor(status: OrderStatus): (r: string)
    ensures r == AdminOrderList.StatusColor(DbName(status))
  {
    match status
    case Completed => "#16a34a"
    case Processing => "#f59e0b"
    case Pending => "#64748b"
  }

  /** The customer line: the full name, else "Bilinmeyen Kullanıcı". */
  function CustomerName(o: OrderWithItems): (r: string)
    ensures o.user.Some? && o.user.value.fullName.Some? && o.user.value.fullName.value != "" ==>
      r == o.user.value.fullName.value
    ensures o.user.None? || o.user.value.fullName.None? || o.user.value.fullName.value == "" ==>
      r == UnknownUser
  {
    match o.user
    case None => UnknownUser
    case Some(u) => StringOr(u.fullName, UnknownUser)
  }

  /** The e-mail line: the address, else "E-posta yok". */
  function CustomerEmail(o: OrderWithItems): (r: string)
    ensures o.user.Some? && o.user.value.email.Some? && o.user.value.email.value != "" ==>
      r == o.user.value.email.value
    ensures o.user.None? || o.user.value.email.None? || o.user.value.email.value == "" ==>
      r == NoEmail
  {
    match o.user
    case None => NoEmail
    case Some(u) => StringOr(u.email, NoEmail)
  }

  /** A preview line's product name: the joined name, else "Ürün". */
  function ItemName(item: OrderItemRow): (r: string)
    ensures r != ""
    ensures item.productName.Some? && item.productName.value != "" ==> r == item.productName.value
    ensures item.productName.None? || item.productName.value == "" ==> r == UnnamedProduct
  {
    StringOr(item.productName, UnnamedProduct)
  }

  /** A card previews the first two items, and the "+k" line counts the rest. */
  lemma CardShowsAllItems(o: OrderWithItems)
    ensures var shown := AdminOrderList.Preview(o.items);
      shown == o.items[..|shown|]
      && |shown| + AdminOrderList.MoreCount(|o.items|).GetOr(0) == |o.items|
  {
    AdminOrderList.PreviewAccountsForAll(o.items);
  }
}

=== FILE: order_service.dfy ===
/** The order service over an abstract database. Each backend call's outcome
    is a parameter: the id and creation time the database gives a new order
    row, whether a batch insert or update went through, the admin push tokens
    the notification lookup found, and the rows a list query returned. */
module OrderService {
  import opened Js
  import opened Backend
  import opened OrderTypes

  const CreateFallback := "Sipariş oluşturulurken bir hata oluştu"
  const ListFallback := "Siparişler listelenirken bir hata oluştu"
  const StatusFallback := "Sipariş durumu güncellenirken bir hata oluştu"

  // ---------------------------------------------------------------------
  // createOrder

  /** One cart line of an order being placed. */
  datatype CartLine = CartLine(productId: string, quantity: int, price: real)

  datatype CreateOrderParams = CreateOrderParams(
    userId: string,
    items: seq<CartLine>,
    total: real,
    deliveryAddress: Option<string>,
    notes: Option<string>)

  /** A row of `order_items` as `createOrder` writes it. */
  datatype ItemInsert = ItemInsert(orderId: string, productId: string, quantity: int, price: real)

  /** The two tables `createOrder` writes. */
  datatype Tables = Tables(orders: seq<OrderRow>, items: seq<ItemInsert>)

  /** The order row the insert stores, given the id and time the database assigns. */
  function NewOrderRow(params: CreateOrderParams, id: string, createdAt: string): (r: OrderRow)
    ensures r.id == id && r.status == Pending
    ensures r.userId == params.userId && r.total == params.total
    ensures r.deliveryAddress == params.deliveryAddress && r.notes == params.notes
  {
    OrderRow(id, params.userId, Pending, params.total, params.deliveryAddress, params.notes, createdAt, createdAt)
  }

  /** The item rows: one per cart line, in order, pointing at the new order. */
  function ItemRows(orderId: string, lines: seq<CartLine>): (r: seq<ItemInsert>)
    ensures |r| == |lines|
    ensures forall k :: 0 <= k < |lines| ==>
      r[k] == ItemInsert(orderId, lines[k].productId, lines[k].quantity, lines[k].price)
  {
    seq(|lines|, k requires 0 <= k < |lines| =>
      ItemInsert(orderId, lines[k].productId, lines[k].quantity, lines[k].price))
  }

  /** What `createOrder` left behind: the tables, its result, and the push
      tokens it sent a notification to. */
  datatype CreateOutcome = CreateOutcome(tables: Tables, result: ServiceResult<OrderRow>, notified: seq<string>)

  /** `createOrder`. `inserted` is the order insert's reply (the new row's id
      and creation time), `itemsInserted` the item batch insert's, and
      `tokens` the admin token lookup's. */
  function CreateOrder(
    db: Tables, params: CreateOrderParams,
    inserted: Reply<(string, string)>, itemsInserted: Reply<()>, tokens: Reply<seq<string>>): (r: CreateOutcome)
    ensures inserted.Err? ==>
      r.tables == db && r.result == Failure(ErrorText(inserted.error, CreateFallback)) && r.notified == []
    ensures inserted.Ok? ==>
      r.tables.orders == db.orders + [NewOrderRow(params, inserted.value.0, inserted.value.1)]
    ensures inserted.Ok? && itemsInserted.Err? ==>
      r.tables.items == db.items && r.result == Failure(ErrorText(itemsInserted.error, CreateFallback))
    ensures inserted.Ok? && itemsInserted.Ok? ==>
      r.tables.items == db.items + ItemRows(inserted.value.0, params.items)
      && r.result == Success(NewOrderRow(params, inserted.value.0, inserted.value.1))
    ensures r.notified != [] ==> r.result.Success? && tokens.Ok? && r.notified == tokens.value
  {
    match inserted
    case Err(e) => CreateOutcome(db, Failure(ErrorText(e, CreateFallback)), [])
    case Ok((id, createdAt)) =>
      var row := NewOrderRow(params, id, createdAt);
      var withOrder := db.(orders := db.orders + [row]);
      match itemsInserted
      case Err(e) => CreateOutcome(withOrder, Failure(ErrorText(e, CreateFallback)), [])
      case Ok(_) =>
        var sent := match tokens case Ok(ts) => ts case Err(_) => [];
        CreateOutcome(withOrder.(items := db.items + ItemRows(id, params.items)), Success(row), sent)
  }

  /** Notifications never decide an order: whatever the token lookup does,
      the tables and the result are the same. */
  lemma NotificationsNeverFailOrder(
    db: Tables, params: CreateOrderParams,
    inserted: Reply<(string, string)>, itemsInserted: Reply<()>, t1: Reply<seq<string>>, t2: Reply<seq<string>>)
    ensures CreateOrder(db, params, inserted, itemsInserted, t1).tables
      == CreateOrder(db, params, inserted, itemsInserted, t2).tables
    ensures CreateOrder(db, params, inserted, itemsInserted, t1).result
      == CreateOrder(db, params, inserted, itemsInserted, t2).result
  {
  }

  /** A failed item insert is not rolled back: the order row stays, with no items. */
  lemma ItemFailureKeepsOrderRow(
    db: Tables, params: CreateOrderParams, id: string, createdAt: string, e: Thrown, tokens: Reply<seq<string>>)
    ensures var r := CreateOrder(db, params, Ok((id, createdAt)), Err(e), tokens);
      r.result.Failure? && |r.tables.orders| == |db.orders| + 1
      && r.tables.orders[|db.orders|].id == id && r.tables.orders[|db.orders|].status == Pending
      && r.tables.items == db.items
  {
  }

  /** After a successful order, the new items are exactly the ones that point
      at it, one per cart line. */
  lemma NewItemsPointAtOrder(
    db: Tables, params: CreateOrderParams, id: string, createdAt: string, tokens: Reply<seq<string>>)
    ensures var r := CreateOrder(db, params, Ok((id, createdAt)), Ok(()), tokens);
      |r.tables.items| == |db.items| + |params.items|
      && r.tables.items[..|db.items|] == db.items
      && (forall k :: |db.items| <= k < |r.tables.items| ==>
            r.tables.items[k].orderId == id
            && r.tables.items[k].productId == params.items[k - |db.items|].productId
            && r.tables.items[k].quantity == params.items[k - |db.items|].quantity)
  {
    var r := CreateOrder(db, params, Ok((id, createdAt)), Ok(()), tokens);
    assert r.tables.items == db.items + ItemRows(id, params.items);
  }

  // ---------------------------------------------------------------------
  // listOrders

  /** `ListOrdersParams`; dates are given as their ISO text. */
  datatype ListParams = ListParams(
    limit: Option<int>,
    offset: Option<int>,
    startDate: Option<string>,
    endDate: Option<string>,
    status: Option<OrderStatus>,
    userId: Option<string>)

  /** `listOrders()` with no parameters. */
  const NoParams := ListParams(None, None, None, None, None, None)

  /** A condition of the list query. */
  datatype Condition = UserIs(userId: string) | StatusIs(status: OrderStatus)
    | CreatedFrom(from: string) | CreatedUntil(until: string)

  /** The list query: newest first, its conditions, the inclusive row range,
      and whether the query asks the database for the matching row count. */
  datatype Query = Query(conditions: seq<Condition>, from: int, to: int, countRequested: bool)

  /** The query `listOrders` builds. A filter is applied only when given (the
      user id only when non-empty); no count is requested. */
  function BuildQuery(params: ListParams): (q: Query)
    ensures q.from == params.offset.GetOr(0)
    ensures q.to - q.from + 1 == params.limit.GetOr(50)
    ensures forall u :: UserIs(u) in q.conditions <==> params.userId == Some(u) && u != ""
    ensures forall s :: StatusIs(s) in q.conditions <==> params.status == Some(s)
    ensures forall t :: CreatedFrom(t) in q.conditions <==> params.startDate == Some(t)
    ensures forall t :: CreatedUntil(t) in q.conditions <==> params.endDate == Some(t)
    ensures !q.countRequested
  {
    var limit := params.limit.GetOr(50);
    var offset := params.offset.GetOr(0);
    var byUser := if params.userId.Some? && params.userId.value != "" then [UserIs(params.userId.value)] else [];
    var byStatus := if params.status.Some? then [StatusIs(params.status.value)] else [];
    var byStart := if params.startDate.Some? then [CreatedFrom(params.startDate.value)] else [];
    var byEnd := if params.endDate.Some? then [CreatedUntil(params.endDate.value)] else [];
    Query(byUser + byStatus + byStart + byEnd, offset, offset + limit - 1, false)
  }

  /** With no parameters the query asks for the first 50 rows, unfiltered. */
  lemma DefaultQuery()
    ensures BuildQuery(NoParams) == Query([], 0, 49, false)
  {
  }

  /** `a <= b` on strings: code-unit order, as the database compares ISO times. */
  predicate TextAtMost(a: string, b: string)
    decreases |a|
  {
    |a| == 0 || (|b| > 0 && (a[0] < b[0] || (a[0] == b[0] && TextAtMost(a[1..], b[1..]))))
  }

  /** A row a condition admits. */
  predicate Admits(c: Condition, row: OrderRow) {
    match c
    case UserIs(u) => row.userId == u
    case StatusIs(s) => row.status == s
    case CreatedFrom(t) => TextAtMost(t, row.createdAt)
    case CreatedUntil(t) => TextAtMost(row.createdAt, t)
  }

  /** A row the query's conditions admit. */
  predicate Matches(q: Query, row: OrderRow) {
    forall k :: 0 <= k < |q.conditions| ==> Admits(q.conditions[k], row)
  }

  /** A user's list shows only that user's orders, and only with the asked status. */
  lemma UserQueryMatchesOwnOrders(params: ListParams, row: OrderRow)
    requires params.userId.Some? && params.userId.value != ""
    requires Matches(BuildQuery(params), row)
    ensures row.userId == params.userId.value
    ensures params.status.Some? ==> row.status == params.status.value
  {
    var q := BuildQuery(params);
    assert UserIs(params.userId.value) in q.conditions;
    if params.status.Some? {
      assert StatusIs(params.status.value) in q.conditions;
    }
  }

  /** A row as the list query returns it; the joins may be missing. */
  datatype RawOrder = RawOrder(row: OrderRow, items: Option<seq<OrderItemRow>>, user: Option<OrderUser>)

  /** Missing items become [] and a missing user becomes null. */
  function Normalise(o: RawOrder): (r: OrderWithItems)
    ensures r.id == o.row.id && r.status == o.row.status && r.userId == o.row.userId
    ensures r.items == o.items.GetOr([]) && r.user == o.user
    ensures r.total == o.row.total && r.createdAt == o.row.createdAt
  {
    OrderWithItems(o.row.id, o.row.userId, o.row.status, o.row.total, o.row.deliveryAddress, o.row.notes,
      o.row.createdAt, o.row.updatedAt, o.items.GetOr([]), o.user)
  }

  /** A page of orders and the count the client reported with it. */
  datatype ListPage = ListPage(data: seq<OrderWithItems>, count: Option<int>)

  /** The count the client reports: the number of matching rows when the query
      asked for it, null otherwise. */
  function ReportedCount(q: Query, matching: nat): (r: Option<int>)
    ensures r.Some? <==> q.countRequested
    ensures r.Some? ==> r.value == matching
  {
    if q.countRequested then Some(matching) else None
  }

  /** The result of running `q`: `rows` is the page the database returned and
      `matching` the number of rows the conditions admit. */
  function RunList(q: Query, rows: Reply<seq<RawOrder>>, matching: nat): (r: ServiceResult<ListPage>)
    ensures rows.Err? ==> r == Failure(ErrorText(rows.error, ListFallback))
    ensures rows.Ok? ==>
      r.Success? && |r.data.data| == |rows.value|
      && r.data.count == ReportedCount(q, matching)
      && (forall k :: 0 <= k < |rows.value| ==> r.data.data[k] == Normalise(rows.value[k]))
  {
    match rows
    case Err(e) => Failure(ErrorText(e, ListFallback))
    case Ok(page) =>
      Success(ListPage(seq(|page|, k requires 0 <= k < |page| => Normalise(page[k])), ReportedCount(q, matching)))
  }

  /** `listOrders` as written. */
  function ListOrders(params: ListParams, rows: Reply<seq<RawOrder>>, matching: nat): (r: ServiceResult<ListPage>)
    ensures r.Success? <==> rows.Ok?
    ensures r.Success? ==> r.data.count.None?
  {
    RunList(BuildQuery(params), rows, matching)
  }

  /** The query with the count asked for, as the screen's paging needs. */
  function CountedQuery(params: ListParams): (q: Query)
    ensures q.countRequested
    ensures q.conditions == BuildQuery(params).conditions
    ensures q.from == BuildQuery(params).from && q.to == BuildQuery(params).to
  {
    BuildQuery(params).(countRequested := true)
  }

  /** `listOrders` with the count asked for: the page comes with the number of
      matching rows. */
  function ListOrdersCounted(params: ListParams, rows: Reply<seq<RawOrder>>, matching: nat): (r: ServiceResult<ListPage>)
    ensures r.Success? <==> rows.Ok?
    ensures r.Success? ==> r.data.count == Some(matching)
    ensures r.Success? ==> r.data.data == ListOrders(params, rows, matching).data.data
  {
    RunList(CountedQuery(params), rows, matching)
  }

  // ---------------------------------------------------------------------
  // updateOrderStatus

  /** `updateOrderStatus`, given the update's reply. */
  function UpdateOrderStatus(reply: Reply<()>): (r: ServiceResult<()>)
    ensures r.Success? <==> reply.Ok?
    ensures reply.Err? ==> r == Failure(ErrorText(reply.error, StatusFallback))
  {
    match reply
    case Ok(_) => Success(())
    case Err(e) => Failure(ErrorText(e, StatusFallback))
  }

  /** What the update writes into the `orders` table: the status and the
      current time on the row with the id. */
  function ApplyStatusUpdate(orders: seq<OrderRow>, orderId: string, status: OrderStatus, now: string): (r: seq<OrderRow>)
    ensures |r| == |orders|
    ensures forall i :: 0 <= i < |orders| ==>
      (if orders[i].id == orderId then r[i] == orders[i].(status := status, updatedAt := now) else r[i] == orders[i])
  {
    seq(|orders|, i requires 0 <= i < |orders| =>
      if orders[i].id == orderId then orders[i].(status := status, updatedAt := now) else orders[i])
  }

  /** A new order can be moved on: updating its status changes only that row. */
  lemma StatusUpdateOfNewOrder(
    db: Tables, params: CreateOrderParams, id: string, createdAt: string, tokens: Reply<seq<string>>,
    status: OrderStatus, now: string)
    requires forall i :: 0 <= i < |db.orders| ==> db.orders[i].id != id
    ensures var orders := CreateOrder(db, params, Ok((id, createdAt)), Ok(()), tokens).tables.orders;
      var r := ApplyStatusUpdate(orders, id, status, now);
      r[..|db.orders|] == db.orders && r[|db.orders|].status == status && r[|db.orders|].updatedAt == now
  {
    var orders := CreateOrder(db, params, Ok((id, createdAt)), Ok(()), tokens).tables.orders;
    var r := ApplyStatusUpdate(orders, id, status, now);
    assert forall i :: 0 <= i < |db.orders| ==> orders[i] == db.orders[i];
    assert r[..|db.orders|] == db.orders;
  }
}

=== FILE: order_store.dfy ===
/** The local order-history store: orders submitted from this device, newest
    first, with a status that can be changed by id. The store's random id is
    taken as a parameter. */
module OrderStore {
  import opened Js
  import opened OrderTypes

  datatype OrderItem = OrderItem(name: string, quantity: int, price: real)

  datatype Order = Order(
    id: string,
    date: string,
    status: OrderStatus,
    total: real,
    items: seq<OrderItem>,
    userId: string,
    userEmail: Option<string>,
    userName: Option<string>)

  /** What `addOrder` is given: an order without its id. */
  datatype OrderDraft = OrderDraft(
    date: string,
    status: OrderStatus,
    total: real,
    items: seq<OrderItem>,
    userId: string,
    userEmail: Option<string>,
    userName: Option<string>)

  /** The draft an order was made from, i.e. the order with its id dropped. */
  function DraftOf(o: Order): OrderDraft {
    OrderDraft(o.date, o.status, o.total, o.items, o.userId, o.userEmail, o.userName)
  }

  /** `addOrder`: the draft, given `id`, goes in front of the earlier orders. */
  function AddOrder(orders: seq<Order>, draft: OrderDraft, id: string): (r: seq<Order>)
    ensures |r| == |orders| + 1
    ensures r[0].id == id && DraftOf(r[0]) == draft
    ensures r[1..] == orders
  {
    [Order(id, draft.date, draft.status, draft.total, draft.items, draft.userId, draft.userEmail, draft.userName)]
      + orders
  }

  /** `updateOrderStatus`: every order with the id takes the new status. */
  function UpdateOrderStatus(orders: seq<Order>, orderId: string, status: OrderStatus): (r: seq<Order>)
    ensures |r| == |orders|
    ensures forall i :: 0 <= i < |orders| && orders[i].id != orderId ==> r[i] == orders[i]
    ensures forall i :: 0 <= i < |orders| && orders[i].id == orderId ==>
      r[i] == orders[i].(status := status)
  {
    seq(|orders|, i requires 0 <= i < |orders| =>
      if orders[i].id == orderId then orders[i].(status := status) else orders[i])
  }

  /** An unknown id is a no-op. */
  lemma UpdateUnknownId(orders: seq<Order>, orderId: string, status: OrderStatus)
    requires forall i :: 0 <= i < |orders| ==> orders[i].id != orderId
    ensures UpdateOrderStatus(orders, orderId, status) == orders
  {
  }

  /** After an update every order with the id has the new status. */
  lemma UpdateSetsStatus(orders: seq<Order>, orderId: string, status: OrderStatus, i: nat)
    requires i < |orders| && orders[i].id == orderId
    ensures UpdateOrderStatus(orders, orderId, status)[i].status == status
  {
  }

  /** A second update with the same arguments changes nothing. */
  lemma UpdateIdempotent(orders: seq<Order>, orderId: string, status: OrderStatus)
    ensures var once := UpdateOrderStatus(orders, orderId, status);
      UpdateOrderStatus(once, orderId, status) == once
  {
  }

  /** Setting the status back to what it was restores the history. */
  lemma UpdateRestores(orders: seq<Order>, i: nat, status: OrderStatus)
    requires i < |orders|
    requires forall j :: 0 <= j < |orders| && orders[j].id == orders[i].id ==> j == i
    ensures var changed := UpdateOrderStatus(orders, orders[i].id, status);
      UpdateOrderStatus(changed, orders[i].id, orders[i].status) == orders
  {
    var changed := UpdateOrderStatus(orders, orders[i].id, status);
    var back := UpdateOrderStatus(changed, orders[i].id, orders[i].status);
    assert forall j :: 0 <= j < |orders| ==> back[j] == orders[j];
  }

  /** A status update after adding an order touches the new order only when the
      ids agree, and the older orders exactly as an update before the add would. */
  lemma UpdateAfterAdd(orders: seq<Order>, draft: OrderDraft, id: string, orderId: string, status: OrderStatus)
    ensures var r := UpdateOrderStatus(AddOrder(orders, draft, id), orderId, status);
      r[1..] == UpdateOrderStatus(orders, orderId, status)
      && (r[0].status == if id == orderId then status else draft.status)
  {
    var a := AddOrder(orders, draft, id);
    var r := UpdateOrderStatus(a, orderId, status);
    var u := UpdateOrderStatus(orders, orderId, status);
    assert forall j :: 0 <= j < |orders| ==> r[1..][j] == u[j] by {
      forall j | 0 <= j < |orders| ensures r[1..][j] == u[j] {
        assert a[j + 1] == orders[j];
      }
    }
  }
}

=== FILE: order_types.dfy ===
/** The order-status domain shared by the order screens and the order tables:
    three statuses, their Turkish display labels and their names in the
    database's `order_status` enum. */
module OrderTypes {
  import opened Js

  datatype OrderStatus = Pending | Processing | Completed

  /** Every status, each once. */
  const AllStatuses: seq<OrderStatus> := [Pending, Processing, Completed]

  lemma AllStatusesEnumerates(s: OrderStatus)
    ensures s in AllStatuses
    ensures |AllStatuses| == 3
    ensures forall i, j :: 0 <= i < j < |AllStatuses| ==> AllStatuses[i] != AllStatuses[j]
  {
  }

  /** `ORDER_STATUS_LABELS`, a total map from status to label. */
  function Label(s: OrderStatus): (r: string)
    ensures r in {"Bekliyor", "İşleniyor", "Tamamlandı"}
    ensures s.Pending? <==> r == "Bekliyor"
    ensures s.Processing? <==> r == "İşleniyor"
    ensures s.Completed? <==> r == "Tamamlandı"
  {
    match s
    case Pending => "Bekliyor"
    case Processing => "İşleniyor"
    case Completed => "Tamamlandı"
  }

  /** No two statuses share a label, so a label names its status. */
  lemma LabelsDistinct(a: OrderStatus, b: OrderStatus)
    requires Label(a) == Label(b)
    ensures a == b
  {
  }

  /** The status's value in the database enum and the `orders.status` column. */
  function DbName(s: OrderStatus): (r: string)
    ensures r in {"pending", "processing", "completed"}
    ensures s.Pending? <==> r == "pending"
    ensures s.Processing? <==> r == "processing"
    ensures s.Completed? <==> r == "completed"
  {
    match s
    case Pending => "pending"
    case Processing => "processing"
    case Completed => "completed"
  }

  /** Reads a status column value; anything outside the enum is None. */
  function ParseDbStatus(text: string): (r: Option<OrderStatus>)
    ensures r.Some? ==> DbName(r.value) == text
    ensures r.None? <==> text !in {"pending", "processing", "completed"}
  {
    if text == "pending" then Some(Pending)
    else if text == "processing" then Some(Processing)
    else if text == "completed" then Some(Completed)
    else None
  }

  /** Every status survives a trip through its database name. */
  lemma DbNameRoundTrip(s: OrderStatus)
    ensures ParseDbStatus(DbName(s)) == Some(s)
  {
  }

  // ---------------------------------------------------------------------
  // Rows of the `orders` and `order_items` tables as the admin screens load them

  /** A row of `orders`. */
  datatype OrderRow = OrderRow(
    id: string,
    userId: string,
    status: OrderStatus,
    total: real,
    deliveryAddress: Option<string>,
    notes: Option<string>,
    createdAt: string,
    updatedAt: string)

  /** An item of an order, with the joined product's name. */
  datatype OrderItemRow = OrderItemRow(
    id: string,
    productId: string,
    quantity: int,
    price: real,
    productName: Option<string>)

  /** The joined customer; either column may be null. */
  datatype OrderUser = OrderUser(email: Option<string>, fullName: Option<string>)

  /** `OrderWithItems`: an order row with its items and its customer. */
  datatype OrderWithItems = OrderWithItems(
    id: string,
    userId: string,
    status: OrderStatus,
    total: real,
    deliveryAddress: Option<string>,
    notes: Option<string>,
    createdAt: string,
    updatedAt: string,
    items: seq<OrderItemRow>,
    user: Option<OrderUser>)

  /** No two orders share an id. */
  predicate UniqueOrderIds(orders: seq<OrderWithItems>) {
    forall i, j :: 0 <= i < j < |orders| ==> orders[i].id != orders[j].id
  }

  /** Some order has the id. */
  predicate HasOrderId(orders: seq<OrderWithItems>, id: string) {
    exists i :: 0 <= i < |orders| && orders[i].id == id
  }
}

=== FILE: pricing.dfy ===
/** Net, VAT and gross prices as the two product cards compute them. `vat` is
    a percentage. Exact real arithmetic: the cards' two-decimal display
    rounding is not part of the model. */
module Pricing {

  /** The home card's gross price: `price * (100 + vat) / 100`. */
  function GrossPrice(price: real, vat: real): (r: real)
    ensures vat == 0.0 ==> r == price
    ensures price >= 0.0 && vat >= 0.0 ==> r >= price
  {
    (price * (100.0 + vat)) / 100.0
  }

  /** The admin card's VAT amount: `price * vat / 100`. */
  function VatAmount(price: real, vat: real): (r: real)
    ensures vat == 0.0 ==> r == 0.0
    ensures price >= 0.0 && vat >= 0.0 ==> r >= 0.0
  {
    (price * vat) / 100.0
  }

  /** The admin card's total: net price plus the VAT amount. */
  function TotalPrice(price: real, vat: real): (r: real)
    ensures r - price == VatAmount(price, vat)
  {
    price + (price * vat) / 100.0
  }

  /** The two cards agree: the admin total is the home card's gross price. */
  lemma TotalIsGross(price: real, vat: real)
    ensures TotalPrice(price, vat) == GrossPrice(price, vat)
  {
    assert price * (100.0 + vat) == price * 100.0 + price * vat;
  }

  /** With no VAT the total is the net price. */
  lemma ZeroVatTotal(price: real)
    ensures VatAmount(price, 0.0) == 0.0 && TotalPrice(price, 0.0) == price
  {
  }

  /** For a non-negative price, more VAT never lowers the gross price. */
  lemma GrossMonotoneInVat(price: real, vat1: real, vat2: real)
    requires price >= 0.0 && vat1 <= vat2
    ensures GrossPrice(price, vat1) <= GrossPrice(price, vat2)
  {
    assert price * (100.0 + vat2) - price * (100.0 + vat1) == price * (vat2 - vat1);
  }

  /** At a fixed rate the gross price is additive in the net price. */
  lemma GrossAdditive(a: real, b: real, vat: real)
    ensures GrossPrice(a + b, vat) == GrossPrice(a, vat) + GrossPrice(b, vat)
  {
    assert (a + b) * (100.0 + vat) == a * (100.0 + vat) + b * (100.0 + vat);
  }

  /** The first catalogue product, Cola Light at 19.99 with 19 % VAT. */
  lemma ColaLightExample()
    ensures VatAmount(19.99, 19.0) == 3.7981
    ensures TotalPrice(19.99, 19.0) == 23.7881
    ensures GrossPrice(19.99, 19.0) == 23.7881
  {
  }

  /** The home card's button label. */
  function ListButtonLabel(isInList: bool): (r: string)
    ensures r == "Listede" <==> isInList
    ensures r == "Listeye Ekle" <==> !isInList
  {
    if isInList then "Listede" else "Listeye Ekle"
  }
}

=== FILE: seqs.dfy ===
/** Order-preserving filtering of a sequence, as `Array.prototype.filter`. */
module Seqs {

  function Filter<T>(xs: seq<T>, keep: T -> bool): (r: seq<T>)
    ensures |r| <= |xs|
    ensures forall i :: 0 <= i < |r| ==> keep(r[i]) && r[i] in xs
    ensures forall x :: x in xs && keep(x) ==> x in r
  {
    if |xs| == 0 then []
    else
      var rest := Filter(xs[1..], keep);
      if keep(xs[0]) then [xs[0]] + rest else rest
  }

  /** Filtering distributes over concatenation, so kept elements keep their order. */
  lemma {:induction false} FilterConcat<T>(a: seq<T>, b: seq<T>, keep: T -> bool)
    ensures Filter(a + b, keep) == Filter(a, keep) + Filter(b, keep)
  {
    if |a| == 0 {
      assert a + b == b;
    } else {
      assert (a + b)[1..] == a[1..] + b;
      FilterConcat(a[1..], b, keep);
    }
  }

  /** A filter that keeps everything returns its input. */
  lemma {:induction false} FilterKeepsAll<T>(xs: seq<T>, keep: T -> bool)
    requires forall i :: 0 <= i < |xs| ==> keep(xs[i])
    ensures Filter(xs, keep) == xs
  {
    if |xs| > 0 {
      FilterKeepsAll(xs[1..], keep);
      assert xs == [xs[0]] + xs[1..];
    }
  }

  /** A filter that keeps nothing returns the empty sequence. */
  lemma {:induction false} FilterDropsAll<T>(xs: seq<T>, keep: T -> bool)
    requires forall i :: 0 <= i < |xs| ==> !keep(xs[i])
    ensures Filter(xs, keep) == []
  {
    if |xs| > 0 {
      FilterDropsAll(xs[1..], keep);
    }
  }

  /** No two elements share a key. */
  predicate UniqueBy<T, K(==)>(xs: seq<T>, key: T -> K) {
    forall i, j :: 0 <= i < j < |xs| ==> key(xs[i]) != key(xs[j])
  }

  /** Filtering never introduces a repeated key. */
  lemma {:induction false} FilterUniqueBy<T, K>(xs: seq<T>, keep: T -> bool, key: T -> K)
    requires UniqueBy(xs, key)
    ensures UniqueBy(Filter(xs, keep), key)
  {
    if |xs| > 0 {
      var rest := Filter(xs[1..], keep);
      assert UniqueBy(xs[1..], key) by {
        forall i, j | 0 <= i < j < |xs[1..]| ensures key(xs[1..][i]) != key(xs[1..][j]) {
          assert xs[1..][i] == xs[i + 1] && xs[1..][j] == xs[j + 1];
        }
      }
      FilterUniqueBy(xs[1..], keep, key);
      if keep(xs[0]) {
        forall j | 0 <= j < |rest| ensures key(xs[0]) != key(rest[j]) {
          var m :| 0 <= m < |xs[1..]| && xs[1..][m] == rest[j];
          assert xs[m + 1] == rest[j];
        }
        var r := [xs[0]] + rest;
        forall i, j | 0 <= i < j < |r| ensures key(r[i]) != key(r[j]) {
          if i == 0 {
            assert r[j] == rest[j - 1];
          } else {
            assert r[i] == rest[i - 1] && r[j] == rest[j - 1];
          }
        }
      }
    }
  }
}

=== FILE: signup_screen.dfy ===
/** The signup screen: it trims the form, checks it in a fixed order, builds
    the address line and the profile payload, hands them to the store's
    `signup`, and turns the store's reply into the message it shows. */
module SignupScreen {
  import opened Js
  import AuthStore

  datatype SignupForm = SignupForm(
    email: string,
    password: string,
    confirmPassword: string,
    fullName: string,
    companyName: string,
    phone: string,
    taxId: string,
    street: string,
    houseNumber: string,
    postalCode: string,
    state: string,
    sector: string)

  /** Every field trimmed except the two passwords. */
  function TrimForm(f: SignupForm): (t: SignupForm)
    ensures t.password == f.password && t.confirmPassword == f.confirmPassword
    ensures TrimmedFrom(f.email, t.email) && TrimmedFrom(f.fullName, t.fullName)
      && TrimmedFrom(f.companyName, t.companyName) && TrimmedFrom(f.phone, t.phone)
      && TrimmedFrom(f.taxId, t.taxId) && TrimmedFrom(f.street, t.street)
      && TrimmedFrom(f.houseNumber, t.houseNumber) && TrimmedFrom(f.postalCode, t.postalCode)
      && TrimmedFrom(f.state, t.state) && TrimmedFrom(f.sector, t.sector)
  {
    SignupForm(
      Trim(f.email), f.password, f.confirmPassword, Trim(f.fullName), Trim(f.companyName), Trim(f.phone),
      Trim(f.taxId), Trim(f.street), Trim(f.houseNumber), Trim(f.postalCode), Trim(f.state), Trim(f.sector))
  }

  /** Trimming a trimmed form changes nothing. */
  lemma TrimFormIdempotent(f: SignupForm)
    ensures TrimForm(TrimForm(f)) == TrimForm(f)
  {
    TrimIdempotent(f.email);
    TrimIdempotent(f.fullName);
    TrimIdempotent(f.companyName);
    TrimIdempotent(f.phone);
    TrimIdempotent(f.taxId);
    TrimIdempotent(f.street);
    TrimIdempotent(f.houseNumber);
    TrimIdempotent(f.postalCode);
    TrimIdempotent(f.state);
    TrimIdempotent(f.sector);
  }

  // ---------------------------------------------------------------------
  // e-mail format

  /** A character of the class `[^\s@]`. */
  predicate Plain(c: char) {
    !IsSpace(c) && c != '@'
  }

  predicate AllPlain(s: string) {
    forall k :: 0 <= k < |s| ==> Plain(s[k])
  }

  /** The screen's regex `^[^\s@]+@[^\s@]+\.[^\s@]+$`: a plain run, `@`, a
      plain run, a dot, a plain run. */
  predicate EmailPattern(s: string) {
    exists i, j :: 0 < i && i + 1 < j && j + 1 < |s| && s[i] == '@' && s[j] == '.'
      && AllPlain(s[..i]) && AllPlain(s[i + 1..j]) && AllPlain(s[j + 1..])
  }

  /** The number of `@` in `s`. */
  function AtCount(s: string): nat
    decreases |s|
  {
    if s == [] then 0 else (if s[0] == '@' then 1 else 0) + AtCount(s[1..])
  }

  lemma {:induction false} AtCountConcat(a: string, b: string)
    ensures AtCount(a + b) == AtCount(a) + AtCount(b)
    decreases |a|
  {
    if a != [] {
      var ab := a + b;
      assert ab != [] && ab[0] == a[0] && ab[1..] == a[1..] + b;
      AtCountConcat(a[1..], b);
    } else {
      assert a + b == b;
    }
  }

  lemma {:induction false} AtCountZero(s: string)
    ensures AtCount(s) == 0 <==> '@' !in s
    decreases |s|
  {
    if s != [] {
      AtCountZero(s[1..]);
      assert s == [s[0]] + s[1..];
    }
  }

  /** The position of the first `@`, or `|s|` when there is none. */
  function FirstAt(s: string): (i: nat)
    ensures i <= |s| && '@' !in s[..i]
    ensures i < |s| ==> s[i] == '@'
    decreases |s|
  {
    if s == [] || s[0] == '@' then 0
    else
      var i := 1 + FirstAt(s[1..]);
      assert s[..i] == [s[0]] + s[1..][..i - 1];
      i
  }

  lemma FirstAtIs(s: string, i: nat)
    requires i < |s| && s[i] == '@' && '@' !in s[..i]
    ensures FirstAt(s) == i
  {
  }

  /** A dot that is neither the first nor the last character. */
  predicate DotInside(d: string) {
    |d| >= 3 && '.' in d[1..|d| - 1]
  }

  /** The e-mail shape in words: no whitespace, exactly one `@`, something
      before it, and after it a domain with a dot that is not at either end. */
  predicate EmailShape(s: string) {
    NoSpace(s) && AtCount(s) == 1 && var i := FirstAt(s); 0 < i < |s| && DotInside(s[i + 1..])
  }

  lemma SplitAt(s: string, i: nat)
    requires i < |s|
    ensures AtCount(s) == AtCount(s[..i]) + (if s[i] == '@' then 1 else 0) + AtCount(s[i + 1..])
  {
    assert s == s[..i] + ([s[i]] + s[i + 1..]);
    AtCountConcat(s[..i], [s[i]] + s[i + 1..]);
    AtCountConcat([s[i]], s[i + 1..]);
  }

  lemma PatternHasShape(s: string, i: nat, j: nat)
    requires 0 < i && i + 1 < j && j + 1 < |s| && s[i] == '@' && s[j] == '.'
    requires AllPlain(s[..i]) && AllPlain(s[i + 1..j]) && AllPlain(s[j + 1..])
    ensures EmailShape(s)
  {
    assert '@' !in s[..i];
    FirstAtIs(s, i);
    var d := s[i + 1..];
    assert d == s[i + 1..j] + [s[j]] + s[j + 1..];
    assert '@' !in d;
    AtCountZero(s[..i]);
    AtCountZero(d);
    SplitAt(s, i);
    assert NoSpace(s) by {
      forall k | 0 <= k < |s|
        ensures !IsSpace(s[k])
      {
        if k < i {
          assert Plain(s[..i][k]);
        } else if i < k < j {
          assert Plain(s[i + 1..j][k - i - 1]);
        } else if j < k {
          assert Plain(s[j + 1..][k - j - 1]);
        }
      }
    }
    assert d[1..|d| - 1][j - i - 2] == '.';
  }

  lemma PlainSlice(s: string, lo: nat, hi: nat)
    requires lo <= hi <= |s| && NoSpace(s) && '@' !in s[lo..hi]
    ensures AllPlain(s[lo..hi])
  {
    forall k | 0 <= k < hi - lo
      ensures Plain(s[lo..hi][k])
    {
      assert s[lo..hi][k] == s[lo + k];
    }
  }

  lemma ShapeHasPattern(s: string)
    requires EmailShape(s)
    ensures EmailPattern(s)
  {
    var i := FirstAt(s);
    var d := s[i + 1..];
    var m :| 0 <= m < |d| - 2 && d[1..|d| - 1][m] == '.';
    var j := i + 2 + m;
    SplitAt(s, i);
    AtCountZero(d);
    assert s[..i] == s[0..i];
    PlainSlice(s, 0, i);
    assert s[i + 1..j] == d[..j - i - 1];
    PlainSlice(s, i + 1, j);
    assert s[j + 1..] == d[j - i..];
    assert s[j + 1..] == s[j + 1..|s|];
    PlainSlice(s, j + 1, |s|);
    assert s[j] == '.';
  }

  /** The regex accepts exactly the strings of the worded shape. */
  lemma EmailPatternIsShape(s: string)
    ensures EmailPattern(s) <==> EmailShape(s)
  {
    if EmailPattern(s) {
      var i, j :| 0 < i && i + 1 < j && j + 1 < |s| && s[i] == '@' && s[j] == '.'
        && AllPlain(s[..i]) && AllPlain(s[i + 1..j]) && AllPlain(s[j + 1..]);
      PatternHasShape(s, i, j);
    }
    if EmailShape(s) {
      ShapeHasPattern(s);
    }
  }

  // ---------------------------------------------------------------------
  // validation

  const FullNameRequired := "Ad ve soyad zorunludur"
  const EmailRequired := "E-posta adresi zorunludur"
  const EmailInvalid := "Geçerli bir e-posta adresi giriniz"
  const CompanyRequired := "Firma adı zorunludur"
  const PhoneRequired := "Telefon numarası zorunludur"
  const SectorRequired := "Sektör seçimi zorunludur"
  const PostalCodeInvalid := "Posta kodu 5 haneli olmalıdır (örn: 10115)"
  const PasswordTooShort := "Şifre en az 6 karakter olmalıdır"
  const PasswordsDiffer := "Şifreler eşleşmiyor"
  const UnexpectedError := "Kayıt olma işlemi sırasında bir hata oluştu"

  /** No postal code, or the five ASCII digits of `^\d{5}$`. */
  predicate PostalCodeOk(p: string) {
    p == "" || (|p| == 5 && forall k :: 0 <= k < 5 ==> IsDecimalDigit(p[k]))
  }

  /** The name and e-mail checks pass. */
  predicate NameAndEmailOk(t: SignupForm) {
    t.fullName != "" && t.email != "" && EmailShape(t.email)
  }

  /** The name, e-mail, company, phone and sector checks pass. */
  predicate ContactOk(t: SignupForm) {
    NameAndEmailOk(t) && t.companyName != "" && t.phone != "" && t.sector != ""
  }

  /** The first check a trimmed form fails, in the screen's order. */
  function Problem(t: SignupForm): (r: Option<string>)
    ensures r.None? <==>
      t.fullName != "" && t.email != "" && EmailShape(t.email) && t.companyName != "" && t.phone != ""
      && t.sector != "" && PostalCodeOk(t.postalCode) && |t.password| >= 6 && t.password == t.confirmPassword
    ensures t.fullName == "" ==> r == Some(FullNameRequired)
    ensures t.fullName != "" && t.email == "" ==> r == Some(EmailRequired)
    ensures t.fullName != "" && t.email != "" && !EmailShape(t.email) ==> r == Some(EmailInvalid)
    ensures NameAndEmailOk(t) && t.companyName == "" ==> r == Some(CompanyRequired)
    ensures NameAndEmailOk(t) && t.companyName != "" && t.phone == "" ==> r == Some(PhoneRequired)
    ensures NameAndEmailOk(t) && t.companyName != "" && t.phone != "" && t.sector == "" ==>
      r == Some(SectorRequired)
    ensures ContactOk(t) && !PostalCodeOk(t.postalCode) ==> r == Some(PostalCodeInvalid)
    ensures ContactOk(t) && PostalCodeOk(t.postalCode) && |t.password| < 6 ==> r == Some(PasswordTooShort)
    ensures ContactOk(t) && PostalCodeOk(t.postalCode) && |t.password| >= 6 && t.password != t.confirmPassword ==>
      r == Some(PasswordsDiffer)
    ensures r == Some(CompanyRequired) ==> t.companyName == "" && EmailShape(t.email)
    ensures r == Some(PhoneRequired) ==> t.phone == "" && t.companyName != "" && EmailShape(t.email)
    ensures r == Some(SectorRequired) ==> t.sector == "" && t.phone != "" && t.companyName != "" && EmailShape(t.email)
    ensures r == Some(PostalCodeInvalid) ==> !PostalCodeOk(t.postalCode) && t.sector != ""
    ensures r == Some(PasswordTooShort) ==> |t.password| < 6 && PostalCodeOk(t.postalCode) && t.sector != ""
    ensures r == Some(PasswordsDiffer) ==> |t.password| >= 6 && PostalCodeOk(t.postalCode) && t.sector != ""
  {
    EmailPatternIsShape(t.email);
    if t.fullName == "" then Some(FullNameRequired)
    else if t.email == "" then Some(EmailRequired)
    else if !EmailPattern(t.email) then Some(EmailInvalid)
    else if t.companyName == "" then Some(CompanyRequired)
    else if t.phone == "" then Some(PhoneRequired)
    else if t.sector == "" then Some(SectorRequired)
    else if t.postalCode != "" && !PostalCodeOk(t.postalCode) then Some(PostalCodeInvalid)
    else if |t.password| < 6 then Some(PasswordTooShort)
    else if t.password != t.confirmPassword then Some(PasswordsDiffer)
    else None
  }

  /** Surrounding whitespace never fails a check. */
  lemma PaddingIgnored(f: SignupForm, g: SignupForm)
    requires TrimForm(f) == TrimForm(g)
    ensures Problem(TrimForm(f)) == Problem(TrimForm(g))
  {
  }

  // ---------------------------------------------------------------------
  // address and payload

  /** The address parts: "street houseNumber" only when both are given, then
      the postal code, then the state, each only when given. */
  function AddressParts(t: SignupForm): (parts: seq<string>)
    ensures forall k :: 0 <= k < |parts| ==> parts[k] != ""
    ensures parts == [] <==> (t.street == "" || t.houseNumber == "") && t.postalCode == "" && t.state == ""
    ensures |parts| == StreetCount(t) + (if t.postalCode != "" then 1 else 0) + (if t.state != "" then 1 else 0)
    ensures StreetCount(t) == 1 ==> parts[0] == t.street + " " + t.houseNumber
    ensures t.postalCode != "" ==> parts[StreetCount(t)] == t.postalCode
    ensures t.state != "" ==> parts[|parts| - 1] == t.state
  {
    (if t.street != "" && t.houseNumber != "" then [t.street + " " + t.houseNumber] else [])
    + (if t.postalCode != "" then [t.postalCode] else [])
    + (if t.state != "" then [t.state] else [])
  }

  /** 1 when the street part is present, else 0. */
  function StreetCount(t: SignupForm): nat {
    if t.street != "" && t.houseNumber != "" then 1 else 0
  }

  /** `parts.join(sep)`. */
  function Join(parts: seq<string>, sep: string): (r: string)
    ensures parts == [] ==> r == ""
    ensures |parts| == 1 ==> r == parts[0]
    ensures parts != [] ==> parts[0] <= r
  {
    if |parts| == 0 then ""
    else if |parts| == 1 then parts[0]
    else parts[0] + sep + Join(parts[1..], sep)
  }

  /** Where part `k` starts in `Join(parts, sep)`: the earlier parts, each
      followed by one separator. */
  function Offset(parts: seq<string>, sep: string, k: nat): nat
    requires k <= |parts|
  {
    if k == 0 then 0 else |parts[0]| + |sep| + Offset(parts[1..], sep, k - 1)
  }

  /** The joined text holds part `k` at its offset. */
  lemma {:induction false} JoinPart(parts: seq<string>, sep: string, k: nat)
    requires k < |parts|
    ensures Offset(parts, sep, k) + |parts[k]| <= |Join(parts, sep)|
    ensures Join(parts, sep)[Offset(parts, sep, k)..Offset(parts, sep, k) + |parts[k]|] == parts[k]
    decreases k
  {
    if |parts| > 1 {
      var head, rest := parts[0] + sep, Join(parts[1..], sep);
      assert Join(parts, sep) == head + rest;
      if k > 0 {
        JoinPart(parts[1..], sep, k - 1);
        var o := Offset(parts[1..], sep, k - 1);
        ShiftSlice(head, rest, o, o + |parts[k]|);
      }
    }
  }

  /** The separator follows every part but the last. */
  lemma {:induction false} JoinSeparator(parts: seq<string>, sep: string, k: nat)
    requires k + 1 < |parts|
    ensures Offset(parts, sep, k) + |parts[k]| + |sep| <= |Join(parts, sep)|
    ensures Join(parts, sep)[Offset(parts, sep, k) + |parts[k]|..Offset(parts, sep, k) + |parts[k]| + |sep|] == sep
    decreases k
  {
    var head, rest := parts[0] + sep, Join(parts[1..], sep);
    assert Join(parts, sep) == head + rest;
    if k == 0 {
      SeparatorAfterHead(parts[0], sep, rest);
    } else {
      JoinSeparator(parts[1..], sep, k - 1);
      assert parts[1..][k - 1] == parts[k];
      assert Offset(parts, sep, k) == |head| + Offset(parts[1..], sep, k - 1);
      var o := Offset(parts[1..], sep, k - 1) + |parts[k]|;
      ShiftSlice(head, rest, o, o + |sep|);
    }
  }

  /** The joined text ends with the last part. */
  lemma {:induction false} JoinLength(parts: seq<string>, sep: string)
    requires |parts| > 0
    ensures |Join(parts, sep)| == Offset(parts, sep, |parts| - 1) + |parts[|parts| - 1]|
    decreases |parts|
  {
    if |parts| > 1 {
      JoinLength(parts[1..], sep);
    }
  }

  lemma SeparatorAfterHead(a: string, sep: string, rest: string)
    ensures (a + sep + rest)[|a|..|a| + |sep|] == sep
  {
    assert (a + sep + rest)[|a|..|a| + |sep|] == (a + sep)[|a|..];
  }

  /** A slice past the first piece of a concatenation is a slice of the second. */
  lemma ShiftSlice(a: string, b: string, i: nat, j: nat)
    requires i <= j <= |b|
    ensures (a + b)[|a| + i..|a| + j] == b[i..j]
  {
  }

  /** `addressParts.join(', ') || null`. */
  function Address(t: SignupForm): (r: Option<string>)
    ensures r.None? <==> (t.street == "" || t.houseNumber == "") && t.postalCode == "" && t.state == ""
    ensures r.Some? ==> r.value != ""
  {
    var line := Join(AddressParts(t), ", ");
    if line == "" then None else Some(line)
  }

  /** With every field given the address reads "street number, postal, state". */
  lemma FullAddress(t: SignupForm)
    requires t.street != "" && t.houseNumber != "" && t.postalCode != "" && t.state != ""
    ensures Address(t) == Some(t.street + " " + t.houseNumber + ", " + t.postalCode + ", " + t.state)
  {
    var parts := AddressParts(t);
    assert parts == [t.street + " " + t.houseNumber, t.postalCode, t.state];
    assert parts[1..][1..] == [t.state];
    assert Join(parts[1..][1..], ", ") == t.state;
    assert Join(parts[1..], ", ") == t.postalCode + ", " + t.state;
    assert Join(parts, ", ") == parts[0] + ", " + (t.postalCode + ", " + t.state);
    assert parts[0] + ", " + (t.postalCode + ", " + t.state)
      == t.street + " " + t.houseNumber + ", " + t.postalCode + ", " + t.state;
  }

  /** Without a full street line the address is "postal, state". */
  lemma PostalAndStateAddress(t: SignupForm)
    requires t.street == "" || t.houseNumber == ""
    requires t.postalCode != "" && t.state != ""
    ensures Address(t) == Some(t.postalCode + ", " + t.state)
  {
    var parts := AddressParts(t);
    assert parts == [t.postalCode, t.state];
    assert parts[1..] == [t.state];
    assert Join(parts, ", ") == t.postalCode + ", " + t.state;
  }

  /** A street without a house number is left out of the address. */
  lemma StreetNeedsNumber(t: SignupForm)
    requires t.houseNumber == ""
    ensures Address(t) == Address(t.(street := ""))
  {
    assert AddressParts(t) == AddressParts(t.(street := ""));
  }

  /** The profile fields sent to the store. */
  function Payload(t: SignupForm): (d: AuthStore.UserData)
    ensures d.taxId.None? <==> t.taxId == ""
    ensures d.taxId.Some? ==> d.taxId.value == t.taxId
    ensures d.address == Address(t)
  {
    AuthStore.UserData(t.fullName, t.companyName, t.phone, t.sector, if t.taxId == "" then None else Some(t.taxId), Address(t))
  }

  /** A form that passes the screen's checks always passes the store's own
      required-field check, and the store writes tax id and address as sent. */
  lemma ScreenMeetsStoreCheck(f: SignupForm, id: string)
    requires Problem(TrimForm(f)).None?
    ensures AuthStore.HasRequired(Payload(TrimForm(f)))
    ensures var row := AuthStore.ProfileRowFor(id, TrimForm(f).email, Payload(TrimForm(f)));
      row.taxId == Payload(TrimForm(f)).taxId && row.address == Payload(TrimForm(f)).address
  {
  }

  // ---------------------------------------------------------------------
  // the store's reply

  const AlreadyRegisteredText := "Bu e-posta adresi zaten kayıtlı"
  const InvalidEmailText := "Geçersiz e-posta adresi"
  const WeakPasswordText := "Şifre çok zayıf. Lütfen daha güçlü bir şifre seçin."
  const SignupFailedText := "Kayıt işlemi başarısız"

  const RegisteredPhrase := "already registered"

  predicate SaysRegistered(e: AuthStore.ErrorObject) {
    e.code == Some("user_already_exists") || MentionsOpt(e.message, RegisteredPhrase)
    || MentionsOpt(e.message, AlreadyRegisteredText)
  }

  predicate SaysInvalidEmail(e: AuthStore.ErrorObject) {
    e.code == Some("invalid_email") || MentionsOpt(e.message, "Invalid email") || MentionsOpt(e.message, InvalidEmailText)
  }

  predicate SaysWeakPassword(e: AuthStore.ErrorObject) {
    e.code == Some("weak_password") || MentionsOpt(e.message, "Password") || MentionsOpt(e.message, "Şifre çok zayıf")
  }

  /** The text shown for a store error: by code or message, in this order,
      already registered, invalid e-mail, weak password; otherwise the
      message itself or a generic text. */
  function ErrorText(e: AuthStore.ErrorObject): (r: string)
    ensures SaysRegistered(e) ==> r == AlreadyRegisteredText
    ensures !SaysRegistered(e) && SaysInvalidEmail(e) ==> r == InvalidEmailText
    ensures !SaysRegistered(e) && !SaysInvalidEmail(e) && SaysWeakPassword(e) ==> r == WeakPasswordText
    ensures !SaysRegistered(e) && !SaysInvalidEmail(e) && !SaysWeakPassword(e) ==>
      r == StringOr(e.message, SignupFailedText)
    ensures r != ""
  {
    if SaysRegistered(e) then AlreadyRegisteredText
    else if SaysInvalidEmail(e) then InvalidEmailText
    else if SaysWeakPassword(e) then WeakPasswordText
    else StringOr(e.message, SignupFailedText)
  }

  /** The store's already-registered error shows its own text. */
  lemma RegisteredTextShown()
    ensures ErrorText(AuthStore.AlreadyRegistered) == AuthStore.AlreadyRegistered.message.value
  {
  }

  /** The invalid-e-mail message has no `y`, so it does not mention the
      registered phrase. */
  lemma InvalidEmailLacksPhrase()
    ensures !MentionsOpt(AuthStore.InvalidEmail.message, RegisteredPhrase)
  {
    NotContainsByChar(InvalidEmailText, RegisteredPhrase, 6);
  }

  /** Nor, having no `B`, the already-registered text. */
  lemma InvalidEmailLacksRegisteredText()
    ensures !MentionsOpt(AuthStore.InvalidEmail.message, AlreadyRegisteredText)
  {
    NotContainsByChar(InvalidEmailText, AlreadyRegisteredText, 0);
  }

  /** The store's invalid-e-mail error shows its own text. */
  lemma InvalidEmailTextShown()
    ensures ErrorText(AuthStore.InvalidEmail) == AuthStore.InvalidEmail.message.value
  {
    InvalidEmailLacksPhrase();
    InvalidEmailLacksRegisteredText();
    assert !SaysRegistered(AuthStore.InvalidEmail);
  }

  /** What `onSignup` gave back: its error and verification flag, or a throw. */
  datatype SignupReply = Returned(error: Option<AuthStore.ErrorObject>, needsVerification: bool) | Threw

  datatype Request = Request(email: string, password: string, data: AuthStore.UserData)

  /** What pressing the button did: the request sent, the error shown, and the
      e-mail handed to the verification screen. */
  datatype SignupOutcome = SignupOutcome(sent: Option<Request>, error: Option<string>, verifyEmail: Option<string>)

  /** `handleSignup`. */
  function HandleSignup(f: SignupForm, reply: SignupReply): (r: SignupOutcome)
    ensures r.sent.None? <==> Problem(TrimForm(f)).Some?
    ensures r.sent.None? ==> r.error == Problem(TrimForm(f)) && r.verifyEmail.None?
    ensures r.sent.Some? ==> r.sent.value == Request(Trim(f.email), f.password, Payload(TrimForm(f)))
    ensures r.verifyEmail.Some? ==>
      r.sent.Some? && r.verifyEmail.value == r.sent.value.email && r.error.None?
      && reply.Returned? && reply.needsVerification
    ensures r.sent.Some? && reply.Threw? ==> r.error == Some(UnexpectedError)
    ensures r.sent.Some? && reply.Returned? && reply.needsVerification ==> r.verifyEmail.Some?
    ensures r.sent.Some? && reply.Returned? && !reply.needsVerification ==>
      r.verifyEmail.None? && (reply.error.Some? <==> r.error.Some?)
      && (reply.error.Some? ==> r.error == Some(ErrorText(reply.error.value)))
  {
    var t := TrimForm(f);
    var problem := Problem(t);
    if problem.Some? then SignupOutcome(None, problem, None)
    else
      var request := Request(t.email, t.password, Payload(t));
      match reply
      case Threw => SignupOutcome(Some(request), Some(UnexpectedError), None)
      case Returned(error, needsVerification) =>
        if needsVerification then SignupOutcome(Some(request), None, Some(t.email))
        else if error.Some? then SignupOutcome(Some(request), Some(ErrorText(error.value)), None)
        else SignupOutcome(Some(request), None, None)
  }

  /** A valid form sent to the store: the store calls the auth service, and
      a reply without a session takes the screen to verification. */
  lemma SignupNeedingVerification(
    f: SignupForm, s: AuthStore.AuthState, user: AuthStore.AuthUser, insert: AuthStore.Outcome<()>,
    profile: Option<AuthStore.Profile>)
    requires Problem(TrimForm(f)).None?
    ensures var req := HandleSignup(f, Threw).sent.value;
      var step := AuthStore.Signup(s, req.email, req.data, AuthStore.Done(AuthStore.AuthData(Some(user), None)), insert, profile);
      step.authCalled && step.needsVerification
      && HandleSignup(f, Returned(step.error, step.needsVerification)).verifyEmail == Some(Trim(f.email))
  {
    ScreenMeetsStoreCheck(f, user.id);
  }
}

=== FILE: user_service.dfy ===
/** `listUsers`: the users query, newest first, with administrators left out.
    The query's reply is a parameter. */
module UserService {
  import opened Js
  import opened Backend
  import opened Seqs

  /** A row of `users` with the role from the joined auth user's app metadata;
      `role` is None when the auth user, its metadata or its role is missing. */
  datatype UserRow = UserRow(
    id: string,
    email: string,
    fullName: string,
    companyName: string,
    phone: string,
    sector: string,
    createdAt: string,
    role: Option<string>)

  const ListFailure := "Kullanıcılar listelenirken bir hata oluştu."

  /** The filter: kept when the role is missing or falsy, or is not 'admin'. */
  predicate Listed(u: UserRow)
    ensures Listed(u) <==> u.role != Some("admin")
  {
    u.role.None? || u.role.value == "" || u.role.value != "admin"
  }

  /** `listUsers`, given the query's reply; any error gives the one message. */
  function ListUsers(reply: Reply<seq<UserRow>>): (r: ServiceResult<seq<UserRow>>)
    ensures r.Success? <==> reply.Ok?
    ensures reply.Err? ==> r == Failure(ListFailure)
    ensures reply.Ok? ==>
      (forall i :: 0 <= i < |r.data| ==> r.data[i].role != Some("admin") && r.data[i] in reply.value)
      && (forall u :: u in reply.value && u.role != Some("admin") ==> u in r.data)
  {
    match reply
    case Err(_) => Failure(ListFailure)
    case Ok(rows) => Success(Filter(rows, Listed))
  }

  /** The filter keeps the query's order: the users of an earlier stretch of
      rows come before those of a later one. */
  lemma ListKeepsOrder(a: seq<UserRow>, b: seq<UserRow>)
    ensures ListUsers(Ok(a + b)).data == ListUsers(Ok(a)).data + ListUsers(Ok(b)).data
  {
    FilterConcat(a, b, Listed);
  }

  /** Without administrators, the list is the query's rows as they came. */
  lemma NoAdminsListsAll(rows: seq<UserRow>)
    requires forall i :: 0 <= i < |rows| ==> rows[i].role != Some("admin")
    ensures ListUsers(Ok(rows)) == Success(rows)
  {
    FilterKeepsAll(rows, Listed);
  }
}
